=== FILE: README.md ===
# SpeakOut suggestion box, modelled in Dafny

A model of the back end of SpeakOut, an employee suggestion box. Employees submit
suggestions, openly or anonymously. Anyone may vote once per device. Administrators
move suggestions through six review states (Open, Under Review, In Progress, On Hold,
Implemented, Rejected), soft-delete them and purge them. Every status change is
written to a history table.

The model covers five services (suggestion, vote, status history, admin, employee),
the four entities and the four repositories behind them. The whole database is one
immutable value, `Store.Store`:

- `employees`, `suggestions` and `votes` are maps from generated keys to rows;
- `history` is the status-history table as a sequence, in insertion order;
- `clock` supplies both the next generated key and the current time.

Every service operation is a pure function from a store to a `Result`. On success it
returns the new store together with the Java method's answer (`Store.Outcome`). On
failure it returns the exception the Java code throws, as a case of `Model.Error`, and
the store is left unchanged, just as a rolled-back transaction leaves the database.
The bulk status update and orphaned-vote cleanup are methods with loops, as in the
source.

`Store.Valid` collects the database integrity the services rely on:

- every key and timestamp lies below the clock;
- creation times grow with the keys;
- foreign keys resolve;
- the unique constraint holds on `(suggestion, device)` votes and on employee emails;
- bean-validation and column bounds hold on every row;
- the counter of every live suggestion equals its number of vote rows;
- every suggestion's history is a chain: it starts with the creation row (no previous
  status, "Open", by "System"), each row starts where the previous one ended, and the
  last row ends at the suggestion's current status.

The `Integrity` module proves that every writing operation keeps `Valid`.

Modules follow the source's packages. `Model` and `Status` hold the entities,
`Store` the database and its invariant, and there is one module per repository and
per service. `Text`, `Seqs`, `Sorting` and `Grouping` are helpers for string
trimming, SQL `LIKE`, filtering, sorting and `GROUP BY`.

## Model

| member | source | states |
|---|---|---|
| Status.DisplayName | Employee-Suggestion/src/main/java/com/fleetstudio/Employee/Suggestion/model/SuggestionStatus.java:3-19 | Each status has a non-empty display name in which no space is followed by "t" or by the arrow, so descriptions built from names split in one way only. |
| Status.ParseDisplayName | Employee-Suggestion/src/main/java/com/fleetstudio/Employee/Suggestion/model/SuggestionStatus.java:3-19 | Finds the status with a given display name; it answers none exactly when no status has that name. |
| Status.ParseDisplayNameRoundTrip | Employee-Suggestion/src/main/java/com/fleetstudio/Employee/Suggestion/model/SuggestionStatus.java:3-19 | Looking up a status's display name gives back that status. |
| Status.DisplayNameInjective | Employee-Suggestion/src/main/java/com/fleetstudio/Employee/Suggestion/model/SuggestionStatus.java:3-9 | Different statuses have different display names. |
| Status.AllStatusesComplete | Employee-Suggestion/src/main/java/com/fleetstudio/Employee/Suggestion/model/SuggestionStatus.java:3-9 | The enum lists six statuses, each exactly once. |
| Status.ToString | Employee-Suggestion/src/main/java/com/fleetstudio/Employee/Suggestion/model/SuggestionStatus.java:21-24 | `toString()` gives the display name: a text that looking up by display name turns back into the same status. |
| Status.LowerName | Employee-Suggestion/src/main/java/com/fleetstudio/Employee/Suggestion/service/SuggestionService.java:225-227 | The statistics key of a status is as long as the constant's name. |
| Status.LowerNameDistinct | Employee-Suggestion/src/main/java/com/fleetstudio/Employee/Suggestion/service/SuggestionService.java:220-228 | Different statuses get different statistics keys, and no key collides with "total" or "anonymous". |
| Model.NewEmployee | Employee-Suggestion/src/main/java/com/fleetstudio/Employee/Suggestion/model/Employee.java:62-69 | The four-argument constructor copies name, email, department and position, and sets no role and no password. |
| Model.NewSuggestion | Employee-Suggestion/src/main/java/com/fleetstudio/Employee/Suggestion/model/Suggestion.java:68-78 | A new suggestion starts Open, with no votes and not deleted, and keeps its text, submitter and anonymity. |
| Model.IncrementVoteCount | Employee-Suggestion/src/main/java/com/fleetstudio/Employee/Suggestion/model/Suggestion.java:97-99 | Raises the counter by one and changes no other field. |
| Model.DecrementVoteCount | Employee-Suggestion/src/main/java/com/fleetstudio/Employee/Suggestion/model/Suggestion.java:101-105 | Lowers a positive counter by one and leaves one at or below zero alone. A counter that was not negative stays not negative, and no other field changes. |
| Model.DecrementUndoesIncrement | Employee-Suggestion/src/main/java/com/fleetstudio/Employee/Suggestion/model/Suggestion.java:97-105 | For a counter that is not negative, an increment followed by a decrement restores the suggestion. |
| Model.SoftDelete | Employee-Suggestion/src/main/java/com/fleetstudio/Employee/Suggestion/model/Suggestion.java:107-110 | Marks the suggestion deleted with its deletion time. Status, counter and every other field stay. |
| Model.SubmitterName | Employee-Suggestion/src/main/java/com/fleetstudio/Employee/Suggestion/model/Suggestion.java:112-117 | "Anonymous" for an anonymous or unattributed suggestion; otherwise the submitter's name. |
| Model.SubmitterId | Employee-Suggestion/src/main/java/com/fleetstudio/Employee/Suggestion/model/Suggestion.java:88-90 | Null exactly when no submitter is attributed; otherwise the submitter's id. |
| Model.NewVote | Employee-Suggestion/src/main/java/com/fleetstudio/Employee/Suggestion/model/Vote.java:37-41 | A vote made by the two-argument constructor records no employee. |
| Model.NewEmployeeVote | Employee-Suggestion/src/main/java/com/fleetstudio/Employee/Suggestion/model/Vote.java:43-48 | A vote made by the three-argument constructor records the given suggestion, device and employee. |
| Model.NewHistoryEntry | Employee-Suggestion/src/main/java/com/fleetstudio/Employee/Suggestion/model/SuggestionStatusHistory.java:40-47 | The four-argument constructor records no reason. |
| Model.NewHistoryEntryWithReason | Employee-Suggestion/src/main/java/com/fleetstudio/Employee/Suggestion/model/SuggestionStatusHistory.java:49-57 | The five-argument constructor stores the previous status, new status, actor and reason as given. |
| Store.EmptyValid | Employee-Suggestion/src/main/java/com/fleetstudio/Employee/Suggestion/model/Vote.java:8-9 | The empty database satisfies every integrity condition, including the unique vote constraint. |
| Store.DeviceVoteIsUnique | Employee-Suggestion/src/main/java/com/fleetstudio/Employee/Suggestion/model/Vote.java:8-9 | Under the unique constraint a device holds at most one vote per suggestion. |
| Store.RemoveSuggestions | Employee-Suggestion/src/main/java/com/fleetstudio/Employee/Suggestion/model/Suggestion.java:58-63 | Removing suggestions cascades to their votes and history and leaves employees alone. |
| SuggestionRepository.FindByDeletedFalseOrderByCreatedAtDesc | Employee-Suggestion/src/main/java/com/fleetstudio/Employee/Suggestion/repository/SuggestionRepository.java:24 | Lists exactly the live suggestions, newest first. |
| SuggestionRepository.FindByIdAndDeletedFalse | Employee-Suggestion/src/main/java/com/fleetstudio/Employee/Suggestion/repository/SuggestionRepository.java:34 | Finds the suggestion exactly when it exists and is not soft-deleted. |
| SuggestionRepository.FindByStatusAndDeletedFalseOrderByCreatedAtDesc | Employee-Suggestion/src/main/java/com/fleetstudio/Employee/Suggestion/repository/SuggestionRepository.java:39 | Lists exactly the live suggestions in the given status, newest first. |
| SuggestionRepository.FindBySubmittedByAndDeletedFalseOrderByCreatedAtDesc | Employee-Suggestion/src/main/java/com/fleetstudio/Employee/Suggestion/repository/SuggestionRepository.java:49 | Lists exactly the employee's live suggestions, newest first. |
| SuggestionRepository.FindByIsAnonymousTrueAndDeletedFalseOrderByCreatedAtDesc | Employee-Suggestion/src/main/java/com/fleetstudio/Employee/Suggestion/repository/SuggestionRepository.java:54 | Lists exactly the live anonymous suggestions, newest first. |
| SuggestionRepository.FindByTitleContainingIgnoreCaseAndDeletedFalseOrderByCreatedAtDesc | Employee-Suggestion/src/main/java/com/fleetstudio/Employee/Suggestion/repository/SuggestionRepository.java:59 | Lists exactly the live suggestions whose title contains the term, ignoring case, newest first. |
| SuggestionRepository.FindByDescriptionContainingIgnoreCaseAndDeletedFalseOrderByCreatedAtDesc | Employee-Suggestion/src/main/java/com/fleetstudio/Employee/Suggestion/repository/SuggestionRepository.java:64 | The same as the title search, over the description. |
| SuggestionRepository.SearchByTitleOrDescription | Employee-Suggestion/src/main/java/com/fleetstudio/Employee/Suggestion/repository/SuggestionRepository.java:69-73 | Lists exactly the live suggestions whose lower-cased title or description matches `%term%` under SQL `LIKE`, newest first. |
| SuggestionRepository.SearchIsSubstringSearch | Employee-Suggestion/src/main/java/com/fleetstudio/Employee/Suggestion/repository/SuggestionRepository.java:69-73 | For a term without `%` or `_`, the `LIKE` search is a case-insensitive substring search. |
| SuggestionRepository.FindTopByVoteCount | Employee-Suggestion/src/main/java/com/fleetstudio/Employee/Suggestion/repository/SuggestionRepository.java:78-80 | Lists every live suggestion, most votes first and the newest first among ties. |
| SuggestionRepository.Ranked | Employee-Suggestion/src/main/java/com/fleetstudio/Employee/Suggestion/repository/SuggestionRepository.java:78-80 | A permutation of the given keys in that ranking order. |
| SuggestionRepository.MostVotedFirstIsOrder | Employee-Suggestion/src/main/java/com/fleetstudio/Employee/Suggestion/repository/SuggestionRepository.java:78-80 | The ranking comparison is total and transitive. |
| SuggestionRepository.FindRecentSuggestions | Employee-Suggestion/src/main/java/com/fleetstudio/Employee/Suggestion/repository/SuggestionRepository.java:85-87 | Lists exactly the live suggestions created at or after the date, newest first. |
| SuggestionRepository.FindByVoteCountGreaterThanEqual | Employee-Suggestion/src/main/java/com/fleetstudio/Employee/Suggestion/repository/SuggestionRepository.java:112-114 | Lists exactly the live suggestions with at least the given votes, in ranking order. |
| SuggestionRepository.CountIsListLength | Employee-Suggestion/src/main/java/com/fleetstudio/Employee/Suggestion/repository/SuggestionRepository.java:92-107 | Counting the rows a condition selects gives the length of that condition's newest-first list. |
| SuggestionRepository.CountsMatchLists | Employee-Suggestion/src/main/java/com/fleetstudio/Employee/Suggestion/repository/SuggestionRepository.java:92-107 | Each of the four count queries equals the length of its list query. |
| SuggestionRepository.GetStatusStatistics | Employee-Suggestion/src/main/java/com/fleetstudio/Employee/Suggestion/repository/SuggestionRepository.java:119-120 | One row per status that has live suggestions, holding that count. No status appears twice, and the rows add up to the number of live suggestions. |
| SuggestionRepository.SoftDeleteById | Employee-Suggestion/src/main/java/com/fleetstudio/Employee/Suggestion/repository/SuggestionRepository.java:125-128 | Marks a live suggestion deleted at the given time and answers 1; every other column of that row, and every other row, is unchanged. On any other id it answers 0 and changes nothing. |
| SuggestionRepository.UpdateStatusById | Employee-Suggestion/src/main/java/com/fleetstudio/Employee/Suggestion/repository/SuggestionRepository.java:133-138 | Sets a live suggestion's status and answers 1; on any other id it answers 0 and changes nothing. |
| SuggestionRepository.IncrementVoteCountById | Employee-Suggestion/src/main/java/com/fleetstudio/Employee/Suggestion/repository/SuggestionRepository.java:143-146 | Raises a live suggestion's counter by one and answers 1; every other column of that row, and every other row, is unchanged. On any other id it answers 0 and changes nothing. |
| SuggestionRepository.DecrementVoteCountById | Employee-Suggestion/src/main/java/com/fleetstudio/Employee/Suggestion/repository/SuggestionRepository.java:151-154 | Lowers a live suggestion's positive counter by one and sets a counter at or below zero to 0. Answers 1 for a live suggestion, whose other columns are unchanged, as is every other row; on any other id it answers 0 and changes nothing. |
| SuggestionRepository.DecrementByIdUndoesIncrement | Employee-Suggestion/src/main/java/com/fleetstudio/Employee/Suggestion/repository/SuggestionRepository.java:143-154 | On a live suggestion with a counter that is not negative, increment then decrement restores the database. |
| SuggestionRepository.FindByDeletedTrue | Employee-Suggestion/src/main/java/com/fleetstudio/Employee/Suggestion/repository/SuggestionRepository.java:156 | Lists exactly the soft-deleted suggestions. |
| SuggestionRepository.DeleteByDeleted | Employee-Suggestion/src/main/java/com/fleetstudio/Employee/Suggestion/repository/SuggestionRepository.java:157 | Removes exactly the suggestions with the given deleted flag, together with their votes and history rows. Everything else stays. |
| SuggestionService.ValidateSuggestionData | Employee-Suggestion/src/main/java/com/fleetstudio/Employee/Suggestion/service/SuggestionService.java:329-339 | Accepts exactly a non-blank title of at most 200 UTF-16 code units (Java's `length()`) and a non-blank description. It checks the title first, then the description, then the title's length, and each check has its own error. |
| SuggestionService.SupplementaryTitleTooLong | Employee-Suggestion/src/main/java/com/fleetstudio/Employee/Suggestion/service/SuggestionService.java:336-338 | A title of 101 emoji (characters outside the Basic Multilingual Plane) is refused as too long. Each emoji takes two UTF-16 units, so the title is 202 units long. |
| SuggestionService.ValidatedTextIsValid | Employee-Suggestion/src/main/java/com/fleetstudio/Employee/Suggestion/service/SuggestionService.java:329-339 | Text that passes validation meets the entity's `@NotBlank` and `@Size` constraints. |
| SuggestionService.SubmitterFor | Employee-Suggestion/src/main/java/com/fleetstudio/Employee/Suggestion/service/SuggestionService.java:69-78 | The employee is recorded exactly when the suggestion is not anonymous and an employee was given. |
| SuggestionService.CreateSuggestion | Employee-Suggestion/src/main/java/com/fleetstudio/Employee/Suggestion/service/SuggestionService.java:69-86 | Fails exactly on invalid text or on an unknown employee for a non-anonymous suggestion, with that error. Otherwise it stores a live Open suggestion with no votes under a fresh key, plus one "System" history row (no previous status, Open). Nothing else changes. |
| SuggestionService.UpdateSuggestion | Employee-Suggestion/src/main/java/com/fleetstudio/Employee/Suggestion/service/SuggestionService.java:91-101 | Validates first, then requires a live suggestion. On success only that suggestion's title and description change. |
| SuggestionService.ChangeStatus | Employee-Suggestion/src/main/java/com/fleetstudio/Employee/Suggestion/service/SuggestionService.java:106-123 | Fails on a missing or deleted suggestion and on the status it already has. It fails with a constraint violation when the actor is over 100 characters or the reason over 500; only the history table's column lengths enforce these (SuggestionStatusHistory.java:28-32). On success the status changes and one history row `old → new` is appended with the actor and reason. |
| SuggestionService.DeleteSuggestion | Employee-Suggestion/src/main/java/com/fleetstudio/Employee/Suggestion/service/SuggestionService.java:128-138 | Fails on a missing or deleted suggestion. It fails with a constraint violation when the actor is over 100 characters; only the `changed_by` column length enforces this (SuggestionStatusHistory.java:28-29). On success the suggestion is soft-deleted and a history row `status → status` with the deletion reason is appended. |
| SuggestionService.GetSuggestionsByEmployee | Employee-Suggestion/src/main/java/com/fleetstudio/Employee/Suggestion/service/SuggestionService.java:161-166 | An unknown employee is an error; otherwise lists exactly that employee's live suggestions. |
| SuggestionService.CountSuggestionsByEmployee | Employee-Suggestion/src/main/java/com/fleetstudio/Employee/Suggestion/service/SuggestionService.java:261-266 | An unknown employee is an error; otherwise the count equals the length of the listing. |
| SuggestionService.SearchSuggestions | Employee-Suggestion/src/main/java/com/fleetstudio/Employee/Suggestion/service/SuggestionService.java:180-185 | A missing or blank term lists every live suggestion; otherwise the trimmed term is searched in title and description. |
| SuggestionService.SearchFindsSubstrings | Employee-Suggestion/src/main/java/com/fleetstudio/Employee/Suggestion/service/SuggestionService.java:180-185 | For a non-blank term without wildcards, the search finds exactly the live suggestions whose title or description contains the trimmed term, ignoring case. |
| SuggestionService.PutRows | Employee-Suggestion/src/main/java/com/fleetstudio/Employee/Suggestion/service/SuggestionService.java:220-228 | Writes each grouped row under its status key, and keys not written keep their values. |
| SuggestionService.PutRowsOverBase | Employee-Suggestion/src/main/java/com/fleetstudio/Employee/Suggestion/service/SuggestionService.java:217-231 | Writing the status rows never overwrites "total" or "anonymous". |
| SuggestionService.StatisticsEntry | Employee-Suggestion/src/main/java/com/fleetstudio/Employee/Suggestion/service/SuggestionService.java:217-231 | A status's key is present exactly when it has live suggestions, and then holds their count. |
| SuggestionService.GetSuggestionStatistics | Employee-Suggestion/src/main/java/com/fleetstudio/Employee/Suggestion/service/SuggestionService.java:217-231 | "total" and "anonymous" hold the live counts. Each status with live suggestions has its own key holding its count; no other key appears. |
| VoteRepository.ExistsBySuggestionIdAndDeviceIdentifier | Employee-Suggestion/src/main/java/com/fleetstudio/Employee/Suggestion/repository/VoteRepository.java:26-28 | True exactly when the device has a vote for the suggestion. |
| VoteRepository.FindBySuggestionIdAndDeviceIdentifier | Employee-Suggestion/src/main/java/com/fleetstudio/Employee/Suggestion/repository/VoteRepository.java:38-40 | Finds the device's one vote for the suggestion; absent exactly when there is none. |
| VoteRepository.FindBySuggestionIdOrderByCreatedAtDesc | Employee-Suggestion/src/main/java/com/fleetstudio/Employee/Suggestion/repository/VoteRepository.java:50-51 | Lists exactly the suggestion's votes, newest first. |
| VoteRepository.CountBySuggestionId | Employee-Suggestion/src/main/java/com/fleetstudio/Employee/Suggestion/repository/VoteRepository.java:61-62 | Zero exactly when the suggestion has no votes. |
| VoteRepository.CountIsListLength | Employee-Suggestion/src/main/java/com/fleetstudio/Employee/Suggestion/repository/VoteRepository.java:50-62 | The count equals the length of the suggestion's vote listing. |
| VoteRepository.FindByEmployeeOrderByCreatedAtDesc | Employee-Suggestion/src/main/java/com/fleetstudio/Employee/Suggestion/repository/VoteRepository.java:67 | Lists exactly the votes recorded against the employee, newest first. |
| VoteRepository.FindByDeviceIdentifierOrderByCreatedAtDesc | Employee-Suggestion/src/main/java/com/fleetstudio/Employee/Suggestion/repository/VoteRepository.java:72 | Lists exactly the device's votes, newest first. |
| VoteRepository.FindByCreatedAtBetween | Employee-Suggestion/src/main/java/com/fleetstudio/Employee/Suggestion/repository/VoteRepository.java:77-79 | Lists exactly the votes cast in the period, both ends included, newest first. |
| VoteRepository.FindVotesForActiveSuggestions | Employee-Suggestion/src/main/java/com/fleetstudio/Employee/Suggestion/repository/VoteRepository.java:100-101 | Lists exactly the votes of live suggestions, newest first. |
| VoteRepository.FindRecentVotes | Employee-Suggestion/src/main/java/com/fleetstudio/Employee/Suggestion/repository/VoteRepository.java:118-119 | Lists exactly the votes cast at or after the date, newest first. |
| VoteRepository.CountUniqueVoters | Employee-Suggestion/src/main/java/com/fleetstudio/Employee/Suggestion/repository/VoteRepository.java:106-107 | The number of distinct devices is at most the number of votes. |
| VoteRepository.CountUniqueVotersBySuggestionId | Employee-Suggestion/src/main/java/com/fleetstudio/Employee/Suggestion/repository/VoteRepository.java:112-113 | A suggestion's distinct devices number at most its votes. |
| VoteRepository.UniqueVotersOfSuggestionAreItsVotes | Employee-Suggestion/src/main/java/com/fleetstudio/Employee/Suggestion/repository/VoteRepository.java:112-113 | Under the unique constraint a suggestion's distinct voters equal its votes. |
| VoteRepository.LiveVoteSuggestions | Employee-Suggestion/src/main/java/com/fleetstudio/Employee/Suggestion/repository/VoteRepository.java:92-95 | The suggestion column of the votes of live suggestions: each live suggestion appears once per vote. |
| VoteRepository.GetTopVotedSuggestions | Employee-Suggestion/src/main/java/com/fleetstudio/Employee/Suggestion/repository/VoteRepository.java:92-95 | One row per live suggestion with votes, holding its number of votes. Each suggestion appears once, and the rows are sorted by count descending. |
| VoteService.ValidateDeviceIdentifier | Employee-Suggestion/src/main/java/com/fleetstudio/Employee/Suggestion/service/VoteService.java:281-288 | Accepts exactly a non-blank identifier of at most 255 UTF-16 code units (Java's `length()`). A null or blank identifier is "required"; a longer one is "too long". |
| VoteService.SupplementaryDeviceTooLong | Employee-Suggestion/src/main/java/com/fleetstudio/Employee/Suggestion/service/VoteService.java:285-287 | An identifier of 128 emoji is refused as too long. That is 128 characters but 256 UTF-16 units. |
| VoteService.Voter | Employee-Suggestion/src/main/java/com/fleetstudio/Employee/Suggestion/service/VoteService.java:49-56 | A vote records the given employee exactly when that employee exists. |
| VoteService.VoteForSuggestion | Employee-Suggestion/src/main/java/com/fleetstudio/Employee/Suggestion/service/VoteService.java:39-66 | Validates the device, then requires a live suggestion. If the device already voted it answers false and changes nothing. Otherwise the vote table gains exactly one row, under a fresh key, for this suggestion, device and (existing) employee; the suggestion's counter rises by one; employees and history stay. |
| VoteService.RemoveVoteForSuggestion | Employee-Suggestion/src/main/java/com/fleetstudio/Employee/Suggestion/service/VoteService.java:71-93 | Validates the device, then requires a live suggestion. Without a vote it answers false and changes nothing. Otherwise exactly one row goes from the vote table, a row of this suggestion and device, and the counter comes down; other suggestions' votes stay. |
| VoteService.HasVoted | Employee-Suggestion/src/main/java/com/fleetstudio/Employee/Suggestion/service/VoteService.java:99-102 | After validating the device, true exactly when the device has a vote for the suggestion. |
| VoteService.GetVoteCount | Employee-Suggestion/src/main/java/com/fleetstudio/Employee/Suggestion/service/VoteService.java:108-110 | Counts the vote rows; on a live suggestion of a valid database that is its counter. |
| VoteService.GetVotingHistoryByDevice | Employee-Suggestion/src/main/java/com/fleetstudio/Employee/Suggestion/service/VoteService.java:124-127 | After validating the device, lists exactly its votes, newest first. |
| VoteService.GetVotingHistoryByEmployee | Employee-Suggestion/src/main/java/com/fleetstudio/Employee/Suggestion/service/VoteService.java:133-138 | An unknown employee is an error; otherwise lists exactly the votes recorded against them. |
| VoteService.ToggleVote | Employee-Suggestion/src/main/java/com/fleetstudio/Employee/Suggestion/service/VoteService.java:224-236 | Removes the device's vote when there is one and adds one otherwise, and reports which. After the toggle the device has a vote exactly when it had none before, and the count reported is the vote rows after. |
| VoteService.RemoveAllVotesForSuggestion | Employee-Suggestion/src/main/java/com/fleetstudio/Employee/Suggestion/service/VoteService.java:241-251 | Requires a live suggestion. Deletes all its votes and zeroes its counter. Every other vote row stays with its value unchanged, and employees, history and the clock are untouched. |
| VoteService.CleanupOrphanedVotes | Employee-Suggestion/src/main/java/com/fleetstudio/Employee/Suggestion/service/VoteService.java:256-269 | Deletes exactly the votes of soft-deleted suggestions and reports how many. Nothing else changes. |
| HistoryRepository.FindBySuggestionIdOrderByCreatedAtDesc | Employee-Suggestion/src/main/java/com/fleetstudio/Employee/Suggestion/repository/SuggestionStatusHistoryRepository.java:26-27 | Exactly the suggestion's history rows, newest first. |
| HistoryRepository.FindLatestBySuggestionId | Employee-Suggestion/src/main/java/com/fleetstudio/Employee/Suggestion/repository/SuggestionStatusHistoryRepository.java:32-34 | Absent exactly when the suggestion has no rows; otherwise one of its rows with the latest time. |
| HistoryRepository.FindByChangedBy | Employee-Suggestion/src/main/java/com/fleetstudio/Employee/Suggestion/repository/SuggestionStatusHistoryRepository.java:39 | Exactly the rows written by the actor, newest first. |
| HistoryRepository.FindByNewStatus | Employee-Suggestion/src/main/java/com/fleetstudio/Employee/Suggestion/repository/SuggestionStatusHistoryRepository.java:44 | Exactly the rows that moved to the status, newest first. |
| HistoryRepository.FindByPreviousStatus | Employee-Suggestion/src/main/java/com/fleetstudio/Employee/Suggestion/repository/SuggestionStatusHistoryRepository.java:49 | Exactly the rows that moved from the status, newest first; a null status matches creation rows. |
| HistoryRepository.FindStatusTransitions | Employee-Suggestion/src/main/java/com/fleetstudio/Employee/Suggestion/repository/SuggestionStatusHistoryRepository.java:54-57 | Exactly the rows from one status to another; a null parameter matches nothing, because JPQL `=` with NULL is never true. |
| HistoryRepository.FindByCreatedAtBetween | Employee-Suggestion/src/main/java/com/fleetstudio/Employee/Suggestion/repository/SuggestionStatusHistoryRepository.java:62-65 | Exactly the rows written in the period, both ends included, newest first. |
| HistoryRepository.FindRecentStatusChanges | Employee-Suggestion/src/main/java/com/fleetstudio/Employee/Suggestion/repository/SuggestionStatusHistoryRepository.java:70-71 | Exactly the rows written at or after the date, newest first. |
| HistoryRepository.FindForActiveSuggestions | Employee-Suggestion/src/main/java/com/fleetstudio/Employee/Suggestion/repository/SuggestionStatusHistoryRepository.java:115-116 | Exactly the rows of live suggestions, newest first. |
| HistoryRepository.FindFirstStatusChanges | Employee-Suggestion/src/main/java/com/fleetstudio/Employee/Suggestion/repository/SuggestionStatusHistoryRepository.java:121-124 | Exactly the rows whose id is the smallest among their suggestion's rows. |
| HistoryRepository.CountByChangedBy | Employee-Suggestion/src/main/java/com/fleetstudio/Employee/Suggestion/repository/SuggestionStatusHistoryRepository.java:76 | The number of rows written by the actor; zero exactly when there are none. |
| HistoryRepository.CountByNewStatus | Employee-Suggestion/src/main/java/com/fleetstudio/Employee/Suggestion/repository/SuggestionStatusHistoryRepository.java:81 | The number of rows that moved to the status; zero exactly when there are none. |
| HistoryRepository.CountsMatchLists | Employee-Suggestion/src/main/java/com/fleetstudio/Employee/Suggestion/repository/SuggestionStatusHistoryRepository.java:26-81 | Each count equals the length of the matching listing. |
| HistoryRepository.CountTotalStatusChanges | Employee-Suggestion/src/main/java/com/fleetstudio/Employee/Suggestion/repository/SuggestionStatusHistoryRepository.java:134-135 | The total equals the sum of the per-status statistics. |
| HistoryRepository.GetStatusChangeStatistics | Employee-Suggestion/src/main/java/com/fleetstudio/Employee/Suggestion/repository/SuggestionStatusHistoryRepository.java:86-87 | One row per new status that occurs, holding its count. No status appears twice, and the rows add up to the table size. |
| HistoryRepository.GetAdminActivityStatistics | Employee-Suggestion/src/main/java/com/fleetstudio/Employee/Suggestion/repository/SuggestionStatusHistoryRepository.java:92-95 | One row per named actor other than "System", holding their count, with the largest counts first. |
| HistoryRepository.FindSuggestionsWithMultipleStatusChanges | Employee-Suggestion/src/main/java/com/fleetstudio/Employee/Suggestion/repository/SuggestionStatusHistoryRepository.java:100-102 | One row per suggestion with more than one history row, holding the count, with the largest counts first. |
| HistoryRepository.GetStatusTransitionAnalytics | Employee-Suggestion/src/main/java/com/fleetstudio/Employee/Suggestion/repository/SuggestionStatusHistoryRepository.java:107-110 | One row per `(from, to)` pair that occurs with a previous status, holding the count, with the largest counts first. |
| HistoryRepository.DeleteBySuggestion | Employee-Suggestion/src/main/java/com/fleetstudio/Employee/Suggestion/repository/SuggestionStatusHistoryRepository.java:129 | Removes the suggestion's rows and keeps every other suggestion's history. |
| HistoryRepository.LatestIsCurrentStatus | Employee-Suggestion/src/main/java/com/fleetstudio/Employee/Suggestion/repository/SuggestionStatusHistoryRepository.java:32-34 | Under the chain invariant, the latest row of a stored suggestion ends at its current status. |
| HistoryRepository.FirstRowHasSmallestId | Employee-Suggestion/src/main/java/com/fleetstudio/Employee/Suggestion/repository/SuggestionStatusHistoryRepository.java:121-124 | A suggestion's oldest row has the smallest id of its rows. |
| HistoryRepository.FirstChangesAreCreations | Employee-Suggestion/src/main/java/com/fleetstudio/Employee/Suggestion/repository/SuggestionStatusHistoryRepository.java:121-124 | Under the chain invariant, every "first status change" is a creation row (no previous status, Open, "System"). |
| HistoryRepository.CreationsAreFirstChanges | Employee-Suggestion/src/main/java/com/fleetstudio/Employee/Suggestion/repository/SuggestionStatusHistoryRepository.java:121-124 | Every stored suggestion's creation row is among the "first status changes". |
| StatusHistoryService.FromLabel | Employee-Suggestion/src/main/java/com/fleetstudio/Employee/Suggestion/service/StatusHistoryService.java:240-245 | The left side of a description: "Initial" for no status, otherwise the display name; it reads back as that status. |
| StatusHistoryService.TransitionDescription | Employee-Suggestion/src/main/java/com/fleetstudio/Employee/Suggestion/service/StatusHistoryService.java:240-245 | Joins the from-label and the target's display name around the arrow; the result is longer than the arrow alone. |
| StatusHistoryService.TransitionDescriptionRoundTrip | Employee-Suggestion/src/main/java/com/fleetstudio/Employee/Suggestion/service/StatusHistoryService.java:240-245 | Splitting a description at the arrow gives back its two statuses. |
| StatusHistoryService.TransitionDescriptionInjective | Employee-Suggestion/src/main/java/com/fleetstudio/Employee/Suggestion/service/StatusHistoryService.java:240-245 | Different transitions get different descriptions. |
| StatusHistoryService.GetStatusChangeStatistics | Employee-Suggestion/src/main/java/com/fleetstudio/Employee/Suggestion/service/StatusHistoryService.java:99-106 | A status is a key exactly when some row moved to it, and its value is that count. |
| StatusHistoryService.AdminCounts | Employee-Suggestion/src/main/java/com/fleetstudio/Employee/Suggestion/service/StatusHistoryService.java:111-118 | The admin rows keyed by name: exactly the named actors other than "System", with their counts. |
| StatusHistoryService.GetAdminActivityStatistics | Employee-Suggestion/src/main/java/com/fleetstudio/Employee/Suggestion/service/StatusHistoryService.java:111-118 | A name is a key exactly when it is not "System" and wrote some row, and its value is that count. |
| StatusHistoryService.GetStatusTransitionAnalytics | Employee-Suggestion/src/main/java/com/fleetstudio/Employee/Suggestion/service/StatusHistoryService.java:123-132 | One entry per real transition (one with a previous status), holding its count; largest counts first, and no transition twice. |
| StatusHistoryService.TransitionRows | Employee-Suggestion/src/main/java/com/fleetstudio/Employee/Suggestion/service/StatusHistoryService.java:123-132 | Converting the grouped rows keeps them ranked and free of repeats. |
| StatusHistoryService.RowsAreStored | Employee-Suggestion/src/main/java/com/fleetstudio/Employee/Suggestion/service/StatusHistoryService.java:137-145 | Every suggestion named by the grouped query is stored. |
| StatusHistoryService.Summaries | Employee-Suggestion/src/main/java/com/fleetstudio/Employee/Suggestion/service/StatusHistoryService.java:137-145 | Pairs each grouped row with its suggestion and count. |
| StatusHistoryService.SummariesOfRows | Employee-Suggestion/src/main/java/com/fleetstudio/Employee/Suggestion/service/StatusHistoryService.java:137-145 | The summaries are exactly the stored suggestions with more than one row, each with its count, largest first. |
| StatusHistoryService.GetSuggestionsWithMultipleStatusChanges | Employee-Suggestion/src/main/java/com/fleetstudio/Employee/Suggestion/service/StatusHistoryService.java:137-145 | Exactly the stored suggestions with more than one history row, each with its count, largest first. |
| StatusHistoryService.ChainLeftOpen | Employee-Suggestion/src/main/java/com/fleetstudio/Employee/Suggestion/service/SuggestionService.java:106-123 | A history chain that ends anywhere but Open has more than one row. |
| StatusHistoryService.MovedSuggestionsAreRepeated | Employee-Suggestion/src/main/java/com/fleetstudio/Employee/Suggestion/service/StatusHistoryService.java:137-145 | Under the chain invariant, every suggestion that has left Open is reported as having multiple status changes. |
| StatusHistoryService.Description | Employee-Suggestion/src/main/java/com/fleetstudio/Employee/Suggestion/service/StatusHistoryService.java:308-313 | A description starts with "Created with status: " exactly when the entry has no previous status. |
| StatusHistoryService.DescriptionRoundTrip | Employee-Suggestion/src/main/java/com/fleetstudio/Employee/Suggestion/service/StatusHistoryService.java:308-313 | Parsing a timeline description gives back its two statuses. |
| StatusHistoryService.DescriptionInjective | Employee-Suggestion/src/main/java/com/fleetstudio/Employee/Suggestion/service/StatusHistoryService.java:308-313 | Entries with different statuses are described differently. |
| StatusHistoryService.GetStatusTimeline | Employee-Suggestion/src/main/java/com/fleetstudio/Employee/Suggestion/service/StatusHistoryService.java:178-190 | One entry per history row of the suggestion, each drawn from such a row, newest first. |
| StatusHistoryService.ChainTimeline | Employee-Suggestion/src/main/java/com/fleetstudio/Employee/Suggestion/service/StatusHistoryService.java:178-190 | A history chain read oldest first tells one story: it starts at the creation and each step starts where the previous one ended. |
| StatusHistoryService.TimelineFollowsChain | Employee-Suggestion/src/main/java/com/fleetstudio/Employee/Suggestion/service/StatusHistoryService.java:178-190 | Under the chain invariant, a stored suggestion's timeline tells its story up to its current status. Its oldest entry reads "Created with status: Open". |
| EmployeeRepository.FindByEmail | Employee-Suggestion/src/main/java/com/fleetstudio/Employee/Suggestion/repository/EmployeeRepository.java:19 | With unique emails, finds the one employee with that email; absent exactly when none has it. |
| EmployeeRepository.AllRows | Employee-Suggestion/src/main/java/com/fleetstudio/Employee/Suggestion/repository/EmployeeRepository.java:44 | Every employee row exactly once. |
| EmployeeRepository.ByNameIsOrder | Employee-Suggestion/src/main/java/com/fleetstudio/Employee/Suggestion/repository/EmployeeRepository.java:44 | The name ordering is total and transitive. |
| EmployeeRepository.FindAllByOrderByNameAsc | Employee-Suggestion/src/main/java/com/fleetstudio/Employee/Suggestion/repository/EmployeeRepository.java:44 | Every employee exactly once, by ascending name. |
| EmployeeRepository.FilterNameOrdered | Employee-Suggestion/src/main/java/com/fleetstudio/Employee/Suggestion/repository/EmployeeRepository.java:61-66 | Filtering a name-ordered listing keeps it name-ordered. |
| EmployeeRepository.FindByDepartmentAndPosition | Employee-Suggestion/src/main/java/com/fleetstudio/Employee/Suggestion/repository/EmployeeRepository.java:61-66 | Exactly the employees matching both parameters, ignoring case, by name. A null parameter does not filter; a null column matches only a null parameter. |
| EmployeeRepository.FindByDepartmentIgnoreCase | Employee-Suggestion/src/main/java/com/fleetstudio/Employee/Suggestion/repository/EmployeeRepository.java:24 | Exactly the employees whose department equals the value, ignoring case. |
| EmployeeRepository.FindByPositionIgnoreCase | Employee-Suggestion/src/main/java/com/fleetstudio/Employee/Suggestion/repository/EmployeeRepository.java:29 | Exactly the employees whose position equals the value, ignoring case. |
| EmployeeRepository.FindByColumnIgnoresArgumentCase | Employee-Suggestion/src/main/java/com/fleetstudio/Employee/Suggestion/repository/EmployeeRepository.java:24-29 | For the department and the position lookup alike, asking with the lower-case form of the value finds the same employees. |
| Text.ToLowerIdempotent | Employee-Suggestion/src/main/java/com/fleetstudio/Employee/Suggestion/repository/EmployeeRepository.java:24-29 | Lower-casing an already lower-cased string changes nothing. |
| Text.Utf16Length | Employee-Suggestion/src/main/java/com/fleetstudio/Employee/Suggestion/model/Suggestion.java:19-21 | The length that `@Size` and `length()` measure, in UTF-16 code units. It lies between the number of characters and twice that number. |
| Text.Utf16LengthIsLength | Employee-Suggestion/src/main/java/com/fleetstudio/Employee/Suggestion/model/Employee.java:19-39 | The UTF-16 length equals the character count exactly when no character lies outside the Basic Multilingual Plane. |
| Text.Utf16LengthOfSupplementary | Employee-Suggestion/src/main/java/com/fleetstudio/Employee/Suggestion/model/Suggestion.java:19-21 | A string of n copies of one supplementary character has UTF-16 length 2n. |
| EmployeeRepository.FindByNameContainingIgnoreCase | Employee-Suggestion/src/main/java/com/fleetstudio/Employee/Suggestion/repository/EmployeeRepository.java:39 | Exactly the employees whose name contains the term, ignoring case. |
| EmployeeRepository.EmptyNameSearchFindsAll | Employee-Suggestion/src/main/java/com/fleetstudio/Employee/Suggestion/repository/EmployeeRepository.java:39 | The empty term finds every employee. |
| EmployeeRepository.CountByDepartment | Employee-Suggestion/src/main/java/com/fleetstudio/Employee/Suggestion/repository/EmployeeRepository.java:71-72 | At most the number of employees. |
| EmployeeRepository.CountByDepartmentMatchesListing | Employee-Suggestion/src/main/java/com/fleetstudio/Employee/Suggestion/repository/EmployeeRepository.java:61-72 | The count by department equals the length of the department-only listing. |
| EmployeeRepository.SortedDistinct | Employee-Suggestion/src/main/java/com/fleetstudio/Employee/Suggestion/repository/EmployeeRepository.java:49-56 | The values of a column, each once, in strictly ascending order. |
| EmployeeRepository.PresentValues | Employee-Suggestion/src/main/java/com/fleetstudio/Employee/Suggestion/repository/EmployeeRepository.java:49-56 | A value is among the non-null column values exactly when some employee has it. |
| EmployeeRepository.FindAllDistinctDepartments | Employee-Suggestion/src/main/java/com/fleetstudio/Employee/Suggestion/repository/EmployeeRepository.java:49-50 | Every department in use, each once, ascending. |
| EmployeeRepository.FindAllDistinctPositions | Employee-Suggestion/src/main/java/com/fleetstudio/Employee/Suggestion/repository/EmployeeRepository.java:55-56 | Every position in use, each once, ascending. |
| EmployeeService.CreateEmployee | Employee-Suggestion/src/main/java/com/fleetstudio/Employee/Suggestion/service/EmployeeService.java:50-56 | Fails exactly on a taken email (checked first, with its error), on bean validation, or on a missing password. Otherwise it stores the employee under a fresh key and changes nothing else. |
| EmployeeService.Edited | Employee-Suggestion/src/main/java/com/fleetstudio/Employee/Suggestion/service/EmployeeService.java:69-80 | Name, email, department and position come from the update; role and password stay. |
| EmployeeService.UpdateEmployee | Employee-Suggestion/src/main/java/com/fleetstudio/Employee/Suggestion/service/EmployeeService.java:61-83 | An unknown employee is an error. A changed email already in use is an error. Otherwise only the four editable fields change. |
| EmployeeService.DeleteEmployee | Employee-Suggestion/src/main/java/com/fleetstudio/Employee/Suggestion/service/EmployeeService.java:88-93 | An unknown employee is an error. Otherwise the employee goes with the suggestions they submitted, and those suggestions' votes and history. A vote the employee cast elsewhere still refers to them, so the delete is refused. |
| EmployeeService.CreateThenFindByEmail | Employee-Suggestion/src/main/java/com/fleetstudio/Employee/Suggestion/service/EmployeeService.java:50-56 | After a create, emails stay unique and the new email finds the new employee. |
| EmployeeService.CreateTwiceRefused | Employee-Suggestion/src/main/java/com/fleetstudio/Employee/Suggestion/service/EmployeeService.java:50-56 | Creating a second employee with the same email is refused as already existing. |
| EmployeeService.UpdateKeepsEmailsUnique | Employee-Suggestion/src/main/java/com/fleetstudio/Employee/Suggestion/service/EmployeeService.java:61-83 | An update keeps emails unique; the new email finds the employee, and a replaced email finds nobody. |
| EmployeeService.UpdateWithSameFieldsIsIdentity | Employee-Suggestion/src/main/java/com/fleetstudio/Employee/Suggestion/service/EmployeeService.java:61-83 | Resubmitting an employee's own fields changes nothing. |
| EmployeeService.DeleteLeavesNoReference | Employee-Suggestion/src/main/java/com/fleetstudio/Employee/Suggestion/service/EmployeeService.java:88-93 | After a delete no employee, suggestion or vote refers to the deleted employee. |
| EmployeeService.SaveEmployee | Employee-Suggestion/src/main/java/com/fleetstudio/Employee/Suggestion/service/EmployeeService.java:190 | One row of the batch is stored exactly when it passes validation, has a password and its email is free. |
| EmployeeService.SaveAll | Employee-Suggestion/src/main/java/com/fleetstudio/Employee/Suggestion/service/EmployeeService.java:190 | A batch containing a row without a password is refused whole, leaving the database as it was. A saved batch changes only the employees and the clock. |
| EmployeeService.SaveAllKeeps | Employee-Suggestion/src/main/java/com/fleetstudio/Employee/Suggestion/service/EmployeeService.java:190 | A saved batch keeps every earlier employee. |
| EmployeeService.SaveAllRows | Employee-Suggestion/src/main/java/com/fleetstudio/Employee/Suggestion/service/EmployeeService.java:190 | A saved batch stores each row under the next key in order. |
| EmployeeService.SaveAllCount | Employee-Suggestion/src/main/java/com/fleetstudio/Employee/Suggestion/service/EmployeeService.java:190 | A saved batch adds exactly one employee per row. |
| EmployeeService.SaveAllSucceeds | Employee-Suggestion/src/main/java/com/fleetstudio/Employee/Suggestion/service/EmployeeService.java:190 | A batch of valid rows with passwords, distinct emails and no email already taken is saved. |
| EmployeeService.SamplesValid | Employee-Suggestion/src/main/java/com/fleetstudio/Employee/Suggestion/service/EmployeeService.java:172-188 | Every demo row passes bean validation. |
| EmployeeService.SampleEmailsDistinct | Employee-Suggestion/src/main/java/com/fleetstudio/Employee/Suggestion/service/EmployeeService.java:172-188 | The fifteen demo emails are distinct. |
| EmployeeService.CreateSampleEmployees | Employee-Suggestion/src/main/java/com/fleetstudio/Employee/Suggestion/service/EmployeeService.java:170-192 | As written: a directory with employees is left alone. On an empty directory the demo rows, which have no password, are refused, so the directory never gains a row. |
| EmployeeService.SeedSampleEmployees | Employee-Suggestion/src/main/java/com/fleetstudio/Employee/Suggestion/service/EmployeeService.java:170-192 | Seeding with a password: a directory with employees is left alone, and an empty one gains all fifteen demo employees, each findable by email. |
| EmployeeService.SeedingOnFreshDatabase | Employee-Suggestion/src/main/java/com/fleetstudio/Employee/Suggestion/service/EmployeeService.java:170-192 | On a fresh database the seeding as written fails, while the corrected seeding stores fifteen employees. |
| AdminService.AdminName | Employee-Suggestion/src/main/java/com/fleetstudio/Employee/Suggestion/service/AdminService.java:208-211 | "Administrator" exactly for the token "admin123", otherwise "Admin". |
| AdminService.AdminNamesTellTokensApart | Employee-Suggestion/src/main/java/com/fleetstudio/Employee/Suggestion/service/AdminService.java:38-41 | The two admin tokens get different names. |
| AdminService.ChangeStatus | Employee-Suggestion/src/main/java/com/fleetstudio/Employee/Suggestion/service/AdminService.java:82-86 | Succeeds exactly when the suggestion service's status change does, with the same error otherwise. It answers true and appends one history row with the token as actor. |
| AdminService.DeleteSuggestion | Employee-Suggestion/src/main/java/com/fleetstudio/Employee/Suggestion/service/AdminService.java:91-95 | Succeeds exactly when the service's soft delete does, with the same error otherwise; it answers true and the suggestion is no longer live. |
| AdminService.Step | Employee-Suggestion/src/main/java/com/fleetstudio/Employee/Suggestion/service/AdminService.java:106-115 | One loop iteration: a successful change counts as a success, and a failed one leaves the database as it was. |
| AdminService.Apply | Employee-Suggestion/src/main/java/com/fleetstudio/Employee/Suggestion/service/AdminService.java:104-117 | Trying every id counts at most one success per id and changes neither employees nor votes. |
| AdminService.BulkUpdateStatus | Employee-Suggestion/src/main/java/com/fleetstudio/Employee/Suggestion/service/AdminService.java:100-120 | The bulk update as its loop means to work (the corrected half of the finding below). A non-admin token is refused before anything changes, and an admin token is never refused. Successes and failures add up to the number of ids. The database and success count are those of trying the change on each id in turn and keeping the successful ones. |
| AdminService.BulkUpdateStatusAsWritten | Employee-Suggestion/src/main/java/com/fleetstudio/Employee/Suggestion/service/AdminService.java:100-120 | The bulk update as the program runs it, inside one transaction that any failing change marks rollback-only. A non-admin token is refused. Otherwise the call commits only when every change succeeds, with no failures counted; any failure rolls everything back. |
| AdminService.BulkAsWrittenSucceedsIff | Employee-Suggestion/src/main/java/com/fleetstudio/Employee/Suggestion/service/AdminService.java:100-120 | As written, an admin's bulk update commits exactly when the ids are distinct live suggestions, none already in the target status. |
| AdminService.RepeatedIdRollsBack | Employee-Suggestion/src/main/java/com/fleetstudio/Employee/Suggestion/service/AdminService.java:110-117 | A live suggestion listed twice: the program fails and keeps nothing, while the intended loop changes it once and counts one failure. |
| AdminService.ApplyTouchesOnlyListed | Employee-Suggestion/src/main/java/com/fleetstudio/Employee/Suggestion/service/AdminService.java:100-120 | A bulk update adds or removes no suggestion, and suggestions not listed keep their rows. |
| AdminService.ApplyReachesStatus | Employee-Suggestion/src/main/java/com/fleetstudio/Employee/Suggestion/service/AdminService.java:100-120 | In the intended loop, with an actor and reason that fit, every listed suggestion that was live ends in the target status. |
| AdminService.StepSucceedsIff | Employee-Suggestion/src/main/java/com/fleetstudio/Employee/Suggestion/service/AdminService.java:106-115 | The next step succeeds exactly when its id is a live suggestion not yet in the target status. |
| AdminService.AllChangeableSnoc | Employee-Suggestion/src/main/java/com/fleetstudio/Employee/Suggestion/service/AdminService.java:100-120 | The "all changeable" condition for a list with one more id. |
| AdminService.FullySuccessfulIff | Employee-Suggestion/src/main/java/com/fleetstudio/Employee/Suggestion/service/AdminService.java:100-120 | A bulk update is fully successful exactly when the ids are distinct live suggestions, none already in the target status. |
| AdminService.BulkReportsFullSuccess | Employee-Suggestion/src/main/java/com/fleetstudio/Employee/Suggestion/service/AdminService.java:251-253 | `isFullySuccessful` reports true for an admin exactly under that condition. |
| AdminService.GetDeletedSuggestions | Employee-Suggestion/src/main/java/com/fleetstudio/Employee/Suggestion/service/AdminService.java:213-215 | Exactly the soft-deleted suggestions. |
| AdminService.HardDeleteSuggestions | Employee-Suggestion/src/main/java/com/fleetstudio/Employee/Suggestion/service/AdminService.java:217-219 | Keeps exactly the live suggestions, unchanged, with their history. Votes of purged suggestions go. |
| AdminService.HardDeleteKeepsLive | Employee-Suggestion/src/main/java/com/fleetstudio/Employee/Suggestion/service/SuggestionService.java:346-348 | The purge keeps exactly the live suggestions. |
| AdminService.HardDeleteKeepsLiveHistory | Employee-Suggestion/src/main/java/com/fleetstudio/Employee/Suggestion/service/SuggestionService.java:346-348 | The purge keeps a live suggestion's history. |
| AdminService.HardDeleteLeavesNoDeleted | Employee-Suggestion/src/main/java/com/fleetstudio/Employee/Suggestion/service/AdminService.java:213-219 | After a purge the deleted-suggestions listing is empty. |
| Integrity.RemoveSuggestionsKeepsValid | Employee-Suggestion/src/main/java/com/fleetstudio/Employee/Suggestion/model/Suggestion.java:58-63 | Removing suggestions with their votes and history keeps the database valid. |
| Integrity.CreateEmployeeKeepsValid | Employee-Suggestion/src/main/java/com/fleetstudio/Employee/Suggestion/service/EmployeeService.java:50-56 | Creating an employee keeps the database valid, unique emails included. |
| Integrity.UpdateEmployeeKeepsValid | Employee-Suggestion/src/main/java/com/fleetstudio/Employee/Suggestion/service/EmployeeService.java:61-83 | Updating an employee keeps the database valid. |
| Integrity.DeleteEmployeeKeepsValid | Employee-Suggestion/src/main/java/com/fleetstudio/Employee/Suggestion/service/EmployeeService.java:88-93 | Deleting an employee keeps the database valid. |
| Integrity.ChangeStatusKeepsValid | Employee-Suggestion/src/main/java/com/fleetstudio/Employee/Suggestion/service/SuggestionService.java:106-123 | A status change keeps the database valid, the history chain included. |
| Integrity.DeleteSuggestionKeepsValid | Employee-Suggestion/src/main/java/com/fleetstudio/Employee/Suggestion/service/SuggestionService.java:128-138 | A soft delete keeps the database valid. |
| Integrity.CreateSuggestionKeepsValid | Employee-Suggestion/src/main/java/com/fleetstudio/Employee/Suggestion/service/SuggestionService.java:69-86 | Creating a suggestion keeps the database valid. |
| Integrity.UpdateSuggestionKeepsValid | Employee-Suggestion/src/main/java/com/fleetstudio/Employee/Suggestion/service/SuggestionService.java:91-101 | Editing a suggestion's text keeps the database valid. |
| Integrity.VoteKeepsValid | Employee-Suggestion/src/main/java/com/fleetstudio/Employee/Suggestion/service/VoteService.java:39-66 | Voting keeps the database valid, live counters matching their vote rows included. |
| Integrity.UnvoteKeepsValid | Employee-Suggestion/src/main/java/com/fleetstudio/Employee/Suggestion/service/VoteService.java:71-93 | Removing a vote keeps the database valid. |
| Integrity.ToggleKeepsValid | Employee-Suggestion/src/main/java/com/fleetstudio/Employee/Suggestion/service/VoteService.java:224-236 | Toggling a vote keeps the database valid. |
| Integrity.ToggleTwiceRestores | Employee-Suggestion/src/main/java/com/fleetstudio/Employee/Suggestion/service/VoteService.java:224-236 | Toggling twice from a valid database succeeds both times. It restores whether the device has voted, the suggestion's number of votes, every counter, and the count reported. When the first toggle added a vote, the vote table is exactly restored. |
| Integrity.RemoveAllVotesKeepsValid | Employee-Suggestion/src/main/java/com/fleetstudio/Employee/Suggestion/service/VoteService.java:241-251 | Clearing a suggestion's votes keeps the database valid. |
| Integrity.CleanupKeepsValid | Employee-Suggestion/src/main/java/com/fleetstudio/Employee/Suggestion/service/VoteService.java:256-269 | Deleting orphaned votes keeps the database valid: no live suggestion loses a vote. |
| Integrity.BulkKeepsValid | Employee-Suggestion/src/main/java/com/fleetstudio/Employee/Suggestion/service/AdminService.java:100-120 | A bulk status update keeps the database valid. |
| Integrity.HardDeleteKeepsValid | Employee-Suggestion/src/main/java/com/fleetstudio/Employee/Suggestion/service/AdminService.java:217-219 | Purging soft-deleted suggestions keeps the database valid. |

## Left out

- Controllers, security configuration, DTOs and the web front end: they only forward to the services modelled here.
- Concurrency and transactions: every operation is one atomic step over an immutable `Store`. The race that makes `toggleVote` report failure (VoteService.java:224-236) cannot happen in the model, so the model's toggle always succeeds.
- AdminService.BulkUpdateStatus: models the bulk update as its try/catch means it to work, keeping the successful changes. The program does not behave this way. With Spring's default propagation, the failing `changeStatus` call marks the shared transaction rollback-only, and the commit throws; nothing persists. `AdminService.BulkUpdateStatusAsWritten` models that behaviour (see Findings).
- AdminService.BulkUpdateStatusAsWritten: reports every rollback as `TransactionRolledBack`. It does not distinguish the constraint error a too-long reason raises when the transaction flushes.
- Clocks: `LocalDateTime.now()` is the store's counter `clock`. It serves as both the generated id and the creation time, so time and id order agree. Date ranges are plain numbers.
- Clock and randomness: `generateDeviceIdentifier` (VoteService.java:274-276) is not modelled. It builds `device_` from the wall-clock milliseconds and a random integer below 10000.
- Floating point: `getSuccessRate` (AdminService.java:255-257) is not modelled.
- `getAverageStatusChangeTime` and `getStatusDistributionOverTime` (StatusHistoryService.java:195-212) are not modelled. They are placeholders over wall-clock durations.
- `getVotingStatisticsByDate` (VoteService.java:153-156, VoteRepository.java:84-87) is not modelled. It groups by calendar day.
- `getVotingEngagementStatistics` (VoteService.java:202-219) is not modelled. It combines the counts above with a floating-point average.
- Left out entirely: the dashboard, maintenance, export and health reports, `initializeSampleData` and the demo suggestions (AdminService.java:47-77, 125-203; SuggestionService.java:279-306). They only read the counts modelled here or insert fixed demo rows.
- Pagination: `Page` variants of the listings are the unpaged lists. `getTopSuggestions` and `getPopularSuggestions` are the full ranking (`SuggestionRepository.FindTopByVoteCount`), not its first page.
- The repository methods that take an entity instead of an id (`findBySuggestion…`, `countBySuggestion`, `existsBySuggestion…`) behave as their id twins and have no separate member.
- Thin service wrappers are covered by the repository members they call and have no member of their own: `getAllSuggestions`, `getSuggestionById`, `getSuggestionsByStatus`, `getAnonymousSuggestions`, `getRecentSuggestions`, the `count…` methods, `getStatusHistory`, `getLatestStatusChange`, the `getStatusChanges…` listings, `getFirstStatusChanges`, `getAllEmployees`, `getEmployeeById`, `getEmployeeByEmail`, the employee search and count methods, `employeeExistsByEmail`, `getVotesForSuggestion`, `getRecentVotes`, `getUniqueVoterCount`, `getUniqueVotersForSuggestion`, `getVotesBetweenDates`, `getTotalVoteCount`, `getTopVotedSuggestions` and `isAdmin`.
- EmployeeRepository.FindAllByOrderByNameAsc: orders names by character code, as a binary collation does. The database collation decides `ORDER BY` and nothing in the code fixes it. Under a case-insensitive collation "alice" sorts before "Bob"; the model puts "Bob" first. The same assumption covers every string equality, `DISTINCT` and `GROUP BY` in the model.
- EmployeeRepository.FindByDepartmentAndPosition: its `ORDER BY e.name` is the character-code order, under the same binary-collation assumption.
- EmployeeRepository.SortedDistinct: `DISTINCT` is exact string equality and `ORDER BY` is character-code order, both as under a binary collation. A case-insensitive collation would merge "Sales" and "sales" into one row.
- EmployeeRepository.FindAllDistinctDepartments: built on `SortedDistinct`, so the same binary-collation assumption applies.
- EmployeeRepository.FindAllDistinctPositions: built on `SortedDistinct`, so the same binary-collation assumption applies.
- Case-insensitive matching lowers ASCII letters only. Derived `IgnoreCase` queries compare with `UPPER` and the `@Query` ones with `LOWER`; the two agree on ASCII text.
- `@Email` format checking on `Employee.email` (Employee.java:28-32) is not modelled.
- `validateEmployee` (EmployeeService.java:197-207) is never called, so it is not modelled.
- A client-supplied id passed to `save` would merge into an existing row. The model always inserts under a fresh key.
- The vote repository's two delete methods have no member of their own. `deleteBySuggestion` (VoteRepository.java:124) is never called, and the vote maps are edited directly where the services delete votes. `deleteBySuggestionIdAndDeviceIdentifier` (VoteRepository.java:129-131) lacks `@Modifying` and is never called either. Unvoting is modelled the way the service does it: find the row, then delete it.
- HistoryRepository.FindFirstStatusChanges: follows the query, not its comment. The comment speaks of a suggestion leaving its initial status, but the query returns each suggestion's row with the smallest id, which is its creation row.
- AdminService.ChangeStatus: follows the code. It does not check the token, and it records the token itself as the actor (AdminService.java:82-86).
- Status.LowerName: states only the key's length. The key's full spelling is left to `Status.LowerNameDistinct`, which proves the property the statistics map needs: keys never collide.
- EmployeeRepository.CountByDepartment: states only a bound. Its exact value is stated by `EmployeeRepository.CountByDepartmentMatchesListing`.
- StatusHistoryService.TransitionDescription: states only a length bound. Its content is pinned by `StatusHistoryService.TransitionDescriptionRoundTrip` and `StatusHistoryService.TransitionDescriptionInjective`.
- Model.IncrementVoteCount: vote counters are unbounded integers. The entity's counter is a 32-bit `Integer` (Suggestion.java:42-43), raised by `voteCount++` (Suggestion.java:97-99) and by the JPQL `+ 1` (SuggestionRepository.java:144). Wrap-around past 2^31 − 1 is not modelled.
- `updatedAt` is not modelled: the `@PreUpdate` timestamp (Suggestion.java:48-49, 91-94) and the timestamp the bulk counter updates write (SuggestionRepository.java:134-154). No query or service decision reads it.
- History column lengths: the actor (at most 100) and the reason (at most 500) are counted in characters, not UTF-16 units. Only the database column lengths enforce them (SuggestionStatusHistory.java:28-32, which has no `@Size`). The model refuses an over-long value with a constraint violation and does not model the database's character semantics.
- VoteRepository.CountUniqueVoters: states only a bound: distinct devices are at most the votes. The exact figure is the size of the set of devices, which would only restate the definition.

## Findings

| source | as written | input that shows it | evidently intended | confidence | as-written member | corrected member |
|---|---|---|---|---|---|---|
| Employee-Suggestion/src/main/java/com/fleetstudio/Employee/Suggestion/service/EmployeeService.java:170-192 | The demo employees are built with the four-argument constructor (Employee.java:62-69), which sets no password. The `password` column is declared not nullable (Employee.java:25-26), so `saveAll` is refused and the batch rolls back. | An empty employee table: the first demo row has a null password, and the insert violates the NOT NULL constraint. | On an empty table, insert the fifteen demo employees with some default password. | not executed; depends on the schema being generated from the entity | EmployeeService.CreateSampleEmployees (shown by EmployeeService.SeedingOnFreshDatabase) | EmployeeService.SeedSampleEmployees |
| Employee-Suggestion/src/main/java/com/fleetstudio/Employee/Suggestion/service/AdminService.java:100-120 | The loop catches a failing `suggestionService.changeStatus` and counts a failure. Both services are `@Transactional` (AdminService.java:16, SuggestionService.java:25), and the call goes through the injected proxy (AdminService.java:23-28). The failing inner call therefore marks the shared transaction rollback-only, and the commit throws `UnexpectedRollbackException`. | One live Open suggestion listed twice, ids `[0, 0]` with a new status of Under Review: the second change throws "already in status", and the first change is rolled back with it. | Keep the successful changes and return the success and failure counts, as the try/catch and `BulkUpdateResult` are written to do. | not executed; assumes Spring's default `REQUIRED` propagation and rollback on runtime exceptions | AdminService.BulkUpdateStatusAsWritten (shown by AdminService.RepeatedIdRollsBack) | AdminService.BulkUpdateStatus |

=== FILE: admin_service.dfy ===
/** The admin service: the demo token check, the delegating status change and
    deletion, the bulk status update that counts its successes and failures, and
    the listing and purge of soft-deleted suggestions. */
module AdminService {
  import opened Wrappers
  import opened Model
  import opened Status
  import opened Store
  import SuggestionService
  import SuggestionRepository

  /** `isAdmin`: exactly the two demo tokens are accepted; a null token is not. */
  predicate IsAdmin(token: Option<string>) {
    token == Some("admin123") || token == Some("admin")
  }

  /** `getAdminName`: "admin123" is the administrator, any other token "Admin". */
  function AdminName(token: Option<string>): (name: string)
    ensures name == "Administrator" <==> token == Some("admin123")
    ensures name != "Administrator" ==> name == "Admin"
  {
    if token == Some("admin123") then "Administrator" else "Admin"
  }

  /** The two admin tokens get different names, so a history row's actor tells
      which token made the change. */
  lemma AdminNamesTellTokensApart(t1: Option<string>, t2: Option<string>)
    requires IsAdmin(t1) && IsAdmin(t2)
    ensures AdminName(t1) == AdminName(t2) <==> t1 == t2
  {
  }

  /** `changeStatus`: no token check of its own; the token is recorded as the actor,
      and a failure of the underlying change propagates. It never answers false. */
  function ChangeStatus(st: Store, id: SuggestionId, newStatus: SuggestionStatus,
                        token: Option<string>, reason: Option<string>): (r: Result<Outcome<bool>, Error>)
    ensures r.Ok? <==> SuggestionService.ChangeStatus(st, id, newStatus, token, reason).Ok?
    ensures r.Err? ==> r.error == SuggestionService.ChangeStatus(st, id, newStatus, token, reason).error
    ensures r.Ok? ==> r.value.value
    ensures r.Ok? ==> |r.value.st.history| == |st.history| + 1
                      && r.value.st.history[|st.history|].changedBy == token
                      && id in r.value.st.suggestions && r.value.st.suggestions[id].status == newStatus
  {
    var after :- SuggestionService.ChangeStatus(st, id, newStatus, token, reason);
    Ok(Outcome(after, true))
  }

  /** `deleteSuggestion`: delegates the soft delete; it never answers false. */
  function DeleteSuggestion(st: Store, id: SuggestionId, adminName: Option<string>): (r: Result<Outcome<bool>, Error>)
    ensures r.Ok? <==> SuggestionService.DeleteSuggestion(st, id, adminName).Ok?
    ensures r.Err? ==> r.error == SuggestionService.DeleteSuggestion(st, id, adminName).error
    ensures r.Ok? ==> r.value.value && !IsActive(r.value.st, id) && id in r.value.st.suggestions
  {
    var after :- SuggestionService.DeleteSuggestion(st, id, adminName);
    Ok(Outcome(after, true))
  }

  // ------------------------------------------------------------ bulk update

  datatype BulkUpdateResult = BulkUpdateResult(successCount: nat, failureCount: nat) {
    function TotalCount(): nat {
      successCount + failureCount
    }

    predicate IsFullySuccessful() {
      failureCount == 0
    }
  }

  /** One iteration of the bulk loop: a change that fails is caught and leaves the
      database as it was. */
  function Step(st: Store, id: SuggestionId, newStatus: SuggestionStatus,
                adminName: string, reason: Option<string>): (r: (Store, bool))
    ensures r.1 <==> SuggestionService.ChangeStatus(st, id, newStatus, Some(adminName), reason).Ok?
    ensures r.1 ==> r.0 == SuggestionService.ChangeStatus(st, id, newStatus, Some(adminName), reason).value
    ensures !r.1 ==> r.0 == st
  {
    match SuggestionService.ChangeStatus(st, id, newStatus, Some(adminName), reason)
    case Ok(after) => (after, true)
    case Err(_) => (st, false)
  }

  /** The database and success count after trying every id in order. */
  function Apply(st: Store, ids: seq<SuggestionId>, newStatus: SuggestionStatus,
                 adminName: string, reason: Option<string>): (r: (Store, nat))
    ensures r.1 <= |ids|
    ensures r.0.employees == st.employees && r.0.votes == st.votes
    decreases |ids|
  {
    if |ids| == 0 then (st, 0)
    else
      var prev := Apply(st, ids[..|ids| - 1], newStatus, adminName, reason);
      var step := Step(prev.0, ids[|ids| - 1], newStatus, adminName, reason);
      (step.0, prev.1 + if step.1 then 1 else 0)
  }

  /** `bulkUpdateStatus` as its loop means to work: refuses a non-admin token before
      touching anything; otherwise tries every id in turn as the token's admin name,
      counting the changes that succeed and those that fail, keeping the successful
      ones and going on after a failure. The program itself rolls the whole call back
      at the first failure; `BulkUpdateStatusAsWritten` models that. */
  method BulkUpdateStatus(st: Store, ids: seq<SuggestionId>, newStatus: SuggestionStatus,
                          token: Option<string>, reason: Option<string>)
    returns (r: Result<Outcome<BulkUpdateResult>, Error>)
    ensures !IsAdmin(token) <==> r == Err(AdminPrivilegesRequired)
    ensures IsAdmin(token) ==> r.Ok?
    ensures r.Ok? ==> r.value.value.TotalCount() == |ids|
    ensures r.Ok? ==> (r.value.st, r.value.value.successCount) == Apply(st, ids, newStatus, AdminName(token), reason)
  {
    if !IsAdmin(token) {
      return Err(AdminPrivilegesRequired);
    }
    var adminName := AdminName(token);
    var cur := st;
    var successCount := 0;
    var failureCount := 0;
    for i := 0 to |ids|
      invariant (cur, successCount) == Apply(st, ids[..i], newStatus, adminName, reason)
      invariant successCount + failureCount == i
    {
      ApplyPrefix(st, ids, i, newStatus, adminName, reason);
      var step := Step(cur, ids[i], newStatus, adminName, reason);
      cur := step.0;
      if step.1 {
        successCount := successCount + 1;
      } else {
        failureCount := failureCount + 1;
      }
    }
    assert ids[..|ids|] == ids;
    return Ok(Outcome(cur, BulkUpdateResult(successCount, failureCount)));
  }

  /** `bulkUpdateStatus` as the program runs it. Both services are transactional and
      the status change is called through the service's proxy, so a change that throws
      marks the one shared transaction rollback-only, although the loop catches the
      exception. The commit then throws: one failing id undoes every change, and the
      caller gets an error instead of the counts. */
  function BulkUpdateStatusAsWritten(st: Store, ids: seq<SuggestionId>, newStatus: SuggestionStatus,
                                     token: Option<string>, reason: Option<string>)
    : (r: Result<Outcome<BulkUpdateResult>, Error>)
    ensures !IsAdmin(token) <==> r == Err(AdminPrivilegesRequired)
    ensures IsAdmin(token) ==> (r.Ok? <==> Apply(st, ids, newStatus, AdminName(token), reason).1 == |ids|)
    ensures IsAdmin(token) && r.Err? ==> r.error == TransactionRolledBack
    ensures r.Ok? ==> r.value.value.IsFullySuccessful() && r.value.value.TotalCount() == |ids|
    ensures r.Ok? ==> r.value.st == Apply(st, ids, newStatus, AdminName(token), reason).0
  {
    if !IsAdmin(token) then Err(AdminPrivilegesRequired)
    else
      var run := Apply(st, ids, newStatus, AdminName(token), reason);
      if run.1 == |ids| then Ok(Outcome(run.0, BulkUpdateResult(run.1, 0)))
      else Err(TransactionRolledBack)
  }

  /** As written, an admin's bulk update commits exactly when every listed id is a
      distinct live suggestion not yet in the target status; otherwise nothing changes. */
  lemma BulkAsWrittenSucceedsIff(st: Store, ids: seq<SuggestionId>, newStatus: SuggestionStatus,
                                 token: Option<string>, reason: Option<string>)
    requires IsAdmin(token) && OptionalWithin(reason, ChangeReasonMax)
    ensures BulkUpdateStatusAsWritten(st, ids, newStatus, token, reason).Ok? <==> AllChangeable(st, ids, newStatus)
  {
    FullySuccessfulIff(st, ids, newStatus, AdminName(token), reason);
  }

  /** A live suggestion listed twice: the intended loop changes it once and counts one
      failure, while the program as written rolls the change back and fails. */
  lemma RepeatedIdRollsBack(st: Store, x: SuggestionId, newStatus: SuggestionStatus,
                            token: Option<string>, reason: Option<string>)
    requires IsAdmin(token) && OptionalWithin(reason, ChangeReasonMax)
    requires IsActive(st, x) && st.suggestions[x].status != newStatus
    ensures BulkUpdateStatusAsWritten(st, [x, x], newStatus, token, reason) == Err(TransactionRolledBack)
    ensures var run := Apply(st, [x, x], newStatus, AdminName(token), reason);
            run.1 == 1 && x in run.0.suggestions && run.0.suggestions[x].status == newStatus
  {
    var name := AdminName(token);
    assert [x, x][..1] == [x];
    assert [x][..0] == [];
    StepSucceedsIff(st, [], x, newStatus, name, reason);
    StepSucceedsIff(st, [x], x, newStatus, name, reason);
    ApplyReachesStatus(st, [x, x], newStatus, name, reason);
    BulkAsWrittenSucceedsIff(st, [x, x], newStatus, token, reason);
    assert !AllChangeable(st, [x, x], newStatus);
  }

  // ------------------------------------------------------------ bulk properties

  /** Trying one more id of the list extends the run over the shorter prefix by one step. */
  lemma ApplyPrefix(st: Store, ids: seq<SuggestionId>, i: nat, newStatus: SuggestionStatus,
                    adminName: string, reason: Option<string>)
    requires i < |ids|
    ensures var prev := Apply(st, ids[..i], newStatus, adminName, reason);
            var step := Step(prev.0, ids[i], newStatus, adminName, reason);
            Apply(st, ids[..i + 1], newStatus, adminName, reason) == (step.0, prev.1 + if step.1 then 1 else 0)
  {
    assert ids[..i + 1][..i] == ids[..i];
  }

  /** A bulk update only ever moves the listed suggestions: no row appears or
      disappears, nothing is deleted or restored, and unlisted rows stay as they were. */
  lemma {:induction false} ApplyTouchesOnlyListed(st: Store, ids: seq<SuggestionId>, newStatus: SuggestionStatus,
                                                  adminName: string, reason: Option<string>)
    ensures var after := Apply(st, ids, newStatus, adminName, reason).0;
            && after.suggestions.Keys == st.suggestions.Keys
            && (forall k :: k in st.suggestions ==> after.suggestions[k].deleted == st.suggestions[k].deleted)
            && (forall k :: k in st.suggestions && k !in ids ==> after.suggestions[k] == st.suggestions[k])
    decreases |ids|
  {
    if |ids| > 0 {
      var init := ids[..|ids| - 1];
      ApplyTouchesOnlyListed(st, init, newStatus, adminName, reason);
      forall k | k in init ensures k in ids {
        var i :| 0 <= i < |init| && init[i] == k;
        assert ids[i] == k;
      }
    }
  }

  /** With an actor and reason that fit their columns, every listed suggestion that
      was live ends up live in the new status: in the intended loop a failure on one id
      (already in the status, say) does not keep later ids from being changed. */
  lemma {:induction false} ApplyReachesStatus(st: Store, ids: seq<SuggestionId>, newStatus: SuggestionStatus,
                                              adminName: string, reason: Option<string>)
    requires |adminName| <= ChangedByMax && OptionalWithin(reason, ChangeReasonMax)
    ensures var after := Apply(st, ids, newStatus, adminName, reason).0;
            forall k :: k in ids && IsActive(st, k) ==> IsActive(after, k) && after.suggestions[k].status == newStatus
    decreases |ids|
  {
    if |ids| > 0 {
      var init := ids[..|ids| - 1];
      var x := ids[|ids| - 1];
      ApplyReachesStatus(st, init, newStatus, adminName, reason);
      ApplyTouchesOnlyListed(st, init, newStatus, adminName, reason);
      var prev := Apply(st, init, newStatus, adminName, reason).0;
      var after := Apply(st, ids, newStatus, adminName, reason).0;
      assert after == Step(prev, x, newStatus, adminName, reason).0;
      forall k | k in ids && IsActive(st, k)
        ensures IsActive(after, k) && after.suggestions[k].status == newStatus
      {
        assert IsActive(prev, k);
        if k != x {
          assert k in init;
        }
      }
    }
  }

  /** The listed ids are distinct live suggestions none of which is already in the
      target status. */
  predicate AllChangeable(st: Store, ids: seq<SuggestionId>, newStatus: SuggestionStatus) {
    && (forall i, j :: 0 <= i < j < |ids| ==> ids[i] != ids[j])
    && (forall i :: 0 <= i < |ids| ==> IsActive(st, ids[i]) && st.suggestions[ids[i]].status != newStatus)
  }

  /** The next step of a bulk update succeeds exactly when its id has not come up
      before and was live and not yet in the target status. */
  lemma StepSucceedsIff(st: Store, init: seq<SuggestionId>, x: SuggestionId, newStatus: SuggestionStatus,
                        adminName: string, reason: Option<string>)
    requires |adminName| <= ChangedByMax && OptionalWithin(reason, ChangeReasonMax)
    ensures Step(Apply(st, init, newStatus, adminName, reason).0, x, newStatus, adminName, reason).1
            <==> x !in init && IsActive(st, x) && st.suggestions[x].status != newStatus
  {
    ApplyTouchesOnlyListed(st, init, newStatus, adminName, reason);
    ApplyReachesStatus(st, init, newStatus, adminName, reason);
    var prev := Apply(st, init, newStatus, adminName, reason).0;
    if x in init && IsActive(st, x) {
      assert IsActive(prev, x) && prev.suggestions[x].status == newStatus;
    }
    if x in st.suggestions {
      assert x in prev.suggestions;
      assert prev.suggestions[x].deleted == st.suggestions[x].deleted;
    }
  }

  /** `AllChangeable` of a list with one more id. */
  lemma AllChangeableSnoc(st: Store, init: seq<SuggestionId>, x: SuggestionId, newStatus: SuggestionStatus)
    ensures AllChangeable(st, init + [x], newStatus) <==>
            AllChangeable(st, init, newStatus) && x !in init && IsActive(st, x) && st.suggestions[x].status != newStatus
  {
    var ids := init + [x];
    if AllChangeable(st, ids, newStatus) {
      assert AllChangeable(st, init, newStatus) by {
        forall i | 0 <= i < |init| ensures init[i] == ids[i] { }
      }
      assert IsActive(st, ids[|init|]);
      forall i | 0 <= i < |init| ensures init[i] != x {
        assert ids[i] == init[i] && ids[|init|] == x;
      }
    }
    if AllChangeable(st, init, newStatus) && x !in init && IsActive(st, x) && st.suggestions[x].status != newStatus {
      forall i, j | 0 <= i < j < |ids| ensures ids[i] != ids[j] {
        if j < |init| {
          assert ids[i] == init[i] && ids[j] == init[j];
        } else {
          assert ids[i] in init;
        }
      }
      forall i | 0 <= i < |ids| ensures IsActive(st, ids[i]) && st.suggestions[ids[i]].status != newStatus {
        if i < |init| {
          assert ids[i] == init[i];
        }
      }
    }
  }

  /** With an actor and reason that fit their columns, a bulk update is fully
      successful exactly when the ids are distinct live suggestions not yet in the
      target status. */
  lemma {:induction false} FullySuccessfulIff(st: Store, ids: seq<SuggestionId>, newStatus: SuggestionStatus,
                                              adminName: string, reason: Option<string>)
    requires |adminName| <= ChangedByMax && OptionalWithin(reason, ChangeReasonMax)
    ensures Apply(st, ids, newStatus, adminName, reason).1 == |ids| <==> AllChangeable(st, ids, newStatus)
    decreases |ids|
  {
    if |ids| > 0 {
      var init := ids[..|ids| - 1];
      var x := ids[|ids| - 1];
      assert ids == init + [x];
      FullySuccessfulIff(st, init, newStatus, adminName, reason);
      StepSucceedsIff(st, init, x, newStatus, adminName, reason);
      AllChangeableSnoc(st, init, x, newStatus);
    }
  }

  /** What `isFullySuccessful` reports on an admin's bulk update. */
  method BulkReportsFullSuccess(st: Store, ids: seq<SuggestionId>, newStatus: SuggestionStatus,
                                token: Option<string>, reason: Option<string>)
    returns (fully: bool)
    requires IsAdmin(token) && OptionalWithin(reason, ChangeReasonMax)
    ensures fully <==> AllChangeable(st, ids, newStatus)
  {
    var r := BulkUpdateStatus(st, ids, newStatus, token, reason);
    FullySuccessfulIff(st, ids, newStatus, AdminName(token), reason);
    fully := r.value.value.IsFullySuccessful();
  }

  // ------------------------------------------------------------ deleted suggestions

  /** `getDeletedSuggestions` */
  function GetDeletedSuggestions(st: Store): (r: seq<SuggestionId>)
    requires BelowClock(st) && CreatedInKeyOrder(st)
    ensures forall k :: k in r <==> k in st.suggestions && !IsActive(st, k)
  {
    SuggestionRepository.FindByDeletedTrue(st)
  }

  /** `hardDeleteSuggestions`: purges every soft-deleted suggestion with its votes and
      history; the live ones are untouched. */
  function HardDeleteSuggestions(st: Store): (r: Store)
    ensures forall k :: k in r.suggestions <==> IsActive(st, k)
    ensures forall k :: k in r.suggestions ==> k in st.suggestions && r.suggestions[k] == st.suggestions[k]
    ensures forall sid :: IsActive(st, sid) ==> HistoryOf(r.history, sid) == HistoryOf(st.history, sid)
    ensures forall k :: k in r.votes <==> k in st.votes && !SuggestionRepository.Doomed(st, st.votes[k].suggestionId, true)
  {
    HardDeleteKeepsLive(st);
    forall sid | IsActive(st, sid)
      ensures HistoryOf(SuggestionRepository.DeleteByDeleted(st, true).history, sid) == HistoryOf(st.history, sid)
    {
      HardDeleteKeepsLiveHistory(st, sid);
    }
    SuggestionRepository.DeleteByDeleted(st, true)
  }

  lemma HardDeleteKeepsLive(st: Store)
    ensures var after := SuggestionRepository.DeleteByDeleted(st, true);
            && (forall k :: k in after.suggestions <==> IsActive(st, k))
            && (forall k :: k in after.suggestions ==> after.suggestions[k] == st.suggestions[k])
  {
  }

  lemma HardDeleteKeepsLiveHistory(st: Store, sid: SuggestionId)
    requires IsActive(st, sid)
    ensures HistoryOf(SuggestionRepository.DeleteByDeleted(st, true).history, sid) == HistoryOf(st.history, sid)
  {
    assert !SuggestionRepository.Doomed(st, sid, true);
  }

  /** After a purge nothing is left to purge: the deleted-suggestions listing is empty. */
  lemma HardDeleteLeavesNoDeleted(st: Store)
    requires BelowClock(st) && CreatedInKeyOrder(st)
    ensures BelowClock(HardDeleteSuggestions(st)) && CreatedInKeyOrder(HardDeleteSuggestions(st))
    ensures forall k :: k !in GetDeletedSuggestions(HardDeleteSuggestions(st))
  {
    var after := HardDeleteSuggestions(st);
    assert forall k :: k in after.suggestions ==> IsActive(after, k);
  }
}

=== FILE: employee_repository.dfy ===
/** The queries of the employees table. Lists with an `ORDER BY` are sequences in that
    order; results whose order the query leaves open are sets of keys. */
module EmployeeRepository {
  import opened Wrappers
  import opened Model
  import opened Store
  import Text
  import Seqs
  import Sorting
  import Grouping

  type Row = (EmployeeId, Employee)

  // ------------------------------------------------------------ lookups by email

  /** `existsByEmail` */
  predicate ExistsByEmail(st: Store, email: string) {
    exists k :: k in st.employees && st.employees[k].email == email
  }

  /** `findByEmail`: the one employee with that address (the column is unique). */
  function FindByEmail(st: Store, email: string): (r: Option<EmployeeId>)
    requires EmailsUnique(st.employees)
    ensures r.Some? ==> r.value in st.employees && st.employees[r.value].email == email
    ensures r.None? <==> !ExistsByEmail(st, email)
    ensures r.Some? ==> forall k :: k in st.employees && st.employees[k].email == email ==> k == r.value
  {
    if ExistsByEmail(st, email) then
      var k :| k in st.employees && st.employees[k].email == email;
      Some(k)
    else None
  }

  // ------------------------------------------------------------ ordered listings

  /** Every employee row, largest key first (the order `ORDER BY` then rearranges). */
  function AllRows(st: Store): (r: seq<Row>)
    requires BelowClock(st)
    ensures forall row :: row in r <==> row.0 in st.employees && st.employees[row.0] == row.1
    ensures Grouping.NoDuplicates(Grouping.Keys(r))
    ensures |r| == |st.employees|
  {
    var keys := Seqs.ScanDesc(st.employees, st.clock, (e: Employee) => true);
    Seqs.DescendingDistinct(keys);
    Seqs.DistinctListCoversSet(keys, st.employees.Keys);
    RowsOfKeys(st.employees, keys);
    RowsOf(st.employees, keys)
  }

  /** The rows under `keys`, in that order. */
  function RowsOf(m: map<EmployeeId, Employee>, keys: seq<EmployeeId>): (r: seq<Row>)
    requires forall i :: 0 <= i < |keys| ==> keys[i] in m
    ensures |r| == |keys|
    ensures forall i :: 0 <= i < |keys| ==> r[i] == (keys[i], m[keys[i]])
  {
    seq(|keys|, i requires 0 <= i < |keys| => (keys[i], m[keys[i]]))
  }

  /** Listing every key of `m` once lists every row of `m` once. */
  lemma RowsOfKeys(m: map<EmployeeId, Employee>, keys: seq<EmployeeId>)
    requires forall k :: k in keys <==> k in m
    requires forall i, j :: 0 <= i < j < |keys| ==> keys[i] != keys[j]
    ensures forall row :: row in RowsOf(m, keys) <==> row.0 in m && m[row.0] == row.1
    ensures Grouping.NoDuplicates(Grouping.Keys(RowsOf(m, keys)))
  {
    var r := RowsOf(m, keys);
    assert Grouping.Keys(r) == keys;
    forall row | row in r ensures row.0 in m && m[row.0] == row.1 {
      var i :| 0 <= i < |r| && r[i] == row;
    }
    forall k | k in m ensures (k, m[k]) in r {
      var i :| 0 <= i < |keys| && keys[i] == k;
      assert r[i] == (k, m[k]);
    }
  }

  predicate ByName(a: Row, b: Row) {
    Text.LexLe(a.1.name, b.1.name)
  }

  lemma ByNameIsOrder()
    ensures Sorting.Total(ByName) && Sorting.Transitive(ByName)
  {
    forall a: Row, b: Row ensures ByName(a, b) || ByName(b, a) {
      Text.LexLeTotal(a.1.name, b.1.name);
    }
    forall a: Row, b: Row, c: Row | ByName(a, b) && ByName(b, c) ensures ByName(a, c) {
      Text.LexLeTransitive(a.1.name, b.1.name, c.1.name);
    }
  }

  /** The rows of `r` are the employees, each once, in name order. */
  predicate NameOrdered(st: Store, r: seq<Row>) {
    && (forall row :: row in r ==> row.0 in st.employees && st.employees[row.0] == row.1)
    && Grouping.NoDuplicates(Grouping.Keys(r))
    && (forall i, j :: 0 <= i < j < |r| ==> Text.LexLe(r[i].1.name, r[j].1.name))
  }

  /** `findAllByOrderByNameAsc`: every employee once, by name. */
  function FindAllByOrderByNameAsc(st: Store): (r: seq<Row>)
    requires BelowClock(st)
    ensures NameOrdered(st, r)
    ensures forall k :: k in st.employees ==> (k, st.employees[k]) in r
    ensures |r| == |st.employees|
  {
    var rows := AllRows(st);
    var r := Sorting.Sort(rows, ByName);
    ByNameIsOrder();
    Sorting.SortIsSorted(rows, ByName);
    Sorting.SortSameMembers(rows, ByName);
    SortedRowsKeepKeys(rows, r);
    forall i, j | 0 <= i < j < |r| ensures Text.LexLe(r[i].1.name, r[j].1.name) {
      Sorting.SortedPairwise(r, ByName, i, j);
    }
    r
  }

  /** A rearrangement of rows with distinct keys has distinct keys. */
  lemma SortedRowsKeepKeys(rows: seq<Row>, r: seq<Row>)
    requires multiset(r) == multiset(rows)
    requires Grouping.NoDuplicates(Grouping.Keys(rows))
    ensures Grouping.NoDuplicates(Grouping.Keys(r))
  {
    assert forall i, j :: 0 <= i < j < |rows| ==> rows[i] != rows[j] by {
      forall i, j | 0 <= i < j < |rows| ensures rows[i] != rows[j] {
        assert Grouping.Keys(rows)[i] != Grouping.Keys(rows)[j];
      }
    }
    Seqs.DistinctPermutation(rows, r);
    forall i, j | 0 <= i < j < |r| ensures Grouping.Keys(r)[i] != Grouping.Keys(r)[j] {
      assert r[i] in multiset(rows) && r[j] in multiset(rows);
      var a :| 0 <= a < |rows| && rows[a] == r[i];
      var b :| 0 <= b < |rows| && rows[b] == r[j];
      assert a != b;
      assert Grouping.Keys(rows)[a] != Grouping.Keys(rows)[b];
    }
  }

  /** `LOWER(column) = LOWER(:param)` with SQL's null rules, and a null parameter
      accepting every row (`:param IS NULL OR ...`). */
  predicate MatchesParam(column: Option<string>, param: Option<string>) {
    param.None? || (column.Some? && Text.EqualsIgnoreCase(column.value, param.value))
  }

  function InDepartmentAndPosition(department: Option<string>, position: Option<string>): Row -> bool {
    (row: Row) => MatchesParam(row.1.department, department) && MatchesParam(row.1.position, position)
  }

  predicate NameBefore(a: Row, b: Row) {
    Text.LexLe(a.1.name, b.1.name)
  }

  /** Filtering keeps a name-ordered listing name-ordered. */
  lemma FilterNameOrdered(st: Store, all: seq<Row>, p: Row -> bool)
    requires NameOrdered(st, all)
    ensures NameOrdered(st, Seqs.Filter(all, p))
  {
    assert forall i, j :: 0 <= i < j < |all| ==> Grouping.KeyBefore(all[i], all[j]) by {
      forall i, j | 0 <= i < j < |all| ensures Grouping.KeyBefore(all[i], all[j]) {
        assert Grouping.Keys(all)[i] != Grouping.Keys(all)[j];
      }
    }
    Seqs.FilterKeepsOrder(all, p, NameBefore);
    Seqs.FilterKeepsOrder(all, p, Grouping.KeyBefore);
    var r := Seqs.Filter(all, p);
    forall i, j | 0 <= i < j < |r| ensures Grouping.Keys(r)[i] != Grouping.Keys(r)[j] {
      assert Grouping.KeyBefore(r[i], r[j]);
    }
    forall i, j | 0 <= i < j < |r| ensures Text.LexLe(r[i].1.name, r[j].1.name) {
      assert NameBefore(r[i], r[j]);
    }
  }

  /** `findByDepartmentAndPosition`: a missing parameter does not filter; the rows stay
      in name order. */
  function FindByDepartmentAndPosition(st: Store, department: Option<string>, position: Option<string>): (r: seq<Row>)
    requires BelowClock(st)
    ensures forall row :: row in r <==>
              row.0 in st.employees && st.employees[row.0] == row.1
              && MatchesParam(row.1.department, department) && MatchesParam(row.1.position, position)
    ensures NameOrdered(st, r)
  {
    var all := FindAllByOrderByNameAsc(st);
    FilterNameOrdered(st, all, InDepartmentAndPosition(department, position));
    Seqs.Filter(all, InDepartmentAndPosition(department, position))
  }

  // ------------------------------------------------------------ unordered lookups

  /** The department or position column holds `value`, ignoring case. */
  predicate HasIgnoreCase(column: Option<string>, value: string) {
    column.Some? && Text.EqualsIgnoreCase(column.value, value)
  }

  /** The employees whose `column` holds `value`, ignoring case. */
  function FindByColumnIgnoreCase(st: Store, column: Employee -> Option<string>, value: string): (r: set<EmployeeId>)
    ensures forall k :: k in r <==> k in st.employees && HasIgnoreCase(column(st.employees[k]), value)
  {
    set k | k in st.employees && HasIgnoreCase(column(st.employees[k]), value)
  }

  /** The answer depends on the argument only up to case: asking with its lower-case
      form finds the same employees. */
  lemma FindByColumnIgnoresArgumentCase(st: Store, column: Employee -> Option<string>, value: string)
    ensures FindByColumnIgnoreCase(st, column, Text.ToLower(value)) == FindByColumnIgnoreCase(st, column, value)
  {
    Text.ToLowerIdempotent(value);
  }

  /** `findByDepartmentIgnoreCase` */
  function FindByDepartmentIgnoreCase(st: Store, department: string): (r: set<EmployeeId>)
    ensures forall k :: k in r <==> k in st.employees && HasIgnoreCase(st.employees[k].department, department)
  {
    FindByColumnIgnoreCase(st, (e: Employee) => e.department, department)
  }

  /** `findByPositionIgnoreCase` */
  function FindByPositionIgnoreCase(st: Store, position: string): (r: set<EmployeeId>)
    ensures forall k :: k in r <==> k in st.employees && HasIgnoreCase(st.employees[k].position, position)
  {
    FindByColumnIgnoreCase(st, (e: Employee) => e.position, position)
  }

  /** `findByNameContainingIgnoreCase` */
  function FindByNameContainingIgnoreCase(st: Store, term: string): (r: set<EmployeeId>)
    ensures forall k :: k in r <==> k in st.employees && Text.ContainsIgnoreCase(st.employees[k].name, term)
  {
    set k | k in st.employees && Text.ContainsIgnoreCase(st.employees[k].name, term)
  }

  /** The empty search term finds every employee. */
  lemma EmptyNameSearchFindsAll(st: Store)
    ensures FindByNameContainingIgnoreCase(st, "") == st.employees.Keys
  {
    forall k | k in st.employees ensures Text.ContainsIgnoreCase(st.employees[k].name, "") {
      assert Text.ToLower("") <= Text.ToLower(st.employees[k].name)[0..];
    }
  }

  /** `countByDepartment` */
  function CountByDepartment(st: Store, department: string): (n: nat)
    ensures n <= |st.employees|
  {
    var r := FindByDepartmentIgnoreCase(st, department);
    assert r <= st.employees.Keys;
    Grouping.SubsetCardinality(r, st.employees.Keys);
    |r|
  }

  /** The count by department equals the length of the department listing. */
  lemma CountByDepartmentMatchesListing(st: Store, department: string)
    requires BelowClock(st)
    ensures CountByDepartment(st, department) == |FindByDepartmentAndPosition(st, Some(department), None)|
  {
    var l := FindByDepartmentAndPosition(st, Some(department), None);
    var s := FindByDepartmentIgnoreCase(st, department);
    assert forall k :: k in s <==> k in st.employees && MatchesParam(st.employees[k].department, Some(department));
    ListedCount(st.employees, l, s);
  }

  /** A list of rows without repeated keys, holding exactly the rows of the keys in `s`,
      is as long as `s`. */
  lemma ListedCount(m: map<EmployeeId, Employee>, l: seq<Row>, s: set<EmployeeId>)
    requires forall row :: row in l <==> row.0 in s && row.0 in m && m[row.0] == row.1
    requires s <= m.Keys
    requires Grouping.NoDuplicates(Grouping.Keys(l))
    ensures |s| == |l|
  {
    var keys := Grouping.Keys(l);
    forall k ensures k in keys <==> k in s {
      if k in keys {
        var i :| 0 <= i < |l| && keys[i] == k;
        assert l[i] in l;
      }
      if k in s {
        assert (k, m[k]) in l;
        var i :| 0 <= i < |l| && l[i] == (k, m[k]);
        assert keys[i] == k;
      }
    }
    Seqs.DistinctListCoversSet(keys, s);
  }

  // ------------------------------------------------------------ distinct values

  /** The present values of a nullable column. */
  function Present(column: seq<Option<string>>): (r: seq<string>)
    ensures forall x :: x in r <==> Some(x) in column
  {
    if |column| == 0 then []
    else
      var init := column[..|column| - 1];
      assert column == init + [column[|column| - 1]];
      var last := column[|column| - 1];
      Present(init) + (if last.Some? then [last.value] else [])
  }

  /** The values of `column`, each once, in ascending order. */
  function SortedDistinct(column: seq<string>): (r: seq<string>)
    ensures forall x :: x in r <==> x in column
    ensures forall i, j :: 0 <= i < j < |r| ==> Text.LexLe(r[i], r[j]) && r[i] != r[j]
  {
    var d := Grouping.Distinct(column);
    var r := Sorting.Sort(d, Text.LexLe);
    assert Sorting.Total(Text.LexLe) && Sorting.Transitive(Text.LexLe) by {
      forall a, b ensures Text.LexLe(a, b) || Text.LexLe(b, a) {
        Text.LexLeTotal(a, b);
      }
      forall a, b, c | Text.LexLe(a, b) && Text.LexLe(b, c) ensures Text.LexLe(a, c) {
        Text.LexLeTransitive(a, b, c);
      }
    }
    Sorting.SortIsSorted(d, Text.LexLe);
    Sorting.SortSameMembers(d, Text.LexLe);
    Seqs.DistinctPermutation(d, r);
    forall i, j | 0 <= i < j < |r| ensures Text.LexLe(r[i], r[j]) {
      Sorting.SortedPairwise(r, Text.LexLe, i, j);
    }
    r
  }

  function DepartmentOf(row: Row): Option<string> { row.1.department }
  function PositionOf(row: Row): Option<string> { row.1.position }

  /** The values some employee has in a nullable column, read off a listing of
      every employee row. */
  lemma PresentValues(m: map<EmployeeId, Employee>, rows: seq<Row>, f: Row -> Option<string>, x: string)
    requires forall row :: row in rows <==> row.0 in m && m[row.0] == row.1
    ensures x in Present(Seqs.Map(rows, f)) <==> exists k :: k in m && f((k, m[k])) == Some(x)
  {
    Seqs.MapMembers(rows, f, Some(x));
    if exists k :: k in m && f((k, m[k])) == Some(x) {
      var k :| k in m && f((k, m[k])) == Some(x);
      assert (k, m[k]) in rows;
    }
  }

  /** `findAllDistinctDepartments`: every department in use, once each, ascending. */
  function FindAllDistinctDepartments(st: Store): (r: seq<string>)
    requires BelowClock(st)
    ensures forall d :: d in r <==> exists k :: k in st.employees && st.employees[k].department == Some(d)
    ensures forall i, j :: 0 <= i < j < |r| ==> Text.LexLe(r[i], r[j]) && r[i] != r[j]
  {
    forall d ensures d in Present(Seqs.Map(AllRows(st), DepartmentOf)) <==>
                       exists k :: k in st.employees && st.employees[k].department == Some(d) {
      PresentValues(st.employees, AllRows(st), DepartmentOf, d);
    }
    SortedDistinct(Present(Seqs.Map(AllRows(st), DepartmentOf)))
  }

  /** `findAllDistinctPositions`: every position in use, once each, ascending. */
  function FindAllDistinctPositions(st: Store): (r: seq<string>)
    requires BelowClock(st)
    ensures forall p :: p in r <==> exists k :: k in st.employees && st.employees[k].position == Some(p)
    ensures forall i, j :: 0 <= i < j < |r| ==> Text.LexLe(r[i], r[j]) && r[i] != r[j]
  {
    forall p ensures p in Present(Seqs.Map(AllRows(st), PositionOf)) <==>
                       exists k :: k in st.employees && st.employees[k].position == Some(p) {
      PresentValues(st.employees, AllRows(st), PositionOf, p);
    }
    SortedDistinct(Present(Seqs.Map(AllRows(st), PositionOf)))
  }
}

=== FILE: employee_service.dfy ===
/** The employee service: creating, editing and removing employees. Every email
    belongs to at most one employee; removing an employee removes the suggestions
    they submitted, with those suggestions' votes and history. */
module EmployeeService {
  import opened Wrappers
  import opened Model
  import opened Store
  import Text
  import EmployeeRepository

  /** `createEmployee`: a taken email is refused before anything is written; otherwise
      the employee is saved under the next key. Bean validation and the non-null
      password column refuse an incomplete row. */
  function CreateEmployee(st: Store, e: Employee): (r: Result<Outcome<EmployeeId>, Error>)
    requires BelowClock(st)
    ensures r.Ok? <==> !EmployeeRepository.ExistsByEmail(st, e.email) && ValidEmployee(e) && e.password.Some?
    ensures EmployeeRepository.ExistsByEmail(st, e.email) ==> r == Err(EmailAlreadyExists(e.email))
    ensures r.Ok? ==> r.value.value !in st.employees
    ensures r.Ok? ==> r.value.st == st.(employees := st.employees[r.value.value := e], clock := st.clock + 1)
  {
    if EmployeeRepository.ExistsByEmail(st, e.email) then Err(EmailAlreadyExists(e.email))
    else if !ValidEmployee(e) || e.password.None? then Err(ConstraintViolation)
    else
      var id := st.clock;
      Ok(Outcome(st.(employees := st.employees[id := e], clock := st.clock + 1), id))
  }

  /** The stored employee with the editable fields of `upd`: name, email, department
      and position change; role and password stay. */
  function Edited(stored: Employee, upd: Employee): (e: Employee)
    ensures e.name == upd.name && e.email == upd.email
    ensures e.department == upd.department && e.position == upd.position
    ensures e.role == stored.role && e.password == stored.password
  {
    stored.(name := upd.name, email := upd.email, department := upd.department, position := upd.position)
  }

  /** `updateEmployee`: the employee must exist; a changed email must be free. */
  function UpdateEmployee(st: Store, id: EmployeeId, upd: Employee): (r: Result<Outcome<Employee>, Error>)
    ensures r.Ok? <==> id in st.employees
                       && (st.employees[id].email == upd.email || !EmployeeRepository.ExistsByEmail(st, upd.email))
                       && ValidEmployee(Edited(st.employees[id], upd))
    ensures id !in st.employees ==> r == Err(EmployeeNotFound(id))
    ensures id in st.employees && st.employees[id].email != upd.email && EmployeeRepository.ExistsByEmail(st, upd.email) ==>
              r == Err(EmailInUse(upd.email))
    ensures r.Ok? ==> r.value.value == Edited(st.employees[id], upd)
                      && r.value.st == st.(employees := st.employees[id := r.value.value])
  {
    if id !in st.employees then Err(EmployeeNotFound(id))
    else
      var stored := st.employees[id];
      if stored.email != upd.email && EmployeeRepository.ExistsByEmail(st, upd.email) then Err(EmailInUse(upd.email))
      else
        var e := Edited(stored, upd);
        if !ValidEmployee(e) then Err(ConstraintViolation)
        else Ok(Outcome(st.(employees := st.employees[id := e]), e))
  }

  /** The suggestions employee `id` submitted, deleted or not. */
  function SubmittedBy(st: Store, id: EmployeeId): (r: set<SuggestionId>)
    ensures forall k :: k in r <==> k in st.suggestions && st.suggestions[k].submitter == Some(id)
  {
    set k | k in st.suggestions && st.suggestions[k].submitter == Some(id)
  }

  /** Some vote row names employee `id` as its voter. */
  predicate VotedAs(votes: map<VoteId, Vote>, id: EmployeeId) {
    exists k :: k in votes && votes[k].employee == Some(id)
  }

  /** `deleteEmployee`: the employee must exist. Removing the row cascades to the
      suggestions they submitted (and from those to their votes and history); a vote
      the employee cast on someone else's suggestion still refers to the row, so the
      foreign key refuses the delete. */
  function DeleteEmployee(st: Store, id: EmployeeId): (r: Result<Store, Error>)
    ensures r.Ok? <==> id in st.employees && !VotedAs(RemoveSuggestions(st, SubmittedBy(st, id)).votes, id)
    ensures id !in st.employees ==> r == Err(EmployeeNotFound(id))
    ensures r.Ok? ==> r.value.employees == st.employees - {id}
    ensures r.Ok? ==> forall k :: k in r.value.suggestions <==> k in st.suggestions && st.suggestions[k].submitter != Some(id)
    ensures r.Ok? ==> forall k :: k in r.value.suggestions ==> r.value.suggestions[k] == st.suggestions[k]
    ensures r.Ok? ==> r.value.votes == VotesKept(st.votes, SubmittedBy(st, id))
    ensures r.Ok? ==> r.value.history == Purge(st.history, SubmittedBy(st, id))
    ensures r.Ok? ==> r.value.clock == st.clock
  {
    if id !in st.employees then Err(EmployeeNotFound(id))
    else
      var cascaded := RemoveSuggestions(st, SubmittedBy(st, id));
      if VotedAs(cascaded.votes, id) then Err(ConstraintViolation)
      else Ok(cascaded.(employees := cascaded.employees - {id}))
  }

  // ------------------------------------------------------------ sample data

  /** One `save` of a batch: the row gets the next key unless bean validation, the
      non-null password column or the unique email column refuses it. */
  function SaveEmployee(st: Store, e: Employee): (r: Result<Store, Error>)
    ensures r.Ok? <==> ValidEmployee(e) && e.password.Some? && !EmployeeRepository.ExistsByEmail(st, e.email)
    ensures r.Err? ==> r.error == ConstraintViolation
    ensures r.Ok? ==> r.value == st.(employees := st.employees[st.clock := e], clock := st.clock + 1)
  {
    if !ValidEmployee(e) || e.password.None? || EmployeeRepository.ExistsByEmail(st, e.email) then Err(ConstraintViolation)
    else Ok(st.(employees := st.employees[st.clock := e], clock := st.clock + 1))
  }

  /** `saveAll`: one transaction saving the rows in order; the first refused row rolls
      the whole batch back. */
  function SaveAll(st: Store, es: seq<Employee>): (r: Result<Store, Error>)
    ensures r.Err? ==> r.error == ConstraintViolation
    ensures (exists i :: 0 <= i < |es| && es[i].password.None?) ==> r.Err?
    ensures r.Ok? ==> r.value == st.(employees := r.value.employees, clock := st.clock + |es|)
    decreases |es|
  {
    if |es| == 0 then Ok(st)
    else
      var prev :- SaveAll(st, es[..|es| - 1]);
      assert forall i :: 0 <= i < |es| - 1 ==> es[..|es| - 1][i] == es[i];
      SaveEmployee(prev, es[|es| - 1])
  }

  /** A saved batch is its prefix saved, then its last row under the next key. */
  lemma SaveAllStep(st: Store, es: seq<Employee>)
    requires |es| > 0 && SaveAll(st, es).Ok?
    ensures SaveAll(st, es[..|es| - 1]).Ok?
    ensures var prev := SaveAll(st, es[..|es| - 1]).value;
            SaveAll(st, es).value.employees == prev.employees[prev.clock := es[|es| - 1]]
            && SaveAll(st, es).value.clock == prev.clock + 1 && prev.clock == st.clock + |es| - 1
  {
  }

  /** A saved batch keeps every earlier row and adds keys only from the clock on. */
  lemma {:induction false} SaveAllKeeps(st: Store, es: seq<Employee>)
    requires forall k :: k in st.employees ==> k < st.clock
    requires SaveAll(st, es).Ok?
    ensures var after := SaveAll(st, es).value;
            && (forall k :: k in after.employees ==> k < after.clock && (k in st.employees || st.clock <= k))
            && (forall k :: k in st.employees ==> k in after.employees && after.employees[k] == st.employees[k])
    decreases |es|
  {
    if |es| > 0 {
      SaveAllStep(st, es);
      SaveAllKeeps(st, es[..|es| - 1]);
    }
  }

  /** A saved batch stores row `i` under the clock plus `i`. */
  lemma {:induction false} SaveAllRows(st: Store, es: seq<Employee>)
    requires forall k :: k in st.employees ==> k < st.clock
    requires SaveAll(st, es).Ok?
    ensures var after := SaveAll(st, es).value;
            forall k :: st.clock <= k < after.clock ==> k in after.employees && after.employees[k] == es[k - st.clock]
    decreases |es|
  {
    if |es| > 0 {
      var init := es[..|es| - 1];
      SaveAllStep(st, es);
      SaveAllRows(st, init);
      var prev := SaveAll(st, init).value;
      var after := SaveAll(st, es).value;
      forall k | st.clock <= k < after.clock ensures k in after.employees && after.employees[k] == es[k - st.clock] {
        if k < prev.clock {
          assert es[k - st.clock] == init[k - st.clock];
        }
      }
    }
  }

  /** Every address of a saved batch is then in the directory. */
  lemma SaveAllEmailsExist(st: Store, es: seq<Employee>)
    requires forall k :: k in st.employees ==> k < st.clock
    requires SaveAll(st, es).Ok?
    ensures forall i :: 0 <= i < |es| ==> EmployeeRepository.ExistsByEmail(SaveAll(st, es).value, es[i].email)
  {
    var after := SaveAll(st, es).value;
    SaveAllRows(st, es);
    forall i | 0 <= i < |es| ensures EmployeeRepository.ExistsByEmail(after, es[i].email) {
      var k := st.clock + i;
      assert after.employees[k] == es[k - st.clock];
    }
  }

  /** A saved batch adds exactly one row per element. */
  lemma {:induction false} SaveAllCount(st: Store, es: seq<Employee>)
    requires forall k :: k in st.employees ==> k < st.clock
    requires SaveAll(st, es).Ok?
    ensures |SaveAll(st, es).value.employees| == |st.employees| + |es|
    decreases |es|
  {
    if |es| > 0 {
      var init := es[..|es| - 1];
      SaveAllStep(st, es);
      SaveAllKeeps(st, init);
      SaveAllCount(st, init);
      var prev := SaveAll(st, init).value;
      assert prev.clock !in prev.employees;
      assert SaveAll(st, es).value.employees.Keys == prev.employees.Keys + {prev.clock};
    }
  }

  /** The fifteen demo employees of `createSampleEmployees`, built with the
      four-argument constructor: no role and no password. */
  const SampleEmployees: seq<Employee> := [
    SampleEmployee(0), SampleEmployee(1), SampleEmployee(2), SampleEmployee(3), SampleEmployee(4),
    SampleEmployee(5), SampleEmployee(6), SampleEmployee(7), SampleEmployee(8), SampleEmployee(9),
    SampleEmployee(10), SampleEmployee(11), SampleEmployee(12), SampleEmployee(13), SampleEmployee(14)
  ]

  /** Row `i` of the demo list: the `i`-th entry of each column below. */
  function SampleEmployee(i: nat): Employee
    requires i < 15
  {
    NewEmployee(SampleNames[i], SampleEmails[i], Some(SampleDepartments[i]), Some(SamplePositions[i]))
  }

  const SampleNames: seq<string> := [
    "John Smith", "Sarah Johnson", "Mike Chen", "Emily Davis", "Robert Wilson", "Lisa Anderson",
    "David Brown", "Jennifer Taylor", "Kevin Martinez", "Amanda White", "James Garcia",
    "Michelle Lee", "Christopher Moore", "Rachel Thompson", "Daniel Jackson"
  ]

  const SampleEmails: seq<string> := [
    "john.smith@company.com", "sarah.johnson@company.com", "mike.chen@company.com",
    "emily.davis@company.com", "robert.wilson@company.com", "lisa.anderson@company.com",
    "david.brown@company.com", "jennifer.taylor@company.com", "kevin.martinez@company.com",
    "amanda.white@company.com", "james.garcia@company.com", "michelle.lee@company.com",
    "chris.moore@company.com", "rachel.thompson@company.com", "daniel.jackson@company.com"
  ]

  const SampleDepartments: seq<string> := [
    "Engineering", "Engineering", "Engineering", "Product", "Product", "Marketing", "Marketing",
    "Sales", "Sales", "HR", "Finance", "Operations", "Engineering", "Product", "Customer Success"
  ]

  const SamplePositions: seq<string> := [
    "Software Engineer", "Senior Developer", "Tech Lead", "Product Manager", "UX Designer",
    "Marketing Manager", "Content Specialist", "Sales Manager", "Account Executive", "HR Manager",
    "Financial Analyst", "Operations Manager", "DevOps Engineer", "Product Designer",
    "Customer Success Manager"
  ]

  /** `createSampleEmployees` as written: a no-op on a non-empty directory, otherwise
      `saveAll` of the demo rows. Those rows carry no password, so the batch is
      refused and the directory never gains a row. */
  function CreateSampleEmployees(st: Store): (r: Result<Store, Error>)
    ensures |st.employees| > 0 ==> r == Ok(st)
    ensures r.Err? <==> |st.employees| == 0
    ensures r.Err? ==> r.error == ConstraintViolation
    ensures r.Ok? ==> r.value == st
  {
    if |st.employees| != 0 then Ok(st)
    else
      assert SampleEmployees[0].password.None?;
      SaveAll(st, SampleEmployees)
  }

  /** On a fresh database the seeding as written stores nobody, while the corrected
      seeding stores all fifteen demo employees. */
  lemma SeedingOnFreshDatabase(password: string)
    ensures CreateSampleEmployees(Empty) == Err(ConstraintViolation)
    ensures SeedSampleEmployees(Empty, password).Ok?
    ensures |SeedSampleEmployees(Empty, password).value.employees| == 15
  {
  }

  /** The demo row with a password set. */
  function WithPassword(e: Employee, password: string): (r: Employee)
    ensures r.password == Some(password)
    ensures r.(password := e.password) == e
  {
    e.(password := Some(password))
  }

  /** Seeding as evidently intended: the demo rows get a password, so on an empty
      directory all fifteen are stored. */
  function SeedSampleEmployees(st: Store, password: string): (r: Result<Store, Error>)
    requires forall k :: k in st.employees ==> k < st.clock
    ensures |st.employees| > 0 ==> r == Ok(st)
    ensures |st.employees| == 0 ==> r.Ok? && |r.value.employees| == |SampleEmployees|
    ensures |st.employees| == 0 ==> forall i :: 0 <= i < |SampleEmployees| ==>
              EmployeeRepository.ExistsByEmail(r.value, SampleEmployees[i].email)
  {
    if |st.employees| != 0 then Ok(st)
    else
      var rows := seq(|SampleEmployees|, i requires 0 <= i < |SampleEmployees| => WithPassword(SampleEmployees[i], password));
      SamplesValid();
      SampleEmailsDistinct();
      SaveAllSucceeds(st, rows);
      SaveAllRows(st, rows);
      SaveAllCount(st, rows);
      SaveAllEmailsExist(st, rows);
      var r := SaveAll(st, rows);
      assert forall i :: 0 <= i < |SampleEmployees| ==> EmployeeRepository.ExistsByEmail(r.value, SampleEmployees[i].email) by {
        forall i | 0 <= i < |SampleEmployees| ensures EmployeeRepository.ExistsByEmail(r.value, SampleEmployees[i].email) {
          assert rows[i].email == SampleEmployees[i].email;
        }
      }
      r
  }

  /** A batch of valid rows with passwords, distinct emails and no email already in
      the directory is saved whole. */
  lemma {:induction false} SaveAllSucceeds(st: Store, es: seq<Employee>)
    requires forall k :: k in st.employees ==> k < st.clock
    requires forall i :: 0 <= i < |es| ==> ValidEmployee(es[i]) && es[i].password.Some?
    requires forall i, j :: 0 <= i < j < |es| ==> es[i].email != es[j].email
    requires forall i :: 0 <= i < |es| ==> !EmployeeRepository.ExistsByEmail(st, es[i].email)
    ensures SaveAll(st, es).Ok?
    decreases |es|
  {
    if |es| > 0 {
      var init := es[..|es| - 1];
      SaveAllSucceeds(st, init);
      var prev := SaveAll(st, init).value;
      var e := es[|es| - 1];
      SaveAllKeeps(st, init);
      SaveAllRows(st, init);
      forall k | k in prev.employees ensures prev.employees[k].email != e.email {
        if k in st.employees {
          assert !EmployeeRepository.ExistsByEmail(st, e.email);
        } else {
          assert prev.employees[k] == init[k - st.clock];
        }
      }
      assert SaveAll(st, es) == SaveEmployee(prev, e);
    }
  }

  lemma NonBlank(s: string)
    requires |s| > 0 && !Text.IsTrimmable(s[0])
    ensures !Text.IsBlank(s)
  {
  }

  /** Every demo row passes validation. */
  lemma SamplesValid()
    ensures forall i :: 0 <= i < |SampleEmployees| ==> ValidEmployee(SampleEmployees[i])
  {
    forall i | 0 <= i < |SampleEmployees| ensures ValidEmployee(SampleEmployees[i]) {
      SampleIndex(i);
      SampleFieldsValid(i);
    }
  }

  /** The demo emails are distinct. */
  lemma SampleEmailsDistinct()
    ensures forall i, j :: 0 <= i < j < |SampleEmployees| ==> SampleEmployees[i].email != SampleEmployees[j].email
  {
    SampleEmailColumnDistinct();
    forall i, j | 0 <= i < j < |SampleEmployees| ensures SampleEmployees[i].email != SampleEmployees[j].email {
      SampleIndex(i);
      SampleIndex(j);
    }
  }

  lemma SampleEmailColumnDistinct()
    ensures forall i, j :: 0 <= i < j < 15 ==> SampleEmails[i] != SampleEmails[j]
  {
    SampleEmailTags();
    assert forall i, j :: 0 <= i < j < |SampleTags| ==> SampleTags[i] != SampleTags[j];
    forall i, j | 0 <= i < j < 15 ensures SampleEmails[i] != SampleEmails[j] {
      assert EmailTag(SampleEmails[i]) != EmailTag(SampleEmails[j]);
    }
  }

  lemma SampleIndex(i: nat)
    requires i < 15
    ensures |SampleEmployees| == 15
    ensures SampleEmployees[i] == SampleEmployee(i)
  {
  }

  /** Each column entry of demo row `i` meets the employee constraints. */
  lemma SampleFieldsValid(i: nat)
    requires i < 15
    ensures ValidEmployee(SampleEmployee(i))
  {
    NonBlank(SampleNames[i]);
    NonBlank(SampleEmails[i]);
  }

  /** The `EmailTag` of each demo email, in order. */
  const SampleTags: seq<(char, char, nat)> :=
    [('j', 'o', 22), ('s', 'a', 25), ('m', 'i', 21), ('e', 'm', 23), ('r', 'o', 25),
     ('l', 'i', 25), ('d', 'a', 23), ('j', 'e', 27), ('k', 'e', 26), ('a', 'm', 24),
     ('j', 'a', 24), ('m', 'i', 24), ('c', 'h', 23), ('r', 'a', 27), ('d', 'a', 26)]

  lemma SampleEmailTags()
    ensures forall i :: 0 <= i < 15 ==> EmailTag(SampleEmails[i]) == SampleTags[i]
  {
  }

  /** First two characters and length: enough to tell the demo emails apart. */
  function EmailTag(s: string): (char, char, nat) {
    if |s| < 2 then (' ', ' ', |s|) else (s[0], s[1], |s|)
  }

  // ------------------------------------------------------------ properties

  /** After creating an employee, looking up their email finds the new row. */
  lemma CreateThenFindByEmail(st: Store, e: Employee)
    requires BelowClock(st) && EmailsUnique(st.employees)
    requires CreateEmployee(st, e).Ok?
    ensures EmailsUnique(CreateEmployee(st, e).value.st.employees)
    ensures EmployeeRepository.FindByEmail(CreateEmployee(st, e).value.st, e.email) == Some(CreateEmployee(st, e).value.value)
  {
    var out := CreateEmployee(st, e).value;
    assert out.st.employees[out.value].email == e.email;
  }

  /** A second employee with the same email is refused, so the email stays unique. */
  lemma CreateTwiceRefused(st: Store, e: Employee, e2: Employee)
    requires BelowClock(st) && CreateEmployee(st, e).Ok? && e2.email == e.email
    ensures CreateEmployee(CreateEmployee(st, e).value.st, e2) == Err(EmailAlreadyExists(e.email))
  {
    var out := CreateEmployee(st, e).value;
    assert out.st.employees[out.value].email == e.email;
  }

  /** An update keeps emails unique; the employee is found under the new email and,
      when it changed, nobody is found under the old one. */
  lemma UpdateKeepsEmailsUnique(st: Store, id: EmployeeId, upd: Employee)
    requires EmailsUnique(st.employees) && UpdateEmployee(st, id, upd).Ok?
    ensures EmailsUnique(UpdateEmployee(st, id, upd).value.st.employees)
    ensures EmployeeRepository.FindByEmail(UpdateEmployee(st, id, upd).value.st, upd.email) == Some(id)
    ensures st.employees[id].email != upd.email ==>
              !EmployeeRepository.ExistsByEmail(UpdateEmployee(st, id, upd).value.st, st.employees[id].email)
  {
    var after := UpdateEmployee(st, id, upd).value.st;
    assert after.employees[id].email == upd.email;
    assert EmailsUnique(after.employees) by {
      forall a, b | a in after.employees && b in after.employees && a != b
        ensures after.employees[a].email != after.employees[b].email
      {
        if a != id && b != id {
        } else if st.employees[id].email != upd.email {
          assert !EmployeeRepository.ExistsByEmail(st, upd.email);
        }
      }
    }
  }

  /** Resubmitting an employee's own fields changes nothing. */
  lemma UpdateWithSameFieldsIsIdentity(st: Store, id: EmployeeId)
    requires id in st.employees && ValidEmployee(st.employees[id])
    ensures UpdateEmployee(st, id, st.employees[id]) == Ok(Outcome(st, st.employees[id]))
  {
    assert st.(employees := st.employees[id := st.employees[id]]) == st;
  }

  /** A deleted employee leaves nothing behind that refers to them. */
  lemma DeleteLeavesNoReference(st: Store, id: EmployeeId)
    requires DeleteEmployee(st, id).Ok?
    ensures var after := DeleteEmployee(st, id).value;
            && id !in after.employees
            && (forall k :: k in after.suggestions ==> after.suggestions[k].submitter != Some(id))
            && (forall k :: k in after.votes ==> after.votes[k].employee != Some(id))
  {
    var after := DeleteEmployee(st, id).value;
    forall k | k in after.votes ensures after.votes[k].employee != Some(id) {
      assert !VotedAs(after.votes, id);
    }
  }
}

=== FILE: grouping.dfy ===
/** `GROUP BY key` with `COUNT(*)`: the distinct keys of a column with the number of
    rows carrying each, and the facts the statistics rely on. */
module Grouping {
  import Seqs
  import Sorting

  /** Number of rows whose key is `k`. */
  function Count<K(==,!new)>(s: seq<K>, k: K): (n: nat)
    ensures n <= |s|
    ensures n == 0 <==> k !in s
  {
    if |s| == 0 then 0
    else Count(s[..|s| - 1], k) + (if s[|s| - 1] == k then 1 else 0)
  }

  predicate NoDuplicates<K(==,!new)>(s: seq<K>) {
    forall i, j :: 0 <= i < j < |s| ==> s[i] != s[j]
  }

  /** The keys in order of first appearance, each once. */
  function Distinct<K(==,!new)>(s: seq<K>): (r: seq<K>)
    ensures NoDuplicates(r)
    ensures forall k :: k in r <==> k in s
    ensures |r| <= |s|
  {
    if |s| == 0 then []
    else
      var d := Distinct(s[..|s| - 1]);
      assert forall k :: k in s <==> k in s[..|s| - 1] || k == s[|s| - 1] by {
        assert s == s[..|s| - 1] + [s[|s| - 1]];
      }
      if s[|s| - 1] in d then d else d + [s[|s| - 1]]
  }

  /** One `(key, COUNT(*))` row per distinct key. */
  function GroupCount<K(==,!new)>(s: seq<K>): seq<(K, nat)> {
    var d := Distinct(s);
    seq(|d|, i requires 0 <= i < |d| => (d[i], Count(s, d[i])))
  }

  /** Each row is a present key with its count, and every present key has its row. */
  lemma GroupCountRows<K(!new)>(s: seq<K>)
    ensures forall row :: row in GroupCount(s) ==> row.0 in s && row.1 == Count(s, row.0)
    ensures forall k :: k in s ==> (k, Count(s, k)) in GroupCount(s)
  {
    var g := GroupCount(s);
    var d := Distinct(s);
    forall k | k in s
      ensures (k, Count(s, k)) in g
    {
      var i :| 0 <= i < |d| && d[i] == k;
      assert g[i] == (k, Count(s, k));
    }
  }

  /** Any reordering of the grouped rows (an `ORDER BY` on them) still holds one row per
      present key, with its count, and each key once. */
  lemma {:induction false} ReorderedGroups<K(!new)>(s: seq<K>, rows: seq<(K, nat)>)
    requires multiset(rows) == multiset(GroupCount(s))
    ensures forall row :: row in rows ==> row.0 in s && row.1 == Count(s, row.0)
    ensures forall k :: k in s ==> (k, Count(s, k)) in rows
    ensures NoDuplicates(Keys(rows))
  {
    var g := GroupCount(s);
    GroupCountRows(s);
    forall row ensures row in rows <==> row in g {
      assert row in rows <==> row in multiset(rows);
      assert row in g <==> row in multiset(g);
    }
    forall i, j | 0 <= i < j < |g|
      ensures g[i] != g[j]
    {
      assert Distinct(s)[i] != Distinct(s)[j];
    }
    Seqs.DistinctPermutation(g, rows);
    forall i, j | 0 <= i < j < |rows|
      ensures rows[i].0 != rows[j].0
    {
      assert rows[i] in multiset(g) && rows[j] in multiset(g);
      assert rows[i] in g && rows[j] in g;
    }
  }

  /** The key column of grouped rows. */
  function Keys<K, V>(g: seq<(K, V)>): seq<K> {
    seq(|g|, i requires 0 <= i < |g| => g[i].0)
  }

  function SumCounts<K(==,!new)>(g: seq<(K, nat)>): nat {
    if |g| == 0 then 0 else SumCounts(g[..|g| - 1]) + g[|g| - 1].1
  }

  /** Sum over `keys` of the number of rows of `s` carrying each key. */
  function SumOver<K(==,!new)>(keys: seq<K>, s: seq<K>): nat {
    if |keys| == 0 then 0 else SumOver(keys[..|keys| - 1], s) + Count(s, keys[|keys| - 1])
  }

  lemma {:induction false} SumOverAppendRow<K(!new)>(keys: seq<K>, s: seq<K>, x: K)
    ensures SumOver(keys, s + [x]) == SumOver(keys, s) + Count(keys, x)
  {
    if |keys| > 0 {
      SumOverAppendRow(keys[..|keys| - 1], s, x);
      assert (s + [x])[..|s + [x]| - 1] == s;
    } else {
      assert (s + [x])[..|s + [x]| - 1] == s;
    }
  }

  lemma {:induction false} SumOverAppendKey<K(!new)>(keys: seq<K>, s: seq<K>, x: K)
    ensures SumOver(keys + [x], s) == SumOver(keys, s) + Count(s, x)
  {
    assert (keys + [x])[..|keys + [x]| - 1] == keys;
  }

  lemma {:induction false} CountOfDistinct<K(!new)>(keys: seq<K>, x: K)
    requires NoDuplicates(keys) && x in keys
    ensures Count(keys, x) == 1
    decreases |keys|
  {
    var init := keys[..|keys| - 1];
    if keys[|keys| - 1] == x {
      assert x !in init;
    } else {
      assert keys == init + [keys[|keys| - 1]];
      CountOfDistinct(init, x);
    }
  }

  /** Every row falls in exactly one group. */
  lemma {:induction false} SumOverDistinct<K(!new)>(s: seq<K>)
    ensures SumOver(Distinct(s), s) == |s|
  {
    if |s| > 0 {
      var init := s[..|s| - 1];
      var x := s[|s| - 1];
      var d := Distinct(init);
      assert s == init + [x];
      SumOverDistinct(init);
      SumOverAppendRow(d, init, x);
      assert SumOver(d, s) == |init| + Count(d, x);
      if x in d {
        assert Distinct(s) == d;
        CountOfDistinct(d, x);
      } else {
        assert Distinct(s) == d + [x];
        assert Count(d, x) == 0;
        assert Count(init, x) == 0;
        assert Count(s, x) == 1;
        SumOverAppendKey(d, s, x);
      }
    }
  }

  lemma {:induction false} SumCountsIsSumOver<K(!new)>(s: seq<K>, n: nat)
    requires n <= |Distinct(s)|
    ensures SumCounts(GroupCount(s)[..n]) == SumOver(Distinct(s)[..n], s)
  {
    if n > 0 {
      SumCountsIsSumOver(s, n - 1);
      assert GroupCount(s)[..n][..n - 1] == GroupCount(s)[..n - 1];
      assert Distinct(s)[..n][..n - 1] == Distinct(s)[..n - 1];
    }
  }

  /** The grouped counts add up to the number of rows. */
  lemma GroupCountsSumToRows<K(!new)>(s: seq<K>)
    ensures SumCounts(GroupCount(s)) == |s|
  {
    SumCountsIsSumOver(s, |Distinct(s)|);
    assert GroupCount(s)[..|Distinct(s)|] == GroupCount(s);
    assert Distinct(s)[..|Distinct(s)|] == Distinct(s);
    SumOverDistinct(s);
  }

  /** `Collectors.toMap(row[0], row[1])` over rows with distinct keys. */
  function ToMap<K(==,!new), V>(g: seq<(K, V)>): (m: map<K, V>)
    requires NoDuplicates(Keys(g))
    ensures forall k :: k in m <==> k in Keys(g)
    ensures forall i :: 0 <= i < |g| ==> g[i].0 in m && m[g[i].0] == g[i].1
  {
    if |g| == 0 then map[]
    else
      var init := g[..|g| - 1];
      var last := g[|g| - 1];
      KeysSnoc(init, last);
      assert g == init + [last];
      var m := ToMap(init);
      assert forall i :: 0 <= i < |init| ==> init[i].0 != last.0 by {
        forall i | 0 <= i < |init|
          ensures init[i].0 != last.0
        {
          KeysAt(g, i);
          KeysAt(g, |g| - 1);
        }
      }
      m[last.0 := last.1]
  }

  /** Position `i` of the key column holds the `i`-th row's key. */
  lemma KeysAt<K, V>(g: seq<(K, V)>, i: nat)
    requires i < |g|
    ensures |Keys(g)| == |g| && Keys(g)[i] == g[i].0
  {
  }

  /** The key column of one more row ends with that row's key, and keeps the earlier
      keys distinct when the whole column is. */
  lemma KeysSnoc<K(!new), V>(g: seq<(K, V)>, row: (K, V))
    ensures Keys(g + [row]) == Keys(g) + [row.0]
    ensures NoDuplicates(Keys(g + [row])) ==> NoDuplicates(Keys(g))
  {
    assert |Keys(g + [row])| == |g| + 1;
    forall i | 0 <= i < |g| ensures Keys(g + [row])[i] == Keys(g)[i] {
      assert (g + [row])[i] == g[i];
    }
  }

  /** The map built from rows holds exactly the rows' keys, each with its row's value. */
  lemma ToMapRows<K(!new), V>(g: seq<(K, V)>)
    requires NoDuplicates(Keys(g))
    ensures forall row :: row in g ==> row.0 in ToMap(g) && ToMap(g)[row.0] == row.1
    ensures forall k :: k in ToMap(g) ==> (k, ToMap(g)[k]) in g
  {
    var m := ToMap(g);
    forall k | k in m ensures (k, m[k]) in g {
      var i :| 0 <= i < |g| && Keys(g)[i] == k;
      assert g[i] == (k, m[k]);
    }
  }

  /** One column of the listed rows of a table: `f` of each row, in list order. */
  function Column<V, K>(m: map<nat, V>, keys: seq<nat>, f: V -> K): seq<K>
    requires forall i :: 0 <= i < |keys| ==> keys[i] in m
  {
    seq(|keys|, i requires 0 <= i < |keys| => f(m[keys[i]]))
  }

  /** The listed rows whose column value is `x`. */
  function Matching<V, K(==)>(m: map<nat, V>, keys: seq<nat>, f: V -> K, x: K): set<nat> {
    set k | k in keys && k in m && f(m[k]) == x
  }

  lemma MatchingAppend<V, K>(m: map<nat, V>, keys: seq<nat>, y: nat, f: V -> K, x: K)
    ensures Matching(m, keys + [y], f, x) == Matching(m, keys, f, x) + (if y in m && f(m[y]) == x then {y} else {})
  {
  }

  /** Over distinct listed rows, counting a value in the column counts the rows carrying it. */
  lemma {:induction false} CountColumn<V, K(!new)>(m: map<nat, V>, keys: seq<nat>, f: V -> K, x: K)
    requires forall i :: 0 <= i < |keys| ==> keys[i] in m
    requires forall i, j :: 0 <= i < j < |keys| ==> keys[i] != keys[j]
    ensures Count(Column(m, keys, f), x) == |Matching(m, keys, f, x)|
  {
    if |keys| > 0 {
      var init := keys[..|keys| - 1];
      var y := keys[|keys| - 1];
      assert keys == init + [y];
      CountColumn(m, init, f, x);
      var c := Column(m, keys, f);
      var ci := Column(m, init, f);
      ColumnSnoc(m, init, y, f);
      assert c[..|c| - 1] == ci;
      assert Count(c, x) == Count(ci, x) + (if f(m[y]) == x then 1 else 0);
      var before := Matching(m, init, f, x);
      assert y !in before by {
        forall i | 0 <= i < |init| ensures init[i] != y {
          assert init[i] == keys[i];
        }
      }
      MatchingAppend(m, init, y, f, x);
      if f(m[y]) == x {
        assert Matching(m, keys, f, x) == before + {y};
      } else {
        assert Matching(m, keys, f, x) == before;
      }
    } else {
      assert Matching(m, keys, f, x) == {};
    }
  }

  /** Position `i` of the column holds `f` of the `i`-th listed row. */
  lemma ColumnAt<V, K>(m: map<nat, V>, keys: seq<nat>, f: V -> K, i: nat)
    requires forall j :: 0 <= j < |keys| ==> keys[j] in m
    requires i < |keys|
    ensures |Column(m, keys, f)| == |keys| && Column(m, keys, f)[i] == f(m[keys[i]])
  {
  }

  /** The column of one more listed row ends with that row's value. */
  lemma ColumnSnoc<V, K>(m: map<nat, V>, keys: seq<nat>, y: nat, f: V -> K)
    requires forall i :: 0 <= i < |keys| ==> keys[i] in m
    requires y in m
    ensures Column(m, keys + [y], f) == Column(m, keys, f) + [f(m[y])]
  {
    var c := Column(m, keys + [y], f);
    assert |c| == |keys| + 1;
    forall i | 0 <= i < |keys| ensures c[i] == Column(m, keys, f)[i] {
      assert (keys + [y])[i] == keys[i];
    }
  }

  /** The test that `f` of the row is `x`. */
  function Is<T, K(==)>(f: T -> K, x: K): T -> bool {
    (t: T) => f(t) == x
  }

  /** Counting `x` in a projected column counts the rows whose projection is `x`. */
  lemma {:induction false} CountMapped<T(!new), K(!new)>(s: seq<T>, f: T -> K, x: K)
    ensures Count(Seqs.Map(s, f), x) == |Seqs.Filter(s, Is(f, x))|
  {
    if |s| > 0 {
      var init := s[..|s| - 1];
      assert s == init + [s[|s| - 1]];
      CountMapped(init, f, x);
      Seqs.MapAppend(init, s[|s| - 1], f);
      Seqs.FilterAppend(init, s[|s| - 1], Is(f, x));
      var c := Seqs.Map(s, f);
      assert c[..|c| - 1] == Seqs.Map(init, f);
    }
  }

  /** The order "more rows first" on the keys of column `s`. */
  function ByCount<K(==,!new)>(s: seq<K>): (K, K) -> bool {
    (a: K, b: K) => Count(s, a) >= Count(s, b)
  }

  lemma ByCountIsOrder<K(!new)>(s: seq<K>)
    ensures Sorting.Total(ByCount(s)) && Sorting.Transitive(ByCount(s))
  {
  }

  function CountRow<K(==,!new)>(s: seq<K>): K -> (K, nat) {
    (k: K) => (k, Count(s, k))
  }

  /** The distinct keys of `s`, those with more rows first. */
  function RankedKeys<K(==,!new)>(s: seq<K>): (r: seq<K>)
    ensures forall k :: k in r <==> k in s
    ensures NoDuplicates(r)
    ensures forall i, j :: 0 <= i < j < |r| ==> Count(s, r[i]) >= Count(s, r[j])
  {
    var d := Distinct(s);
    var sorted := Sorting.Sort(d, ByCount(s));
    ByCountIsOrder(s);
    Sorting.SortIsSorted(d, ByCount(s));
    Sorting.SortSameMembers(d, ByCount(s));
    Seqs.DistinctPermutation(d, sorted);
    forall i, j | 0 <= i < j < |sorted| ensures Count(s, sorted[i]) >= Count(s, sorted[j]) {
      Sorting.SortedPairwise(sorted, ByCount(s), i, j);
    }
    sorted
  }

  /** Pairing every listed key with its count gives a row for each listed key. */
  lemma CountRowsCover<K(!new)>(s: seq<K>, keys: seq<K>)
    ensures forall k :: k in keys ==> (k, Count(s, k)) in Seqs.Map(keys, CountRow(s))
  {
    var rows := Seqs.Map(keys, CountRow(s));
    forall k | k in keys ensures (k, Count(s, k)) in rows {
      var i :| 0 <= i < |keys| && keys[i] == k;
      assert rows[i] == (k, Count(s, k));
    }
  }

  /** Grouping followed by ranking: one row per key present in `s` with its count,
      largest count first. */
  function RankedGroups<K(==,!new)>(s: seq<K>): (rows: seq<(K, nat)>)
    ensures forall row :: row in rows ==> row.0 in s && row.1 == Count(s, row.0)
    ensures forall k :: k in s ==> (k, Count(s, k)) in rows
    ensures NoDuplicates(Keys(rows))
    ensures forall i, j :: 0 <= i < j < |rows| ==> rows[i].1 >= rows[j].1
  {
    var keys := RankedKeys(s);
    var rows := Seqs.Map(keys, CountRow(s));
    assert Keys(rows) == keys;
    CountRowsCover(s, keys);
    rows
  }

  predicate KeyBefore<K(==), V>(a: (K, V), b: (K, V)) {
    a.0 != b.0
  }

  predicate CountBefore<K>(a: (K, nat), b: (K, nat)) {
    a.1 >= b.1
  }

  /** A `HAVING` or a `WHERE` on the grouping key keeps the keys distinct and the
      order by count. */
  lemma Having<K(!new)>(rows: seq<(K, nat)>, p: ((K, nat)) -> bool)
    requires NoDuplicates(Keys(rows))
    requires forall i, j :: 0 <= i < j < |rows| ==> rows[i].1 >= rows[j].1
    ensures NoDuplicates(Keys(Seqs.Filter(rows, p)))
    ensures forall i, j :: 0 <= i < j < |Seqs.Filter(rows, p)| ==> Seqs.Filter(rows, p)[i].1 >= Seqs.Filter(rows, p)[j].1
  {
    assert forall i, j :: 0 <= i < j < |rows| ==> KeyBefore(rows[i], rows[j]) by {
      forall i, j | 0 <= i < j < |rows| ensures KeyBefore(rows[i], rows[j]) {
        assert Keys(rows)[i] != Keys(rows)[j];
      }
    }
    Seqs.FilterKeepsOrder(rows, p, KeyBefore);
    Seqs.FilterKeepsOrder(rows, p, CountBefore);
    var r := Seqs.Filter(rows, p);
    forall i, j | 0 <= i < j < |r| ensures Keys(r)[i] != Keys(r)[j] {
      assert KeyBefore(r[i], r[j]);
    }
  }

  /** A subset is no larger than its superset. */
  lemma {:induction false} SubsetCardinality<T>(a: set<T>, b: set<T>)
    requires a <= b
    ensures |a| <= |b|
    decreases |a|
  {
    if a != {} {
      var x :| x in a;
      SubsetCardinality(a - {x}, b - {x});
    }
  }
}

=== FILE: history_repository.dfy ===
/** The queries of the status-history table. The table is the sequence of its rows in
    insertion order; every listing is `ORDER BY createdAt DESC`, newest first. */
module HistoryRepository {
  import opened Wrappers
  import opened Model
  import opened Status
  import opened Store
  import Seqs
  import Grouping

  // ------------------------------------------------------------ projections

  function SuggestionOf(e: HistoryEntry): SuggestionId { e.suggestionId }
  function ChangedByOf(e: HistoryEntry): Option<string> { e.changedBy }
  function NewStatusOf(e: HistoryEntry): SuggestionStatus { e.newStatus }
  function PreviousStatusOf(e: HistoryEntry): Option<SuggestionStatus> { e.previousStatus }

  /** The `(previousStatus, newStatus)` pair of a row. */
  function TransitionOf(e: HistoryEntry): (Option<SuggestionStatus>, SuggestionStatus) {
    (e.previousStatus, e.newStatus)
  }

  predicate Earlier(a: HistoryEntry, b: HistoryEntry) {
    a.createdAt < b.createdAt && a.id < b.id
  }

  predicate NewestFirst(r: seq<HistoryEntry>) {
    forall i, j :: 0 <= i < j < |r| ==> r[i].createdAt > r[j].createdAt
  }

  /** The rows passing `p`, newest first. */
  function Newest(h: seq<HistoryEntry>, p: HistoryEntry -> bool): (r: seq<HistoryEntry>)
    requires HistoryIncreasing(h)
    ensures forall e :: e in r <==> e in h && p(e)
    ensures |r| == |Seqs.Filter(h, p)|
    ensures NewestFirst(r)
  {
    var f := Seqs.Filter(h, p);
    Seqs.FilterKeepsOrder(h, p, Earlier);
    Seqs.ReverseSameMembers(f);
    Seqs.Reverse(f)
  }

  // ------------------------------------------------------------ listings

  /** `findBySuggestionIdOrderByCreatedAtDesc`: the suggestion's history, newest first. */
  function FindBySuggestionIdOrderByCreatedAtDesc(h: seq<HistoryEntry>, sid: SuggestionId): (r: seq<HistoryEntry>)
    requires HistoryIncreasing(h)
    ensures forall e :: e in r <==> e in h && e.suggestionId == sid
    ensures |r| == |HistoryOf(h, sid)|
    ensures NewestFirst(r)
  {
    Newest(h, Of(sid))
  }

  /** `findLatestBySuggestionId`: absent exactly when the suggestion has no history,
      otherwise its most recent row. */
  function FindLatestBySuggestionId(h: seq<HistoryEntry>, sid: SuggestionId): (r: Option<HistoryEntry>)
    requires HistoryIncreasing(h)
    ensures r.None? <==> forall i :: 0 <= i < |h| ==> h[i].suggestionId != sid
    ensures r.Some? ==> r.value in h && r.value.suggestionId == sid
    ensures r.Some? ==> forall i :: 0 <= i < |h| && h[i].suggestionId == sid ==> h[i].createdAt <= r.value.createdAt
  {
    var l := FindBySuggestionIdOrderByCreatedAtDesc(h, sid);
    assert forall i :: 0 <= i < |h| && h[i].suggestionId == sid ==> h[i] in l;
    if |l| == 0 then None
    else
      assert forall e :: e in l ==> e.createdAt <= l[0].createdAt;
      Some(l[0])
  }

  /** `findByChangedByOrderByCreatedAtDesc`; a missing name matches the rows without one
      (the derived query turns a null argument into `IS NULL`). */
  function FindByChangedBy(h: seq<HistoryEntry>, changedBy: Option<string>): (r: seq<HistoryEntry>)
    requires HistoryIncreasing(h)
    ensures forall e :: e in r <==> e in h && e.changedBy == changedBy
    ensures |r| == |Seqs.Filter(h, Grouping.Is(ChangedByOf, changedBy))|
    ensures NewestFirst(r)
  {
    assert forall e :: Grouping.Is(ChangedByOf, changedBy)(e) == (ChangedByOf(e) == changedBy);
    Newest(h, Grouping.Is(ChangedByOf, changedBy))
  }

  /** `findByNewStatusOrderByCreatedAtDesc` */
  function FindByNewStatus(h: seq<HistoryEntry>, status: SuggestionStatus): (r: seq<HistoryEntry>)
    requires HistoryIncreasing(h)
    ensures forall e :: e in r <==> e in h && e.newStatus == status
    ensures |r| == |Seqs.Filter(h, Grouping.Is(NewStatusOf, status))|
    ensures NewestFirst(r)
  {
    assert forall e :: Grouping.Is(NewStatusOf, status)(e) == (NewStatusOf(e) == status);
    Newest(h, Grouping.Is(NewStatusOf, status))
  }

  /** `findByPreviousStatusOrderByCreatedAtDesc`; a missing status matches the initial
      rows, whose previous status is null. */
  function FindByPreviousStatus(h: seq<HistoryEntry>, previous: Option<SuggestionStatus>): (r: seq<HistoryEntry>)
    requires HistoryIncreasing(h)
    ensures forall e :: e in r <==> e in h && e.previousStatus == previous
    ensures NewestFirst(r)
  {
    assert forall e :: Grouping.Is(PreviousStatusOf, previous)(e) == (PreviousStatusOf(e) == previous);
    Newest(h, Grouping.Is(PreviousStatusOf, previous))
  }

  /** `findStatusTransitions`: rows that moved from `from` to `to`. The query compares
      with `=`, so a null argument matches nothing. */
  function FindStatusTransitions(h: seq<HistoryEntry>, from: Option<SuggestionStatus>,
                                 to: Option<SuggestionStatus>): (r: seq<HistoryEntry>)
    requires HistoryIncreasing(h)
    ensures forall e :: e in r <==> e in h && from.Some? && to.Some? && e.previousStatus == from && e.newStatus == to.value
    ensures from.Some? && to.Some? ==> |r| == |Seqs.Filter(h, Grouping.Is(TransitionOf, (from, to.value)))|
    ensures NewestFirst(r)
  {
    if from.None? || to.None? then []
    else
      assert forall e :: Grouping.Is(TransitionOf, (from, to.value))(e) == (TransitionOf(e) == (from, to.value));
      Newest(h, Grouping.Is(TransitionOf, (from, to.value)))
  }

  function Within(start: nat, end: nat): HistoryEntry -> bool {
    (e: HistoryEntry) => start <= e.createdAt <= end
  }

  function Since(since: nat): HistoryEntry -> bool {
    (e: HistoryEntry) => since <= e.createdAt
  }

  /** `findByCreatedAtBetween`: both ends included. */
  function FindByCreatedAtBetween(h: seq<HistoryEntry>, start: nat, end: nat): (r: seq<HistoryEntry>)
    requires HistoryIncreasing(h)
    ensures forall e :: e in r <==> e in h && start <= e.createdAt <= end
    ensures NewestFirst(r)
  {
    Newest(h, Within(start, end))
  }

  /** `findRecentStatusChanges`: rows at or after `since`. */
  function FindRecentStatusChanges(h: seq<HistoryEntry>, since: nat): (r: seq<HistoryEntry>)
    requires HistoryIncreasing(h)
    ensures forall e :: e in r <==> e in h && since <= e.createdAt
    ensures NewestFirst(r)
  {
    Newest(h, Since(since))
  }

  function OfActive(suggestions: map<SuggestionId, Suggestion>): HistoryEntry -> bool {
    (e: HistoryEntry) => e.suggestionId in suggestions && !suggestions[e.suggestionId].deleted
  }

  /** `findForActiveSuggestions`: the rows of suggestions that are not soft-deleted. */
  function FindForActiveSuggestions(st: Store): (r: seq<HistoryEntry>)
    requires HistoryIncreasing(st.history)
    ensures forall e :: e in r <==> e in st.history && IsActive(st, e.suggestionId)
    ensures NewestFirst(r)
  {
    Newest(st.history, OfActive(st.suggestions))
  }

  /** The row has the smallest id among its suggestion's rows. */
  function FirstIn(h: seq<HistoryEntry>): HistoryEntry -> bool {
    (e: HistoryEntry) => forall i :: 0 <= i < |h| && h[i].suggestionId == e.suggestionId ==> e.id <= h[i].id
  }

  /** `findFirstStatusChanges`: for each suggestion, its row with the smallest id. */
  function FindFirstStatusChanges(h: seq<HistoryEntry>): (r: seq<HistoryEntry>)
    requires HistoryIncreasing(h)
    ensures forall e :: e in r <==>
              e in h && forall i :: 0 <= i < |h| && h[i].suggestionId == e.suggestionId ==> e.id <= h[i].id
    ensures NewestFirst(r)
  {
    Newest(h, FirstIn(h))
  }

  // ------------------------------------------------------------ counts

  /** `countByChangedBy` (null counts the rows without a name). */
  function CountByChangedBy(h: seq<HistoryEntry>, changedBy: Option<string>): (n: nat)
    ensures n == |Seqs.Filter(h, Grouping.Is(ChangedByOf, changedBy))|
    ensures n == 0 <==> forall i :: 0 <= i < |h| ==> h[i].changedBy != changedBy
  {
    Grouping.CountMapped(h, ChangedByOf, changedBy);
    var column := Seqs.Map(h, ChangedByOf);
    assert forall i :: 0 <= i < |h| ==> column[i] == h[i].changedBy;
    Grouping.Count(column, changedBy)
  }

  /** `countByNewStatus` */
  function CountByNewStatus(h: seq<HistoryEntry>, status: SuggestionStatus): (n: nat)
    ensures n == |Seqs.Filter(h, Grouping.Is(NewStatusOf, status))|
    ensures n == 0 <==> forall i :: 0 <= i < |h| ==> h[i].newStatus != status
  {
    Grouping.CountMapped(h, NewStatusOf, status);
    var column := Seqs.Map(h, NewStatusOf);
    assert forall i :: 0 <= i < |h| ==> column[i] == h[i].newStatus;
    Grouping.Count(column, status)
  }

  /** The number of rows that moved from `from` to `to`. */
  function CountTransitions(h: seq<HistoryEntry>, from: Option<SuggestionStatus>, to: SuggestionStatus): (n: nat)
    ensures n == |Seqs.Filter(h, Grouping.Is(TransitionOf, (from, to)))|
  {
    Grouping.CountMapped(h, TransitionOf, (from, to));
    Grouping.Count(Seqs.Map(h, TransitionOf), (from, to))
  }

  /** The number of rows of suggestion `sid`. */
  function CountBySuggestion(h: seq<HistoryEntry>, sid: SuggestionId): (n: nat)
    ensures n == |HistoryOf(h, sid)|
  {
    Grouping.CountMapped(h, SuggestionOf, sid);
    Seqs.FilterCongruent(h, Grouping.Is(SuggestionOf, sid), Of(sid));
    Grouping.Count(Seqs.Map(h, SuggestionOf), sid)
  }

  /** The counts agree with the lengths of the matching listings. */
  lemma CountsMatchLists(h: seq<HistoryEntry>, changedBy: Option<string>, status: SuggestionStatus,
                         from: SuggestionStatus, to: SuggestionStatus, sid: SuggestionId)
    requires HistoryIncreasing(h)
    ensures CountByChangedBy(h, changedBy) == |FindByChangedBy(h, changedBy)|
    ensures CountByNewStatus(h, status) == |FindByNewStatus(h, status)|
    ensures CountTransitions(h, Some(from), to) == |FindStatusTransitions(h, Some(from), Some(to))|
    ensures CountBySuggestion(h, sid) == |FindBySuggestionIdOrderByCreatedAtDesc(h, sid)|
  {
  }

  /** `countTotalStatusChanges` */
  function CountTotalStatusChanges(h: seq<HistoryEntry>): (n: nat)
    ensures n == Grouping.SumCounts(GetStatusChangeStatistics(h))
  {
    |h|
  }

  // ------------------------------------------------------------ statistics

  /** Counts per target status: one row per status some history row moved to, with its
      count; the counts add up to the whole table. */
  function GetStatusChangeStatistics(h: seq<HistoryEntry>): (rows: seq<(SuggestionStatus, nat)>)
    ensures forall row :: row in rows ==> row.1 == CountByNewStatus(h, row.0) && row.1 > 0
    ensures forall status :: CountByNewStatus(h, status) > 0 ==> (status, CountByNewStatus(h, status)) in rows
    ensures Grouping.NoDuplicates(Grouping.Keys(rows))
    ensures Grouping.SumCounts(rows) == |h|
  {
    var column := Seqs.Map(h, NewStatusOf);
    var rows := Grouping.GroupCount(column);
    Grouping.GroupCountRows(column);
    assert Grouping.Keys(rows) == Grouping.Distinct(column);
    Grouping.GroupCountsSumToRows(column);
    rows
  }

  predicate AdminRow(row: (Option<string>, nat)) {
    row.0.Some? && row.0.value != "System"
  }

  /** Activity per administrator: one row per recorded actor other than the system,
      with the number of rows they wrote, most active first. */
  function GetAdminActivityStatistics(h: seq<HistoryEntry>): (rows: seq<(Option<string>, nat)>)
    ensures forall row :: row in rows ==>
              AdminRow(row) && row.1 == CountByChangedBy(h, row.0) && row.1 > 0
    ensures forall name :: name != "System" && CountByChangedBy(h, Some(name)) > 0 ==>
              (Some(name), CountByChangedBy(h, Some(name))) in rows
    ensures Grouping.NoDuplicates(Grouping.Keys(rows))
    ensures forall i, j :: 0 <= i < j < |rows| ==> rows[i].1 >= rows[j].1
  {
    var column := Seqs.Map(h, ChangedByOf);
    var ranked := Grouping.RankedGroups(column);
    Grouping.Having(ranked, AdminRow);
    forall name | CountByChangedBy(h, Some(name)) > 0 ensures Some(name) in column {
      assert Grouping.Count(column, Some(name)) > 0;
    }
    Seqs.Filter(ranked, AdminRow)
  }

  predicate Repeated(row: (SuggestionId, nat)) {
    row.1 > 1
  }

  /** The suggestions with more than one history row, with their row counts, most
      changed first. */
  function FindSuggestionsWithMultipleStatusChanges(h: seq<HistoryEntry>): (rows: seq<(SuggestionId, nat)>)
    ensures forall row :: row in rows ==> row.1 == CountBySuggestion(h, row.0) && row.1 > 1
    ensures forall sid: SuggestionId :: CountBySuggestion(h, sid) > 1 ==> (sid, CountBySuggestion(h, sid)) in rows
    ensures Grouping.NoDuplicates(Grouping.Keys(rows))
    ensures forall i, j :: 0 <= i < j < |rows| ==> rows[i].1 >= rows[j].1
  {
    var column := Seqs.Map(h, SuggestionOf);
    var ranked := Grouping.RankedGroups(column);
    Grouping.Having(ranked, Repeated);
    var rows := Seqs.Filter(ranked, Repeated);
    forall row | row in rows ensures row.1 == CountBySuggestion(h, row.0) && row.1 > 1 {
      assert row in ranked && Repeated(row);
    }
    forall sid: SuggestionId | CountBySuggestion(h, sid) > 1 ensures (sid, CountBySuggestion(h, sid)) in rows {
      assert Grouping.Count(column, sid) > 0;
      assert (sid, Grouping.Count(column, sid)) in ranked;
    }
    rows
  }

  predicate FromKnown(row: ((Option<SuggestionStatus>, SuggestionStatus), nat)) {
    row.0.0.Some?
  }

  /** Transition counts: one row per (previous, new) status pair among the rows that
      have a previous status, most frequent first. */
  function GetStatusTransitionAnalytics(h: seq<HistoryEntry>): (rows: seq<((Option<SuggestionStatus>, SuggestionStatus), nat)>)
    ensures forall row :: row in rows ==>
              row.0.0.Some? && row.1 == CountTransitions(h, row.0.0, row.0.1) && row.1 > 0
    ensures forall from, to :: CountTransitions(h, Some(from), to) > 0 ==>
              ((Some(from), to), CountTransitions(h, Some(from), to)) in rows
    ensures Grouping.NoDuplicates(Grouping.Keys(rows))
    ensures forall i, j :: 0 <= i < j < |rows| ==> rows[i].1 >= rows[j].1
  {
    var column := Seqs.Map(h, TransitionOf);
    var ranked := Grouping.RankedGroups(column);
    Grouping.Having(ranked, FromKnown);
    CountedTransitionsInColumn(h);
    Seqs.Filter(ranked, FromKnown)
  }

  /** A transition with a positive count appears in the transition column. */
  lemma CountedTransitionsInColumn(h: seq<HistoryEntry>)
    ensures forall from, to :: CountTransitions(h, Some(from), to) > 0 ==> (Some(from), to) in Seqs.Map(h, TransitionOf)
  {
    var column := Seqs.Map(h, TransitionOf);
    forall from, to | CountTransitions(h, Some(from), to) > 0 ensures (Some(from), to) in column {
      assert Grouping.Count(column, (Some(from), to)) > 0;
    }
  }

  // ------------------------------------------------------------ removal

  /** `deleteBySuggestion`: drops the suggestion's rows and nothing else. */
  function DeleteBySuggestion(h: seq<HistoryEntry>, sid: SuggestionId): (r: seq<HistoryEntry>)
    ensures forall e :: e in r <==> e in h && e.suggestionId != sid
    ensures HistoryOf(r, sid) == []
    ensures forall other :: other != sid ==> HistoryOf(r, other) == HistoryOf(h, other)
  {
    forall other ensures HistoryOf(Purge(h, {sid}), other) == if other == sid then [] else HistoryOf(h, other) {
      HistoryOfPurge(h, {sid}, other);
    }
    Purge(h, {sid})
  }

  // ------------------------------------------------------------ properties

  /** Under the chain invariant the latest row of a suggestion ends at its current status. */
  lemma LatestIsCurrentStatus(st: Store, sid: SuggestionId)
    requires HistoryIncreasing(st.history) && HistoryChains(st)
    requires sid in st.suggestions
    ensures FindLatestBySuggestionId(st.history, sid).Some?
    ensures FindLatestBySuggestionId(st.history, sid).value.newStatus == st.suggestions[sid].status
  {
    var hs := HistoryOf(st.history, sid);
    assert Chain(hs, st.suggestions[sid].status);
    assert FindBySuggestionIdOrderByCreatedAtDesc(st.history, sid) == Seqs.Reverse(hs);
  }

  /** The first row of a suggestion's history has the smallest id of them all. */
  lemma FirstRowHasSmallestId(h: seq<HistoryEntry>, sid: SuggestionId)
    requires HistoryIncreasing(h)
    ensures forall k :: 0 < k < |HistoryOf(h, sid)| ==> HistoryOf(h, sid)[0].id < HistoryOf(h, sid)[k].id
  {
    Seqs.FilterKeepsOrder(h, Of(sid), Earlier);
  }

  /** Under the chain invariant the "first status changes" are the creation rows: each
      goes from nothing to OPEN and was written by "System". */
  lemma FirstChangesAreCreations(st: Store)
    requires HistoryIncreasing(st.history) && HistoryChains(st)
    requires forall i :: 0 <= i < |st.history| ==> st.history[i].suggestionId in st.suggestions
    ensures forall e :: e in FindFirstStatusChanges(st.history) ==>
              e.previousStatus.None? && e.newStatus == Open && e.changedBy == Some("System")
  {
    forall e | e in FindFirstStatusChanges(st.history)
      ensures e.previousStatus.None? && e.newStatus == Open && e.changedBy == Some("System")
    {
      FirstChangeIsCreation(st, e);
    }
  }

  lemma FirstChangeIsCreation(st: Store, e: HistoryEntry)
    requires HistoryIncreasing(st.history) && HistoryChains(st)
    requires forall i :: 0 <= i < |st.history| ==> st.history[i].suggestionId in st.suggestions
    requires e in FindFirstStatusChanges(st.history)
    ensures e.previousStatus.None? && e.newStatus == Open && e.changedBy == Some("System")
  {
    var h := st.history;
    var sid := e.suggestionId;
    var hs := HistoryOf(h, sid);
    assert Chain(hs, st.suggestions[sid].status);
    FirstRowHasSmallestId(h, sid);
    assert hs[0] in h;
    assert e in hs;
    var k :| 0 <= k < |hs| && hs[k] == e;
    assert k == 0;
  }

  /** Every suggestion's creation row is among the "first status changes". */
  lemma CreationsAreFirstChanges(st: Store, sid: SuggestionId)
    requires HistoryIncreasing(st.history) && HistoryChains(st)
    requires sid in st.suggestions
    ensures HistoryOf(st.history, sid)[0] in FindFirstStatusChanges(st.history)
  {
    var h := st.history;
    var hs := HistoryOf(h, sid);
    assert Chain(hs, st.suggestions[sid].status);
    FirstRowHasSmallestId(h, sid);
    forall i | 0 <= i < |h| && h[i].suggestionId == sid
      ensures hs[0].id <= h[i].id
    {
      assert h[i] in hs;
      var k :| 0 <= k < |hs| && hs[k] == h[i];
    }
  }
}

=== FILE: integrity.dfy ===
/** Every operation that writes keeps the database valid: keys and timestamps stay
    below the clock, foreign keys resolve, each live suggestion's counter equals
    its number of votes, emails and (suggestion, device) pairs stay unique, and each
    suggestion's history stays one unbroken chain ending at its status. */
module Integrity {
  import opened Wrappers
  import opened Model
  import opened Status
  import opened Store
  import Seqs
  import SuggestionRepository
  import SuggestionService
  import VoteRepository
  import VoteService
  import EmployeeService
  import AdminService

  // ------------------------------------------------------------ shared steps

  /** Ids and timestamps that grow along the table. */
  predicate EntryBefore(a: HistoryEntry, b: HistoryEntry) {
    a.id < b.id && a.createdAt < b.createdAt
  }

  /** Dropping history rows keeps the survivors in increasing order. */
  lemma PurgeKeepsIncreasing(h: seq<HistoryEntry>, gone: set<SuggestionId>)
    requires HistoryIncreasing(h)
    ensures HistoryIncreasing(Purge(h, gone))
  {
    assert forall i, j :: 0 <= i < j < |h| ==> EntryBefore(h[i], h[j]);
    Seqs.FilterKeepsOrder(h, Kept(gone), EntryBefore);
    var r := Purge(h, gone);
    forall i, j | 0 <= i < j < |r| ensures r[i].id < r[j].id && r[i].createdAt < r[j].createdAt {
      assert EntryBefore(r[i], r[j]);
    }
  }

  /** A row appended with the clock as its id and time keeps the history increasing. */
  lemma AppendKeepsIncreasing(st: Store, e: HistoryEntry)
    requires BelowClock(st) && HistoryIncreasing(st.history)
    requires e.id >= st.clock && e.createdAt >= st.clock
    ensures HistoryIncreasing(st.history + [e])
  {
  }

  /** The history rows that survive removing the suggestions in `gone` are rows of
      the original history and belong to none of them. */
  lemma PurgeMembers(h: seq<HistoryEntry>, gone: set<SuggestionId>)
    ensures forall i :: 0 <= i < |Purge(h, gone)| ==> Purge(h, gone)[i] in h && Purge(h, gone)[i].suggestionId !in gone
  {
    var r := Purge(h, gone);
    forall i | 0 <= i < |r| ensures r[i] in h && r[i].suggestionId !in gone {
      assert r[i] in r;
    }
  }

  lemma RemoveKeepsBelowClock(st: Store, gone: set<SuggestionId>)
    requires BelowClock(st)
    ensures BelowClock(RemoveSuggestions(st, gone))
  {
    PurgeMembers(st.history, gone);
  }

  lemma RemoveKeepsLinked(st: Store, gone: set<SuggestionId>)
    requires Linked(st)
    ensures Linked(RemoveSuggestions(st, gone))
  {
    PurgeMembers(st.history, gone);
    var after := RemoveSuggestions(st, gone);
    forall i | 0 <= i < |after.history| ensures after.history[i].suggestionId in after.suggestions {
      var e := after.history[i];
      var j :| 0 <= j < |st.history| && st.history[j] == e;
    }
  }

  lemma RemoveKeepsCounters(st: Store, gone: set<SuggestionId>)
    requires CountersMatch(st)
    ensures CountersMatch(RemoveSuggestions(st, gone))
  {
    var after := RemoveSuggestions(st, gone);
    forall k | k in after.suggestions && !after.suggestions[k].deleted
      ensures after.suggestions[k].voteCount == |VotesOf(after.votes, k)|
    {
      assert VotesOf(after.votes, k) == VotesOf(st.votes, k);
    }
  }

  lemma RemoveKeepsRowsValid(st: Store, gone: set<SuggestionId>)
    requires RowsValid(st)
    ensures RowsValid(RemoveSuggestions(st, gone))
  {
    PurgeMembers(st.history, gone);
    var after := RemoveSuggestions(st, gone);
    forall i | 0 <= i < |after.history| ensures FitsColumns(after.history[i]) {
      var j :| 0 <= j < |st.history| && st.history[j] == after.history[i];
    }
  }

  lemma RemoveKeepsChains(st: Store, gone: set<SuggestionId>)
    requires HistoryChains(st)
    ensures HistoryChains(RemoveSuggestions(st, gone))
  {
    var after := RemoveSuggestions(st, gone);
    forall k | k in after.suggestions ensures Chain(HistoryOf(after.history, k), after.suggestions[k].status) {
      HistoryOfPurge(st.history, gone, k);
    }
  }

  /** Removing suggestions (and with them their votes and history) keeps the database
      valid whatever the set removed. */
  lemma RemoveSuggestionsKeepsValid(st: Store, gone: set<SuggestionId>)
    requires Valid(st)
    ensures Valid(RemoveSuggestions(st, gone))
  {
    RemoveKeepsBelowClock(st, gone);
    RemoveKeepsLinked(st, gone);
    RemoveKeepsCounters(st, gone);
    RemoveKeepsRowsValid(st, gone);
    RemoveKeepsChains(st, gone);
    PurgeKeepsIncreasing(st.history, gone);
  }

  // ------------------------------------------------------------ employees

  /** A write to the employees table alone keeps the database valid when no
      referenced employee disappears, every row passes validation and emails stay
      unique. */
  lemma EmployeesWriteKeepsValid(st: Store, after: Store)
    requires Valid(st)
    requires after.suggestions == st.suggestions && after.votes == st.votes && after.history == st.history
    requires after.clock >= st.clock
    requires st.employees.Keys <= after.employees.Keys
    requires forall k :: k in after.employees ==> k < after.clock && ValidEmployee(after.employees[k])
    requires EmailsUnique(after.employees)
    ensures Valid(after)
  {
    assert BelowClock(after);
    assert CreatedInKeyOrder(after);
    assert Linked(after);
    assert CountersMatch(after);
    assert RowsValid(after);
    assert HistoryChains(after);
  }

  /** Storing one valid employee row under a key below the clock, emails staying
      unique, keeps the database valid. */
  lemma PutEmployeeKeepsValid(st: Store, id: EmployeeId, e: Employee, clock: nat)
    requires Valid(st) && clock >= st.clock && id < clock
    requires ValidEmployee(e) && EmailsUnique(st.employees[id := e])
    ensures Valid(st.(employees := st.employees[id := e], clock := clock))
  {
    var after := st.(employees := st.employees[id := e], clock := clock);
    forall k | k in after.employees ensures k < after.clock && ValidEmployee(after.employees[k]) {
      if k != id {
        assert k in st.employees;
      }
    }
    EmployeesWriteKeepsValid(st, after);
  }

  lemma CreateEmployeeKeepsValid(st: Store, e: Employee)
    requires Valid(st) && EmployeeService.CreateEmployee(st, e).Ok?
    ensures Valid(EmployeeService.CreateEmployee(st, e).value.st)
  {
    EmployeeService.CreateThenFindByEmail(st, e);
    var r := EmployeeService.CreateEmployee(st, e).value;
    PutEmployeeKeepsValid(st, r.value, e, st.clock + 1);
  }

  lemma UpdateEmployeeKeepsValid(st: Store, id: EmployeeId, upd: Employee)
    requires Valid(st) && EmployeeService.UpdateEmployee(st, id, upd).Ok?
    ensures Valid(EmployeeService.UpdateEmployee(st, id, upd).value.st)
  {
    EmployeeService.UpdateKeepsEmailsUnique(st, id, upd);
    var r := EmployeeService.UpdateEmployee(st, id, upd).value;
    assert r.st == st.(employees := st.employees[id := r.value], clock := st.clock);
    PutEmployeeKeepsValid(st, id, r.value, st.clock);
  }

  /** Removing an employee with the suggestions they submitted leaves no submitter,
      voter or history row pointing at a missing row. */
  lemma DeleteEmployeeKeepsValid(st: Store, id: EmployeeId)
    requires Valid(st) && EmployeeService.DeleteEmployee(st, id).Ok?
    ensures Valid(EmployeeService.DeleteEmployee(st, id).value)
  {
    var gone := EmployeeService.SubmittedBy(st, id);
    RemoveSuggestionsKeepsValid(st, gone);
    EmployeeService.DeleteLeavesNoReference(st, id);
    var mid := RemoveSuggestions(st, gone);
    var after := EmployeeService.DeleteEmployee(st, id).value;
    assert after == mid.(employees := mid.employees - {id});
    DropEmployeeKeepsValid(mid, id);
  }

  /** Dropping an employee nothing refers to keeps the database valid. */
  lemma DropEmployeeKeepsValid(st: Store, id: EmployeeId)
    requires Valid(st)
    requires forall k :: k in st.suggestions ==> st.suggestions[k].submitter != Some(id)
    requires forall k :: k in st.votes ==> st.votes[k].employee != Some(id)
    ensures Valid(st.(employees := st.employees - {id}))
  {
    LinkedWithoutEmployee(st, id);
    var after := st.(employees := st.employees - {id});
    assert BelowClock(after);
    assert CreatedInKeyOrder(after);
    assert CountersMatch(after);
    assert RowsValid(after);
    assert HistoryChains(after);
  }

  lemma LinkedWithoutEmployee(st: Store, id: EmployeeId)
    requires Linked(st)
    requires forall k :: k in st.suggestions ==> st.suggestions[k].submitter != Some(id)
    requires forall k :: k in st.votes ==> st.votes[k].employee != Some(id)
    ensures Linked(st.(employees := st.employees - {id}))
  {
  }

  // ------------------------------------------------------------ status changes

  /** `s2` is `s` with at most its status and deletion mark changed. */
  predicate SameButStatus(s: Suggestion, s2: Suggestion) {
    s2.(status := s.status, deleted := s.deleted, deletedAt := s.deletedAt) == s
  }

  /** The store after re-statusing suggestion `id` as `s2` and logging `e`. */
  function Restatus(st: Store, id: SuggestionId, s2: Suggestion, e: HistoryEntry): Store {
    st.(suggestions := st.suggestions[id := s2], history := st.history + [e], clock := st.clock + 1)
  }

  /** The history row a status write logs: the next key and time, from the old
      status to the new one. */
  predicate LogsChange(st: Store, id: SuggestionId, s2: Suggestion, e: HistoryEntry)
    requires id in st.suggestions
  {
    && e.id == st.clock && e.createdAt == st.clock && e.suggestionId == id
    && e.previousStatus == Some(st.suggestions[id].status) && e.newStatus == s2.status
    && FitsColumns(e)
  }

  lemma RestatusKeepsBelowClock(st: Store, id: SuggestionId, s2: Suggestion, e: HistoryEntry)
    requires BelowClock(st) && id in st.suggestions && SameButStatus(st.suggestions[id], s2) && LogsChange(st, id, s2, e)
    ensures BelowClock(Restatus(st, id, s2, e))
  {
  }

  lemma RestatusKeepsOrder(st: Store, id: SuggestionId, s2: Suggestion, e: HistoryEntry)
    requires BelowClock(st) && CreatedInKeyOrder(st) && HistoryIncreasing(st.history)
    requires id in st.suggestions && SameButStatus(st.suggestions[id], s2) && LogsChange(st, id, s2, e)
    ensures CreatedInKeyOrder(Restatus(st, id, s2, e)) && HistoryIncreasing(Restatus(st, id, s2, e).history)
  {
    AppendKeepsIncreasing(st, e);
  }

  lemma RestatusKeepsLinked(st: Store, id: SuggestionId, s2: Suggestion, e: HistoryEntry)
    requires Linked(st) && id in st.suggestions && SameButStatus(st.suggestions[id], s2) && LogsChange(st, id, s2, e)
    ensures Linked(Restatus(st, id, s2, e))
  {
  }

  lemma RestatusKeepsCounters(st: Store, id: SuggestionId, s2: Suggestion, e: HistoryEntry)
    requires CountersMatch(st) && id in st.suggestions && SameButStatus(st.suggestions[id], s2)
    requires !s2.deleted ==> !st.suggestions[id].deleted
    ensures CountersMatch(Restatus(st, id, s2, e))
  {
  }

  lemma RestatusKeepsRowsValid(st: Store, id: SuggestionId, s2: Suggestion, e: HistoryEntry)
    requires RowsValid(st) && id in st.suggestions && SameButStatus(st.suggestions[id], s2) && LogsChange(st, id, s2, e)
    ensures RowsValid(Restatus(st, id, s2, e))
  {
    var after := Restatus(st, id, s2, e);
    assert ValidSuggestionText(s2) && s2.voteCount >= 0 by {
      assert s2.title == st.suggestions[id].title && s2.description == st.suggestions[id].description;
      assert s2.voteCount == st.suggestions[id].voteCount;
    }
    forall k | k in after.suggestions ensures ValidSuggestionText(after.suggestions[k]) && after.suggestions[k].voteCount >= 0 {
    }
    forall i | 0 <= i < |after.history| ensures FitsColumns(after.history[i]) {
      if i < |st.history| {
        assert after.history[i] == st.history[i];
      }
    }
  }

  lemma RestatusKeepsChains(st: Store, id: SuggestionId, s2: Suggestion, e: HistoryEntry)
    requires HistoryChains(st) && id in st.suggestions && LogsChange(st, id, s2, e)
    ensures HistoryChains(Restatus(st, id, s2, e))
  {
    var after := Restatus(st, id, s2, e);
    forall k | k in after.suggestions ensures Chain(HistoryOf(after.history, k), after.suggestions[k].status) {
      HistoryOfAppend(st.history, e, k);
      if k == id {
        ChainExtend(HistoryOf(st.history, k), st.suggestions[k].status, e);
      }
    }
  }

  /** Re-statusing a live suggestion, logged by its history row, keeps the database
      valid. */
  lemma RestatusKeepsValid(st: Store, id: SuggestionId, s2: Suggestion, e: HistoryEntry)
    requires Valid(st) && IsActive(st, id) && SameButStatus(st.suggestions[id], s2) && LogsChange(st, id, s2, e)
    ensures Valid(Restatus(st, id, s2, e))
  {
    RestatusKeepsBelowClock(st, id, s2, e);
    RestatusKeepsOrder(st, id, s2, e);
    RestatusKeepsLinked(st, id, s2, e);
    RestatusKeepsCounters(st, id, s2, e);
    RestatusKeepsRowsValid(st, id, s2, e);
    RestatusKeepsChains(st, id, s2, e);
  }

  lemma ChangeStatusKeepsValid(st: Store, id: SuggestionId, newStatus: SuggestionStatus,
                               adminName: Option<string>, reason: Option<string>)
    requires Valid(st) && SuggestionService.ChangeStatus(st, id, newStatus, adminName, reason).Ok?
    ensures Valid(SuggestionService.ChangeStatus(st, id, newStatus, adminName, reason).value)
  {
    var s2 := st.suggestions[id].(status := newStatus);
    var e := HistoryEntry(st.clock, id, Some(st.suggestions[id].status), newStatus, adminName, reason, st.clock);
    RestatusKeepsValid(st, id, s2, e);
    assert SuggestionService.ChangeStatus(st, id, newStatus, adminName, reason).value == Restatus(st, id, s2, e);
  }

  lemma DeleteSuggestionKeepsValid(st: Store, id: SuggestionId, adminName: Option<string>)
    requires Valid(st) && SuggestionService.DeleteSuggestion(st, id, adminName).Ok?
    ensures Valid(SuggestionService.DeleteSuggestion(st, id, adminName).value)
  {
    var s := st.suggestions[id];
    var s2 := SoftDelete(s, st.clock);
    var e := HistoryEntry(st.clock, id, Some(s.status), s.status, adminName, Some(SuggestionService.DeletionReason), st.clock);
    RestatusKeepsValid(st, id, s2, e);
    assert SuggestionService.DeleteSuggestion(st, id, adminName).value == Restatus(st, id, s2, e);
  }

  // ------------------------------------------------------------ suggestions

  /** The store after inserting suggestion `s` under the clock and its initial
      history row under the next tick. */
  function Insert(st: Store, s: Suggestion): Store {
    st.(suggestions := st.suggestions[st.clock := s],
        history := st.history + [HistoryEntry(st.clock + 1, st.clock, None, Open, Some("System"), None, st.clock + 1)],
        clock := st.clock + 2)
  }

  /** A fresh OPEN row with no votes, valid text and a resolvable submitter. */
  predicate Fresh(st: Store, s: Suggestion) {
    && s.createdAt == st.clock && s.status == Open && s.voteCount == 0 && !s.deleted
    && ValidSuggestionText(s)
    && (s.submitter.Some? ==> s.submitter.value in st.employees && !s.anonymous)
  }

  lemma InsertKeepsOrder(st: Store, s: Suggestion)
    requires BelowClock(st) && CreatedInKeyOrder(st) && HistoryIncreasing(st.history) && Fresh(st, s)
    ensures BelowClock(Insert(st, s)) && CreatedInKeyOrder(Insert(st, s)) && HistoryIncreasing(Insert(st, s).history)
  {
    AppendKeepsIncreasing(st, Insert(st, s).history[|st.history|]);
  }

  lemma InsertKeepsLinked(st: Store, s: Suggestion)
    requires Linked(st) && Fresh(st, s)
    ensures Linked(Insert(st, s))
  {
  }

  lemma InsertKeepsCounters(st: Store, s: Suggestion)
    requires BelowClock(st) && Linked(st) && CountersMatch(st) && Fresh(st, s)
    ensures CountersMatch(Insert(st, s))
  {
    assert VotesOf(st.votes, st.clock) == {};
  }

  lemma InsertKeepsRowsValid(st: Store, s: Suggestion)
    requires RowsValid(st) && Fresh(st, s)
    ensures RowsValid(Insert(st, s))
  {
    var after := Insert(st, s);
    forall k | k in after.suggestions ensures ValidSuggestionText(after.suggestions[k]) && after.suggestions[k].voteCount >= 0 {
      if k != st.clock {
        assert after.suggestions[k] == st.suggestions[k];
      }
    }
    forall k | k in after.votes ensures ValidDevice(after.votes[k].deviceIdentifier) {
      assert after.votes[k] == st.votes[k];
    }
    forall i | 0 <= i < |after.history| ensures FitsColumns(after.history[i]) {
      if i < |st.history| {
        assert after.history[i] == st.history[i];
      }
    }
  }

  lemma InsertKeepsChains(st: Store, s: Suggestion)
    requires BelowClock(st) && HistoryChains(st) && Fresh(st, s)
    ensures HistoryChains(Insert(st, s))
  {
    var e := HistoryEntry(st.clock + 1, st.clock, None, Open, Some("System"), None, st.clock + 1);
    var after := Insert(st, s);
    assert after.suggestions == st.suggestions[st.clock := s] && after.history == st.history + [e];
    HistoryOfAbsent(st.history, st.clock);
    AppendCreationKeepsChains(st.suggestions, st.history, st.clock, s, e);
  }

  /** Adding an OPEN suggestion under a key no history row mentions, together with its
      creation row, keeps every suggestion's history a chain ending at its status. */
  lemma AppendCreationKeepsChains(m: map<SuggestionId, Suggestion>, h: seq<HistoryEntry>, key: SuggestionId,
                                  s: Suggestion, e: HistoryEntry)
    requires forall k :: k in m ==> Chain(HistoryOf(h, k), m[k].status)
    requires HistoryOf(h, key) == [] && s.status == Open
    requires e.suggestionId == key && e.previousStatus.None? && e.newStatus == Open && e.changedBy == Some("System")
    ensures forall k :: k in m[key := s] ==> Chain(HistoryOf(h + [e], k), m[key := s][k].status)
  {
    forall k | k in m[key := s] ensures Chain(HistoryOf(h + [e], k), m[key := s][k].status) {
      HistoryOfAppend(h, e, k);
      if k == key {
        assert HistoryOf(h + [e], k) == [e];
      } else {
        assert HistoryOf(h + [e], k) == HistoryOf(h, k);
      }
    }
  }

  /** Inserting a fresh suggestion with its initial history row keeps the database valid. */
  lemma InsertKeepsValid(st: Store, s: Suggestion)
    requires Valid(st) && Fresh(st, s)
    ensures Valid(Insert(st, s))
  {
    InsertKeepsOrder(st, s);
    InsertKeepsLinked(st, s);
    InsertKeepsCounters(st, s);
    InsertKeepsRowsValid(st, s);
    InsertKeepsChains(st, s);
  }

  lemma CreateSuggestionKeepsValid(st: Store, title: Option<string>, description: Option<string>,
                                   employeeId: Option<EmployeeId>, anonymous: bool)
    requires Valid(st) && SuggestionService.CreateSuggestion(st, title, description, employeeId, anonymous).Ok?
    ensures Valid(SuggestionService.CreateSuggestion(st, title, description, employeeId, anonymous).value.st)
  {
    var s := NewSuggestion(title.value, description.value, SuggestionService.SubmitterFor(employeeId, anonymous), anonymous, st.clock);
    SuggestionService.ValidatedTextIsValid(title, description, s);
    InsertKeepsValid(st, s);
    assert SuggestionService.CreateSuggestion(st, title, description, employeeId, anonymous).value.st == Insert(st, s);
  }

  /** `s2` is `s` with at most its title and description changed. */
  predicate SameButText(s: Suggestion, s2: Suggestion) {
    s2.(title := s.title, description := s.description) == s
  }

  lemma RetextKeepsRowsValid(st: Store, id: SuggestionId, s2: Suggestion)
    requires RowsValid(st) && id in st.suggestions && ValidSuggestionText(s2) && SameButText(st.suggestions[id], s2)
    ensures RowsValid(st.(suggestions := st.suggestions[id := s2]))
  {
    var after := st.(suggestions := st.suggestions[id := s2]);
    forall k | k in after.suggestions ensures ValidSuggestionText(after.suggestions[k]) && after.suggestions[k].voteCount >= 0 {
      if k != id {
        assert after.suggestions[k] == st.suggestions[k];
      } else {
        assert s2.voteCount == st.suggestions[id].voteCount;
      }
    }
  }

  lemma RetextKeepsChains(st: Store, id: SuggestionId, s2: Suggestion)
    requires HistoryChains(st) && id in st.suggestions && SameButText(st.suggestions[id], s2)
    ensures HistoryChains(st.(suggestions := st.suggestions[id := s2]))
  {
    var after := st.(suggestions := st.suggestions[id := s2]);
    forall k | k in after.suggestions ensures Chain(HistoryOf(after.history, k), after.suggestions[k].status) {
      assert after.suggestions[k].status == st.suggestions[k].status;
    }
  }

  lemma RetextKeepsLinked(st: Store, id: SuggestionId, s2: Suggestion)
    requires BelowClock(st) && CreatedInKeyOrder(st) && Linked(st) && CountersMatch(st)
    requires id in st.suggestions && SameButText(st.suggestions[id], s2)
    ensures var after := st.(suggestions := st.suggestions[id := s2]);
            BelowClock(after) && CreatedInKeyOrder(after) && Linked(after) && CountersMatch(after)
  {
    assert s2.submitter == st.suggestions[id].submitter && s2.anonymous == st.suggestions[id].anonymous;
    assert s2.createdAt == st.suggestions[id].createdAt && s2.deleted == st.suggestions[id].deleted;
    assert s2.voteCount == st.suggestions[id].voteCount;
  }

  /** New text for a suggestion that passes validation keeps the database valid. */
  lemma RetextKeepsValid(st: Store, id: SuggestionId, s2: Suggestion)
    requires Valid(st) && id in st.suggestions && ValidSuggestionText(s2) && SameButText(st.suggestions[id], s2)
    ensures Valid(st.(suggestions := st.suggestions[id := s2]))
  {
    RetextKeepsRowsValid(st, id, s2);
    RetextKeepsChains(st, id, s2);
    RetextKeepsLinked(st, id, s2);
  }

  lemma UpdateSuggestionKeepsValid(st: Store, id: SuggestionId, title: Option<string>, description: Option<string>)
    requires Valid(st) && SuggestionService.UpdateSuggestion(st, id, title, description).Ok?
    ensures Valid(SuggestionService.UpdateSuggestion(st, id, title, description).value)
  {
    var s2 := st.suggestions[id].(title := title.value, description := description.value);
    SuggestionService.ValidatedTextIsValid(title, description, s2);
    RetextKeepsValid(st, id, s2);
  }

  // ------------------------------------------------------------ votes

  /** `after` differs from `st` at most in its votes, its clock and the counters of
      its suggestions, and every counter stays non-negative. */
  predicate Recounted(st: Store, after: Store) {
    && after.employees == st.employees && after.history == st.history && after.clock >= st.clock
    && after.suggestions.Keys == st.suggestions.Keys
    && (forall k :: k in after.suggestions ==>
          k in st.suggestions && after.suggestions[k].(voteCount := st.suggestions[k].voteCount) == st.suggestions[k]
          && after.suggestions[k].voteCount >= 0)
  }

  /** Every vote row of `after` lies below its clock, points at a suggestion and an
      employee of `st` and carries an accepted device identifier. */
  predicate VotesFit(st: Store, after: Store) {
    forall k :: k in after.votes ==>
      && k < after.clock && after.votes[k].createdAt < after.clock
      && after.votes[k].suggestionId in st.suggestions
      && (after.votes[k].employee.Some? ==> after.votes[k].employee.value in st.employees)
      && ValidDevice(after.votes[k].deviceIdentifier)
  }

  predicate VotesInKeyOrder(votes: map<VoteId, Vote>) {
    forall a, b :: a in votes && b in votes && a < b ==> votes[a].createdAt < votes[b].createdAt
  }

  lemma RecountKeepsBelowClock(st: Store, after: Store)
    requires BelowClock(st) && Recounted(st, after) && VotesFit(st, after)
    ensures BelowClock(after)
  {
    forall k | k in after.suggestions ensures k < after.clock && after.suggestions[k].createdAt < after.clock {
      assert after.suggestions[k].createdAt == st.suggestions[k].createdAt;
    }
  }

  lemma RecountKeepsOrder(st: Store, after: Store)
    requires CreatedInKeyOrder(st) && Recounted(st, after) && VotesInKeyOrder(after.votes)
    ensures CreatedInKeyOrder(after)
  {
    forall a, b | a in after.suggestions && b in after.suggestions && a < b
      ensures after.suggestions[a].createdAt < after.suggestions[b].createdAt
    {
      assert after.suggestions[a].createdAt == st.suggestions[a].createdAt;
      assert after.suggestions[b].createdAt == st.suggestions[b].createdAt;
    }
  }

  lemma RecountKeepsLinked(st: Store, after: Store)
    requires Linked(st) && Recounted(st, after) && VotesFit(st, after)
    ensures Linked(after)
  {
    forall k | k in after.suggestions && after.suggestions[k].submitter.Some?
      ensures after.suggestions[k].submitter.value in after.employees && !after.suggestions[k].anonymous
    {
      assert after.suggestions[k].submitter == st.suggestions[k].submitter;
      assert after.suggestions[k].anonymous == st.suggestions[k].anonymous;
    }
  }

  lemma RecountKeepsRowsValid(st: Store, after: Store)
    requires RowsValid(st) && Recounted(st, after) && VotesFit(st, after)
    ensures RowsValid(after)
  {
    forall k | k in after.suggestions ensures ValidSuggestionText(after.suggestions[k]) {
      assert after.suggestions[k].title == st.suggestions[k].title;
      assert after.suggestions[k].description == st.suggestions[k].description;
    }
  }

  lemma RecountKeepsChains(st: Store, after: Store)
    requires HistoryChains(st) && Recounted(st, after)
    ensures HistoryChains(after)
  {
    forall k | k in after.suggestions ensures Chain(HistoryOf(after.history, k), after.suggestions[k].status) {
      assert after.suggestions[k].status == st.suggestions[k].status;
    }
  }

  /** A write to the votes and the counters keeps the database valid when the vote
      rows fit, stay unique and in key order, and every live counter matches. */
  lemma RecountKeepsValid(st: Store, after: Store)
    requires Valid(st) && Recounted(st, after) && VotesFit(st, after) && VotesInKeyOrder(after.votes)
    requires VotesUnique(after.votes) && CountersMatch(after)
    ensures Valid(after)
  {
    RecountKeepsBelowClock(st, after);
    RecountKeepsOrder(st, after);
    RecountKeepsLinked(st, after);
    RecountKeepsRowsValid(st, after);
    RecountKeepsChains(st, after);
  }

  /** The store after recording vote `v` for suggestion `sid` under the clock and
      raising its counter. */
  function AddVote(st: Store, sid: SuggestionId, v: Vote): Store
    requires sid in st.suggestions
  {
    st.(votes := st.votes[st.clock := v],
        suggestions := st.suggestions[sid := IncrementVoteCount(st.suggestions[sid])],
        clock := st.clock + 1)
  }

  /** A first vote of a device for a live suggestion, stamped with the clock. */
  predicate NewVote(st: Store, sid: SuggestionId, v: Vote) {
    && IsActive(st, sid) && v.suggestionId == sid && v.createdAt == st.clock
    && ValidDevice(v.deviceIdentifier)
    && (v.employee.Some? ==> v.employee.value in st.employees)
    && DeviceVotes(st.votes, sid, v.deviceIdentifier) == {}
  }

  lemma AddVoteRecounts(st: Store, sid: SuggestionId, v: Vote)
    requires RowsValid(st) && sid in st.suggestions
    ensures Recounted(st, AddVote(st, sid, v))
  {
    assert st.suggestions[sid].voteCount >= 0;
  }

  lemma AddVoteFits(st: Store, sid: SuggestionId, v: Vote)
    requires BelowClock(st) && Linked(st) && RowsValid(st) && NewVote(st, sid, v)
    ensures VotesFit(st, AddVote(st, sid, v))
  {
    var after := AddVote(st, sid, v);
    forall k | k in after.votes
      ensures k < after.clock && after.votes[k].createdAt < after.clock && after.votes[k].suggestionId in st.suggestions
      ensures after.votes[k].employee.Some? ==> after.votes[k].employee.value in st.employees
      ensures ValidDevice(after.votes[k].deviceIdentifier)
    {
      if k != st.clock {
        assert after.votes[k] == st.votes[k];
      }
    }
  }

  lemma AddVoteKeepsKeyOrder(st: Store, sid: SuggestionId, v: Vote)
    requires BelowClock(st) && CreatedInKeyOrder(st) && sid in st.suggestions && v.createdAt == st.clock
    ensures VotesInKeyOrder(AddVote(st, sid, v).votes)
  {
  }

  lemma AddVoteKeepsCounters(st: Store, sid: SuggestionId, v: Vote)
    requires BelowClock(st) && CountersMatch(st) && NewVote(st, sid, v)
    ensures CountersMatch(AddVote(st, sid, v))
  {
    var after := AddVote(st, sid, v);
    forall k | k in after.suggestions && !after.suggestions[k].deleted
      ensures after.suggestions[k].voteCount == |VotesOf(after.votes, k)|
    {
      VotesOfInsert(st.votes, st.clock, v, k);
    }
  }

  lemma AddVoteKeepsUnique(st: Store, sid: SuggestionId, v: Vote)
    requires BelowClock(st) && VotesUnique(st.votes) && NewVote(st, sid, v)
    ensures VotesUnique(AddVote(st, sid, v).votes)
  {
    var votes := AddVote(st, sid, v).votes;
    forall a, b | a in votes && b in votes && a != b
      ensures votes[a].suggestionId != votes[b].suggestionId || votes[a].deviceIdentifier != votes[b].deviceIdentifier
    {
      if a == st.clock {
        assert b !in DeviceVotes(st.votes, sid, v.deviceIdentifier);
      } else if b == st.clock {
        assert a !in DeviceVotes(st.votes, sid, v.deviceIdentifier);
      }
    }
  }

  /** Recording a device's first vote for a live suggestion, with the counter raised,
      keeps the database valid. */
  lemma AddVoteKeepsValid(st: Store, sid: SuggestionId, v: Vote)
    requires Valid(st) && NewVote(st, sid, v)
    ensures Valid(AddVote(st, sid, v))
  {
    AddVoteRecounts(st, sid, v);
    AddVoteFits(st, sid, v);
    AddVoteKeepsKeyOrder(st, sid, v);
    AddVoteKeepsCounters(st, sid, v);
    AddVoteKeepsUnique(st, sid, v);
    RecountKeepsValid(st, AddVote(st, sid, v));
  }

  lemma VoteKeepsValid(st: Store, sid: SuggestionId, device: Option<string>, employeeId: Option<EmployeeId>)
    requires Valid(st) && VoteService.VoteForSuggestion(st, sid, device, employeeId).Ok?
    ensures Valid(VoteService.VoteForSuggestion(st, sid, device, employeeId).value.st)
  {
    var d := device.value;
    if !VoteService.HasVote(st, sid, d) {
      var v := NewEmployeeVote(sid, d, VoteService.Voter(st, employeeId), st.clock);
      assert DeviceVotes(st.votes, sid, d) == {} by {
        forall k | k in st.votes && st.votes[k].suggestionId == sid ensures st.votes[k].deviceIdentifier != d {
          assert !VoteService.HasVote(st, sid, d);
        }
      }
      AddVoteKeepsValid(st, sid, v);
      assert VoteService.VoteForSuggestion(st, sid, device, employeeId).value.st == AddVote(st, sid, v);
    }
  }

  /** The store after deleting vote `k` of suggestion `sid` and lowering its counter. */
  function DropVote(st: Store, sid: SuggestionId, k: VoteId): Store
    requires sid in st.suggestions
  {
    st.(votes := st.votes - {k}, suggestions := st.suggestions[sid := DecrementVoteCount(st.suggestions[sid])])
  }

  lemma DropVoteRecounts(st: Store, sid: SuggestionId, k: VoteId)
    requires BelowClock(st) && CreatedInKeyOrder(st) && Linked(st) && RowsValid(st) && sid in st.suggestions
    ensures Recounted(st, DropVote(st, sid, k)) && VotesFit(st, DropVote(st, sid, k))
    ensures VotesInKeyOrder(DropVote(st, sid, k).votes)
  {
    DropVoteOnlyRecounts(st, sid, k);
    DropVoteFits(st, sid, k);
  }

  lemma DropVoteOnlyRecounts(st: Store, sid: SuggestionId, k: VoteId)
    requires RowsValid(st) && sid in st.suggestions
    ensures Recounted(st, DropVote(st, sid, k))
  {
    assert st.suggestions[sid].voteCount >= 0;
  }

  lemma DropVoteFits(st: Store, sid: SuggestionId, k: VoteId)
    requires BelowClock(st) && CreatedInKeyOrder(st) && Linked(st) && RowsValid(st) && sid in st.suggestions
    ensures VotesFit(st, DropVote(st, sid, k)) && VotesInKeyOrder(DropVote(st, sid, k).votes)
  {
    assert DropVote(st, sid, k).votes == st.votes - {k};
  }

  lemma DropVoteKeepsCounters(st: Store, sid: SuggestionId, k: VoteId)
    requires CountersMatch(st) && IsActive(st, sid) && k in st.votes && st.votes[k].suggestionId == sid
    ensures CountersMatch(DropVote(st, sid, k))
  {
    var after := DropVote(st, sid, k);
    assert k in VotesOf(st.votes, sid);
    forall j | j in after.suggestions && !after.suggestions[j].deleted
      ensures after.suggestions[j].voteCount == |VotesOf(after.votes, j)|
    {
      VotesOfRemove(st.votes, {k}, j);
    }
  }

  /** Deleting a live suggestion's vote, with the counter lowered, keeps the database
      valid. */
  lemma DropVoteKeepsValid(st: Store, sid: SuggestionId, k: VoteId)
    requires Valid(st) && IsActive(st, sid) && k in st.votes && st.votes[k].suggestionId == sid
    ensures Valid(DropVote(st, sid, k))
  {
    DropVoteRecounts(st, sid, k);
    DropVoteKeepsCounters(st, sid, k);
    RecountKeepsValid(st, DropVote(st, sid, k));
  }

  lemma UnvoteKeepsValid(st: Store, sid: SuggestionId, device: Option<string>)
    requires Valid(st) && VoteService.RemoveVoteForSuggestion(st, sid, device).Ok?
    ensures Valid(VoteService.RemoveVoteForSuggestion(st, sid, device).value.st)
  {
    match VoteRepository.FindBySuggestionIdAndDeviceIdentifier(st, sid, device.value)
    case None =>
    case Some(k) =>
      DropVoteKeepsValid(st, sid, k);
      assert VoteService.RemoveVoteForSuggestion(st, sid, device).value.st == DropVote(st, sid, k);
  }

  lemma ToggleKeepsValid(st: Store, sid: SuggestionId, device: Option<string>, employeeId: Option<EmployeeId>)
    requires Valid(st) && VoteService.ToggleVote(st, sid, device, employeeId).Ok?
    ensures Valid(VoteService.ToggleVote(st, sid, device, employeeId).value.st)
  {
    if VoteService.HasVote(st, sid, device.value) {
      UnvoteKeepsValid(st, sid, device);
    } else {
      VoteKeepsValid(st, sid, device, employeeId);
    }
  }

  /** Toggling twice with the same device restores whether it has voted, the
      suggestion's number of vote rows and every counter, and reports the count the
      suggestion started with. When the first toggle added the vote, the second removes
      that very row and the vote table is as before. */
  lemma ToggleTwiceRestores(st: Store, sid: SuggestionId, d: string, e: Option<EmployeeId>)
    requires Valid(st) && VoteService.ToggleVote(st, sid, Some(d), e).Ok?
    ensures var once := VoteService.ToggleVote(st, sid, Some(d), e).value.st;
            Valid(once) && VoteService.ToggleVote(once, sid, Some(d), e).Ok?
    ensures var once := VoteService.ToggleVote(st, sid, Some(d), e).value.st;
            var twice := VoteService.ToggleVote(once, sid, Some(d), e).value;
            && (VoteService.HasVote(twice.st, sid, d) <==> VoteService.HasVote(st, sid, d))
            && |VotesOf(twice.st.votes, sid)| == |VotesOf(st.votes, sid)|
            && twice.st.suggestions == st.suggestions
            && twice.value.newVoteCount == VoteService.GetVoteCount(st, sid)
            && (!VoteService.HasVote(st, sid, d) ==> twice.st.votes == st.votes)
  {
    ToggleKeepsValid(st, sid, Some(d), e);
    assert st.suggestions[sid].voteCount == |VotesOf(st.votes, sid)| == VoteService.GetVoteCount(st, sid);
    if VoteService.HasVote(st, sid, d) {
      ToggleRemoveThenAdd(st, sid, d, e);
    } else {
      ToggleAddThenRemove(st, sid, d, e);
    }
  }

  /** A first toggle that adds the vote is undone row for row by the second. */
  lemma ToggleAddThenRemove(st: Store, sid: SuggestionId, d: string, e: Option<EmployeeId>)
    requires BelowClock(st) && CreatedInKeyOrder(st) && VotesUnique(st.votes) && RowsValid(st)
    requires VoteService.ToggleVote(st, sid, Some(d), e).Ok? && !VoteService.HasVote(st, sid, d)
    requires var once := VoteService.ToggleVote(st, sid, Some(d), e).value.st;
             BelowClock(once) && CreatedInKeyOrder(once) && VotesUnique(once.votes)
    ensures var once := VoteService.ToggleVote(st, sid, Some(d), e).value.st;
            var twice := VoteService.ToggleVote(once, sid, Some(d), e);
            && twice.Ok?
            && twice.value.st.votes == st.votes && twice.value.st.suggestions == st.suggestions
  {
    ToggleIsVote(st, sid, d, e);
    var once := VoteService.VoteForSuggestion(st, sid, Some(d), e).value.st;
    VoteThenUnvote(st, sid, d, e);
    ToggleIsUnvote(once, sid, d, e);
  }

  /** A first toggle that removes the vote is undone, up to the new row's key, by the
      second. */
  lemma ToggleRemoveThenAdd(st: Store, sid: SuggestionId, d: string, e: Option<EmployeeId>)
    requires BelowClock(st) && CreatedInKeyOrder(st) && VotesUnique(st.votes)
    requires VoteService.ToggleVote(st, sid, Some(d), e).Ok? && VoteService.HasVote(st, sid, d)
    requires st.suggestions[sid].voteCount == |VotesOf(st.votes, sid)|
    requires var once := VoteService.ToggleVote(st, sid, Some(d), e).value.st;
             BelowClock(once) && CreatedInKeyOrder(once) && VotesUnique(once.votes)
    ensures var once := VoteService.ToggleVote(st, sid, Some(d), e).value.st;
            var twice := VoteService.ToggleVote(once, sid, Some(d), e);
            && twice.Ok?
            && VoteService.HasVote(twice.value.st, sid, d)
            && |VotesOf(twice.value.st.votes, sid)| == |VotesOf(st.votes, sid)|
            && twice.value.st.suggestions == st.suggestions
  {
    ToggleIsUnvote(st, sid, d, e);
    var once := VoteService.RemoveVoteForSuggestion(st, sid, Some(d)).value.st;
    UnvoteThenVote(st, sid, d, e);
    ToggleIsVote(once, sid, d, e);
  }

  /** Unvoting right after a vote removes the row the vote added. */
  lemma VoteThenUnvote(st: Store, sid: SuggestionId, d: string, e: Option<EmployeeId>)
    requires BelowClock(st) && RowsValid(st)
    requires VoteService.VoteForSuggestion(st, sid, Some(d), e).Ok? && !VoteService.HasVote(st, sid, d)
    requires var once := VoteService.VoteForSuggestion(st, sid, Some(d), e).value.st;
             BelowClock(once) && CreatedInKeyOrder(once) && VotesUnique(once.votes)
    ensures var once := VoteService.VoteForSuggestion(st, sid, Some(d), e).value.st;
            var twice := VoteService.RemoveVoteForSuggestion(once, sid, Some(d));
            && twice.Ok?
            && twice.value.st.votes == st.votes && twice.value.st.suggestions == st.suggestions
  {
    var once := VoteService.VoteForSuggestion(st, sid, Some(d), e).value.st;
    var v := NewEmployeeVote(sid, d, VoteService.Voter(st, e), st.clock);
    assert st.clock !in st.votes && once.votes == st.votes[st.clock := v];
    var s := st.suggestions[sid];
    assert once.suggestions == st.suggestions[sid := IncrementVoteCount(s)];
    var r := VoteService.RemoveVoteForSuggestion(once, sid, Some(d));
    assert r.Ok? && r.value.value;
    var k :| k in once.votes && once.votes[k].suggestionId == sid && once.votes[k].deviceIdentifier == d
             && r.value.st.votes == once.votes - {k};
    NewRowIsOnlyMatch(st.votes, st.clock, v, k, sid, d);
    InsertThenRemove(st.votes, st.clock, v);
    assert s.voteCount >= 0;
    CounterRoundTrip(s);
    assert once.suggestions[sid] == IncrementVoteCount(s);
    assert r.value.st.suggestions == once.suggestions[sid := s];
    UpdateThenRestore(st.suggestions, sid, IncrementVoteCount(s));
  }

  /** Writing a key and then writing its old value back gives the map back. */
  lemma UpdateThenRestore<K, V>(m: map<K, V>, k: K, v: V)
    requires k in m
    ensures m[k := v][k := m[k]] == m
  {
  }

  /** In a map with no row for the device, the only matching row after an insert is the
      inserted one. */
  lemma NewRowIsOnlyMatch(m: map<VoteId, Vote>, c: VoteId, v: Vote, k: VoteId, sid: SuggestionId, d: string)
    requires !exists j :: j in m && m[j].suggestionId == sid && m[j].deviceIdentifier == d
    requires k in m[c := v] && m[c := v][k].suggestionId == sid && m[c := v][k].deviceIdentifier == d
    ensures k == c
  {
  }

  /** Removing a key just inserted under a fresh key gives the map back. */
  lemma InsertThenRemove<K, V>(m: map<K, V>, c: K, v: V)
    requires c !in m
    ensures m[c := v] - {c} == m
  {
  }

  /** Voting right after an unvote puts back a row for the device and the counter. */
  lemma UnvoteThenVote(st: Store, sid: SuggestionId, d: string, e: Option<EmployeeId>)
    requires BelowClock(st) && CreatedInKeyOrder(st) && VotesUnique(st.votes)
    requires VoteService.RemoveVoteForSuggestion(st, sid, Some(d)).Ok? && VoteService.HasVote(st, sid, d)
    requires st.suggestions[sid].voteCount == |VotesOf(st.votes, sid)|
    requires BelowClock(VoteService.RemoveVoteForSuggestion(st, sid, Some(d)).value.st)
    ensures var once := VoteService.RemoveVoteForSuggestion(st, sid, Some(d)).value.st;
            var twice := VoteService.VoteForSuggestion(once, sid, Some(d), e);
            && twice.Ok?
            && VoteService.HasVote(twice.value.st, sid, d)
            && |VotesOf(twice.value.st.votes, sid)| == |VotesOf(st.votes, sid)|
            && twice.value.st.suggestions == st.suggestions
  {
    var once := VoteService.RemoveVoteForSuggestion(st, sid, Some(d)).value.st;
    var s := st.suggestions[sid];
    assert once.suggestions == st.suggestions[sid := DecrementVoteCount(s)];
    assert |VotesOf(st.votes, sid)| > 0;
    CounterRoundTrip(s);
    assert !VoteService.HasVote(once, sid, d);
    var twice := VoteService.VoteForSuggestion(once, sid, Some(d), e).value.st;
    assert once.suggestions[sid] == DecrementVoteCount(s);
    assert twice.suggestions == once.suggestions[sid := s];
    UpdateThenRestore(st.suggestions, sid, DecrementVoteCount(s));
  }

  /** Raising a counter undoes lowering it when it was positive, and the other way round
      when it was not negative. */
  lemma CounterRoundTrip(s: Suggestion)
    ensures s.voteCount > 0 ==> IncrementVoteCount(DecrementVoteCount(s)) == s
    ensures s.voteCount >= 0 ==> DecrementVoteCount(IncrementVoteCount(s)) == s
  {
  }

  /** A toggle for a device without a vote is a vote. */
  lemma ToggleIsVote(st: Store, sid: SuggestionId, d: string, e: Option<EmployeeId>)
    requires BelowClock(st) && CreatedInKeyOrder(st) && VotesUnique(st.votes)
    requires VoteService.ToggleVote(st, sid, Some(d), e).Ok? && !VoteService.HasVote(st, sid, d)
    ensures VoteService.VoteForSuggestion(st, sid, Some(d), e).Ok?
    ensures VoteService.ToggleVote(st, sid, Some(d), e).value.st == VoteService.VoteForSuggestion(st, sid, Some(d), e).value.st
  {
  }

  /** A toggle for a device with a vote is an unvote. */
  lemma ToggleIsUnvote(st: Store, sid: SuggestionId, d: string, e: Option<EmployeeId>)
    requires BelowClock(st) && CreatedInKeyOrder(st) && VotesUnique(st.votes)
    requires VoteService.ToggleVote(st, sid, Some(d), e).Ok? && VoteService.HasVote(st, sid, d)
    ensures VoteService.RemoveVoteForSuggestion(st, sid, Some(d)).Ok?
    ensures VoteService.ToggleVote(st, sid, Some(d), e).value.st == VoteService.RemoveVoteForSuggestion(st, sid, Some(d)).value.st
  {
  }

  /** Keeping only some of the vote rows keeps them fitting, ordered and unique. */
  lemma SubsetOfVotesFits(st: Store, after: Store)
    requires BelowClock(st) && CreatedInKeyOrder(st) && Linked(st) && RowsValid(st) && VotesUnique(st.votes)
    requires Recounted(st, after)
    requires after.votes.Keys <= st.votes.Keys && forall k :: k in after.votes ==> after.votes[k] == st.votes[k]
    ensures VotesFit(st, after) && VotesInKeyOrder(after.votes) && VotesUnique(after.votes)
  {
  }

  lemma ClearVotesRecounts(st: Store, sid: SuggestionId)
    requires sid in st.suggestions
    requires forall k :: k in st.suggestions ==> st.suggestions[k].voteCount >= 0
    ensures Recounted(st, st.(suggestions := st.suggestions[sid := st.suggestions[sid].(voteCount := 0)]))
  {
  }

  lemma ClearVotesShape(st: Store, sid: SuggestionId)
    requires VoteService.RemoveAllVotesForSuggestion(st, sid).Ok?
    ensures var after := VoteService.RemoveAllVotesForSuggestion(st, sid).value;
            && after == st.(votes := after.votes, suggestions := st.suggestions[sid := st.suggestions[sid].(voteCount := 0)])
            && after.votes.Keys <= st.votes.Keys && forall k :: k in after.votes ==> after.votes[k] == st.votes[k]
  {
  }

  lemma ClearVotesKeepsCounters(st: Store, sid: SuggestionId)
    requires CountersMatch(st) && VoteService.RemoveAllVotesForSuggestion(st, sid).Ok?
    ensures CountersMatch(VoteService.RemoveAllVotesForSuggestion(st, sid).value)
  {
    var after := VoteService.RemoveAllVotesForSuggestion(st, sid).value;
    forall j | j in after.suggestions && !after.suggestions[j].deleted
      ensures after.suggestions[j].voteCount == |VotesOf(after.votes, j)|
    {
      if j != sid {
        assert VotesOf(after.votes, j) == VotesOf(st.votes, j);
      }
    }
  }

  /** Clearing every vote of a live suggestion and zeroing its counter keeps the
      database valid. */
  lemma RemoveAllVotesKeepsValid(st: Store, sid: SuggestionId)
    requires Valid(st) && VoteService.RemoveAllVotesForSuggestion(st, sid).Ok?
    ensures Valid(VoteService.RemoveAllVotesForSuggestion(st, sid).value)
  {
    var after := VoteService.RemoveAllVotesForSuggestion(st, sid).value;
    ClearVotesShape(st, sid);
    ClearVotesRecounts(st, sid);
    SubsetOfVotesFits(st, after);
    ClearVotesKeepsCounters(st, sid);
    RecountKeepsValid(st, after);
  }

  lemma CleanupKeepsCounters(st: Store)
    requires Linked(st) && CountersMatch(st)
    ensures CountersMatch(st.(votes := st.votes - VoteService.Orphans(st)))
  {
    var gone := VoteService.Orphans(st);
    var after := st.(votes := st.votes - gone);
    forall j | j in after.suggestions && !after.suggestions[j].deleted
      ensures after.suggestions[j].voteCount == |VotesOf(after.votes, j)|
    {
      VotesOfRemove(st.votes, gone, j);
      assert VotesOf(st.votes, j) * gone == {};
    }
  }

  /** Deleting the votes of soft-deleted suggestions keeps the database valid: no live
      suggestion loses a vote, so every live counter still matches. */
  lemma CleanupKeepsValid(st: Store)
    requires Valid(st)
    ensures Valid(st.(votes := st.votes - VoteService.Orphans(st)))
  {
    var after := st.(votes := st.votes - VoteService.Orphans(st));
    CleanupKeepsCounters(st);
    assert Recounted(st, after);
    SubsetOfVotesFits(st, after);
    RecountKeepsValid(st, after);
  }

  /** A bulk status update is a run of status changes and caught failures, so it
      keeps the database valid. */
  lemma {:induction false} BulkKeepsValid(st: Store, ids: seq<SuggestionId>, newStatus: SuggestionStatus,
                                          adminName: string, reason: Option<string>)
    requires Valid(st)
    ensures Valid(AdminService.Apply(st, ids, newStatus, adminName, reason).0)
    decreases |ids|
  {
    if |ids| > 0 {
      var init := ids[..|ids| - 1];
      BulkKeepsValid(st, init, newStatus, adminName, reason);
      var prev := AdminService.Apply(st, init, newStatus, adminName, reason).0;
      if SuggestionService.ChangeStatus(prev, ids[|ids| - 1], newStatus, Some(adminName), reason).Ok? {
        ChangeStatusKeepsValid(prev, ids[|ids| - 1], newStatus, Some(adminName), reason);
      }
    }
  }

  // ------------------------------------------------------------ purge

  lemma HardDeleteKeepsValid(st: Store)
    requires Valid(st)
    ensures Valid(AdminService.HardDeleteSuggestions(st))
  {
    var gone := set k | k in st.suggestions && st.suggestions[k].deleted == true;
    RemoveSuggestionsKeepsValid(st, gone);
    assert AdminService.HardDeleteSuggestions(st) == RemoveSuggestions(st, gone);
  }
}

=== FILE: model.dfy ===
/** The four entities (the classes of the model package) with their constructors, column bounds and
    business methods, and the errors the services raise. Identifiers and
    timestamps are natural numbers drawn from one abstract clock. */
module Model {
  import opened Wrappers
  import opened Status
  import Text

  type EmployeeId = nat
  type SuggestionId = nat

  /** Every exception the core throws, one case per message. */
  datatype Error =
    | DeviceIdentifierRequired
    | DeviceIdentifierTooLong
    | SuggestionNotFound(suggestionId: SuggestionId)
    | EmployeeNotFound(employeeId: EmployeeId)
    | TitleRequired
    | DescriptionRequired
    | TitleTooLong
    | AlreadyInStatus(status: SuggestionStatus)
    | EmailAlreadyExists(email: string)
    | EmailInUse(email: string)
    | AdminPrivilegesRequired
      // the database or bean validation refused the write; the transaction rolls back
    | ConstraintViolation
      // a call inside the transaction failed and marked it rollback-only; the commit
      // throws and nothing is persisted
    | TransactionRolledBack

  /** A nullable string column of at most `max` characters, as the database counts
      them (a `length` on the column with no bean-validation constraint). */
  predicate OptionalWithin(s: Option<string>, max: nat) {
    s.Some? ==> |s.value| <= max
  }

  /** A nullable string within `@Size(max)`; bean validation measures the Java string,
      in UTF-16 code units. */
  predicate OptionalSizeWithin(s: Option<string>, max: nat) {
    s.Some? ==> Text.Utf16Length(s.value) <= max
  }

  // ---------------------------------------------------------------- Employee

  datatype Employee = Employee(
    name: string,
    email: string,
    department: Option<string>,
    position: Option<string>,
    role: Option<string>,
    password: Option<string>)

  const NameMax: nat := 100
  const EmailMax: nat := 150
  const DepartmentMax: nat := 100
  const PositionMax: nat := 100

  /** `new Employee(name, email, department, position)` */
  function NewEmployee(name: string, email: string, department: Option<string>, position: Option<string>): (e: Employee)
    ensures e.name == name && e.email == email
    ensures e.department == department && e.position == position
    ensures e.role.None? && e.password.None?
  {
    Employee(name, email, department, position, None, None)
  }

  /** The bean-validation constraints on the entity's fields. */
  predicate ValidEmployee(e: Employee) {
    && !Text.IsBlank(e.name) && Text.Utf16Length(e.name) <= NameMax
    && !Text.IsBlank(e.email) && Text.Utf16Length(e.email) <= EmailMax
    && OptionalSizeWithin(e.department, DepartmentMax)
    && OptionalSizeWithin(e.position, PositionMax)
  }

  // -------------------------------------------------------------- Suggestion

  datatype Suggestion = Suggestion(
    title: string,
    description: string,
    submitter: Option<EmployeeId>,
    anonymous: bool,
    status: SuggestionStatus,
    voteCount: int,
    createdAt: nat,
    deleted: bool,
    deletedAt: Option<nat>)

  const TitleMax: nat := 200

  /** `new Suggestion(title, description, submittedBy, isAnonymous)` at time `now`. */
  function NewSuggestion(title: string, description: string, submitter: Option<EmployeeId>, anonymous: bool, now: nat): (s: Suggestion)
    ensures s.status == Open && s.voteCount == 0
    ensures !s.deleted && s.deletedAt.None?
    ensures s.title == title && s.description == description
    ensures s.submitter == submitter && s.anonymous == anonymous && s.createdAt == now
  {
    Suggestion(title, description, submitter, anonymous, Open, 0, now, false, None)
  }

  /** The title and description constraints of the entity. */
  predicate ValidSuggestionText(s: Suggestion) {
    !Text.IsBlank(s.title) && Text.Utf16Length(s.title) <= TitleMax && !Text.IsBlank(s.description)
  }

  function IncrementVoteCount(s: Suggestion): (r: Suggestion)
    ensures r.voteCount == s.voteCount + 1
    ensures r.(voteCount := s.voteCount) == s
  {
    s.(voteCount := s.voteCount + 1)
  }

  /** Lowers a positive counter by one; a counter at or below zero is left alone. */
  function DecrementVoteCount(s: Suggestion): (r: Suggestion)
    ensures s.voteCount > 0 ==> r.voteCount == s.voteCount - 1
    ensures s.voteCount <= 0 ==> r.voteCount == s.voteCount
    ensures s.voteCount >= 0 ==> r.voteCount >= 0
    ensures r.(voteCount := s.voteCount) == s
  {
    if s.voteCount > 0 then s.(voteCount := s.voteCount - 1) else s
  }

  /** Unvoting right after voting restores the counter. */
  lemma DecrementUndoesIncrement(s: Suggestion)
    requires s.voteCount >= 0
    ensures DecrementVoteCount(IncrementVoteCount(s)) == s
  {
  }

  /** Marks the suggestion deleted at `now`; status, counter and text stay. */
  function SoftDelete(s: Suggestion, now: nat): (r: Suggestion)
    ensures r.deleted && r.deletedAt == Some(now)
    ensures r.status == s.status && r.voteCount == s.voteCount
    ensures r.(deleted := s.deleted, deletedAt := s.deletedAt) == s
  {
    s.(deleted := true, deletedAt := Some(now))
  }

  /** "Anonymous" for anonymous or unattributed suggestions, otherwise the
      submitter's current name. */
  function SubmitterName(s: Suggestion, employees: map<EmployeeId, Employee>): (name: string)
    requires !s.anonymous && s.submitter.Some? ==> s.submitter.value in employees
    ensures s.anonymous || s.submitter.None? ==> name == "Anonymous"
    ensures !s.anonymous && s.submitter.Some? ==> name == employees[s.submitter.value].name
  {
    if s.anonymous || s.submitter.None? then "Anonymous" else employees[s.submitter.value].name
  }

  /** The submitter's id, null exactly when nobody is attributed. */
  function SubmitterId(s: Suggestion): (id: Option<EmployeeId>)
    ensures id.None? <==> s.submitter.None?
    ensures id.Some? ==> s.submitter == Some(id.value)
  {
    s.submitter
  }

  // -------------------------------------------------------------------- Vote

  datatype Vote = Vote(
    suggestionId: SuggestionId,
    deviceIdentifier: string,
    employee: Option<EmployeeId>,
    createdAt: nat)

  const DeviceIdentifierMax: nat := 255

  /** `new Vote(suggestion, deviceIdentifier)`: no employee is recorded. */
  function NewVote(suggestionId: SuggestionId, device: string, now: nat): (v: Vote)
    ensures v.suggestionId == suggestionId && v.deviceIdentifier == device
    ensures v.employee.None? && v.createdAt == now
  {
    Vote(suggestionId, device, None, now)
  }

  /** `new Vote(suggestion, deviceIdentifier, employee)` */
  function NewEmployeeVote(suggestionId: SuggestionId, device: string, employee: Option<EmployeeId>, now: nat): (v: Vote)
    ensures v.suggestionId == suggestionId && v.deviceIdentifier == device
    ensures v.employee == employee && v.createdAt == now
  {
    Vote(suggestionId, device, employee, now)
  }

  // ----------------------------------------------------------- Status history

  datatype HistoryEntry = HistoryEntry(
    id: nat,
    suggestionId: SuggestionId,
    previousStatus: Option<SuggestionStatus>,
    newStatus: SuggestionStatus,
    changedBy: Option<string>,
    changeReason: Option<string>,
    createdAt: nat)

  const ChangedByMax: nat := 100
  const ChangeReasonMax: nat := 500

  /** The column lengths of `changed_by` and `change_reason`. */
  predicate FitsColumns(e: HistoryEntry) {
    OptionalWithin(e.changedBy, ChangedByMax) && OptionalWithin(e.changeReason, ChangeReasonMax)
  }

  /** The four-argument constructor: no reason. `id` and `now` are the values the
      database assigns on insert. */
  function NewHistoryEntry(id: nat, suggestionId: SuggestionId, previous: Option<SuggestionStatus>,
                           next: SuggestionStatus, changedBy: Option<string>, now: nat): (e: HistoryEntry)
    ensures e.suggestionId == suggestionId && e.previousStatus == previous && e.newStatus == next
    ensures e.changedBy == changedBy && e.changeReason.None?
    ensures e.id == id && e.createdAt == now
  {
    HistoryEntry(id, suggestionId, previous, next, changedBy, None, now)
  }

  /** The five-argument constructor stores every field as given. */
  function NewHistoryEntryWithReason(id: nat, suggestionId: SuggestionId, previous: Option<SuggestionStatus>,
                                     next: SuggestionStatus, changedBy: Option<string>,
                                     reason: Option<string>, now: nat): (e: HistoryEntry)
    ensures e.suggestionId == suggestionId && e.previousStatus == previous && e.newStatus == next
    ensures e.changedBy == changedBy && e.changeReason == reason
    ensures e.id == id && e.createdAt == now
  {
    HistoryEntry(id, suggestionId, previous, next, changedBy, reason, now)
  }
}

=== FILE: seqs.dfy ===
/** Order-preserving filtering and reversal of result lists. */
module Seqs {

  /** The elements of `s` satisfying `p`, in their original order (`WHERE p`). */
  function Filter<T(!new)>(s: seq<T>, p: T -> bool): (r: seq<T>)
    ensures |r| <= |s|
    ensures forall x :: x in r <==> x in s && p(x)
    ensures forall i :: 0 <= i < |r| ==> p(r[i])
  {
    if |s| == 0 then []
    else
      var init := s[..|s| - 1];
      assert s == init + [s[|s| - 1]];
      Filter(init, p) + (if p(s[|s| - 1]) then [s[|s| - 1]] else [])
  }

  lemma FilterAppend<T(!new)>(s: seq<T>, x: T, p: T -> bool)
    ensures Filter(s + [x], p) == Filter(s, p) + (if p(x) then [x] else [])
  {
    assert (s + [x])[..|s + [x]| - 1] == s;
  }

  /** Filtering with a test that every element passes changes nothing. */
  lemma {:induction false} FilterAll<T(!new)>(s: seq<T>, p: T -> bool)
    requires forall i :: 0 <= i < |s| ==> p(s[i])
    ensures Filter(s, p) == s
  {
    if |s| > 0 {
      var init := s[..|s| - 1];
      FilterAll(init, p);
      assert s == init + [s[|s| - 1]];
      FilterAppend(init, s[|s| - 1], p);
    }
  }

  /** `p` picks out elements in increasing position order. */
  lemma {:induction false} FilterKeepsOrder<T(!new)>(s: seq<T>, p: T -> bool, lt: (T, T) -> bool)
    requires forall i, j :: 0 <= i < j < |s| ==> lt(s[i], s[j])
    ensures forall i, j :: 0 <= i < j < |Filter(s, p)| ==> lt(Filter(s, p)[i], Filter(s, p)[j])
  {
    if |s| > 0 {
      var init := s[..|s| - 1];
      FilterKeepsOrder(init, p, lt);
      var r := Filter(s, p);
      var ri := Filter(init, p);
      assert r == ri + (if p(s[|s| - 1]) then [s[|s| - 1]] else []);
      forall i, j | 0 <= i < j < |r|
        ensures lt(r[i], r[j])
      {
        assert r[i] == ri[i];
        if j < |ri| {
          assert r[j] == ri[j];
          assert lt(ri[i], ri[j]);
        } else {
          assert r[j] == s[|s| - 1];
          assert ri[i] in init;
          var k :| 0 <= k < |init| && init[k] == ri[i];
          assert s[k] == r[i];
          assert lt(s[k], s[|s| - 1]);
        }
      }
    }
  }

  function Reverse<T>(s: seq<T>): (r: seq<T>)
    ensures |r| == |s|
    ensures forall i :: 0 <= i < |s| ==> r[i] == s[|s| - 1 - i]
  {
    if |s| == 0 then [] else [s[|s| - 1]] + Reverse(s[..|s| - 1])
  }

  lemma ReverseSameMembers<T>(s: seq<T>)
    ensures forall x :: x in Reverse(s) <==> x in s
  {
    var r := Reverse(s);
    forall x
      ensures x in r <==> x in s
    {
      if x in s {
        var i :| 0 <= i < |s| && s[i] == x;
        assert r[|s| - 1 - i] == x;
      }
    }
  }

  /** The keys below `n` of `m` whose value passes `p`, largest first: a table with
      generated keys listed newest first. */
  function ScanDesc<V>(m: map<nat, V>, n: nat, p: V -> bool): (r: seq<nat>)
    ensures forall k :: k in r <==> k < n && k in m && p(m[k])
    ensures forall i, j :: 0 <= i < j < |r| ==> r[i] > r[j]
    ensures forall i :: 0 <= i < |r| ==> r[i] < n
  {
    if n == 0 then []
    else (if n - 1 in m && p(m[n - 1]) then [n - 1] else []) + ScanDesc(m, n - 1, p)
  }

  /** A list whose entries are distinct and are exactly the members of `s` is as long as `s`. */
  lemma {:induction false} DistinctListCoversSet<T>(r: seq<T>, s: set<T>)
    requires forall i, j :: 0 <= i < j < |r| ==> r[i] != r[j]
    requires forall k :: k in r <==> k in s
    ensures |r| == |s|
  {
    if |r| > 0 {
      var init := r[..|r| - 1];
      var x := r[|r| - 1];
      assert forall k :: k in init <==> k in s - {x} by {
        assert r == init + [x];
        forall k | k in init ensures k != x {
          var i :| 0 <= i < |init| && init[i] == k;
          assert r[i] == k;
        }
      }
      DistinctListCoversSet(init, s - {x});
    } else {
      assert forall k :: k !in s;
      assert s == {};
    }
  }

  /** A strictly decreasing list of keys has no repeats. */
  lemma DescendingDistinct(r: seq<nat>)
    requires forall i, j :: 0 <= i < j < |r| ==> r[i] > r[j]
    ensures forall i, j :: 0 <= i < j < |r| ==> r[i] != r[j]
  {
  }

  /** `f` applied to every element, in order (a projected column). */
  function Map<T, U>(s: seq<T>, f: T -> U): seq<U> {
    seq(|s|, i requires 0 <= i < |s| => f(s[i]))
  }

  lemma MapMembers<T, U>(s: seq<T>, f: T -> U, y: U)
    ensures y in Map(s, f) <==> exists x :: x in s && f(x) == y
  {
    if exists x :: x in s && f(x) == y {
      var x :| x in s && f(x) == y;
      var i :| 0 <= i < |s| && s[i] == x;
      assert Map(s, f)[i] == y;
    }
  }

  lemma MapAppend<T, U>(s: seq<T>, x: T, f: T -> U)
    ensures Map(s + [x], f) == Map(s, f) + [f(x)]
  {
  }

  /** Filtering with two tests that agree everywhere gives the same list. */
  lemma {:induction false} FilterCongruent<T(!new)>(s: seq<T>, p: T -> bool, q: T -> bool)
    requires forall x :: p(x) == q(x)
    ensures Filter(s, p) == Filter(s, q)
  {
    if |s| > 0 {
      FilterCongruent(s[..|s| - 1], p, q);
    }
  }

  /** The multiplicity of an element of a list with no repeats is one. */
  lemma {:induction false} DistinctMultiplicity<T>(s: seq<T>, x: T)
    requires forall i, j :: 0 <= i < j < |s| ==> s[i] != s[j]
    ensures multiset(s)[x] <= 1
  {
    if |s| > 0 {
      var init := s[..|s| - 1];
      assert s == init + [s[|s| - 1]];
      DistinctMultiplicity(init, x);
      assert x == s[|s| - 1] ==> x !in init by {
        forall i | 0 <= i < |init| ensures init[i] != s[|s| - 1] {
          assert init[i] == s[i];
        }
      }
    }
  }

  /** Two positions holding equal elements make that element occur at least twice. */
  lemma RepeatMultiplicity<T>(s: seq<T>, i: nat, j: nat)
    requires i < j < |s|
    ensures multiset(s)[s[i]] >= if s[i] == s[j] then 2 else 1
  {
    assert s == s[..j] + [s[j]] + s[j + 1..];
    assert s[i] in s[..j];
  }

  /** A rearrangement of a list without repeats has no repeats. */
  lemma DistinctPermutation<T>(a: seq<T>, b: seq<T>)
    requires multiset(a) == multiset(b)
    requires forall i, j :: 0 <= i < j < |a| ==> a[i] != a[j]
    ensures forall i, j :: 0 <= i < j < |b| ==> b[i] != b[j]
  {
    forall i, j | 0 <= i < j < |b|
      ensures b[i] != b[j]
    {
      DistinctMultiplicity(a, b[i]);
      RepeatMultiplicity(b, i, j);
    }
  }
}

=== FILE: sorting.dfy ===
/** Ordering of query results (`ORDER BY`): an insertion sort over a comparator,
    proved to return a permutation that is sorted whenever the comparator is total. */
module Sorting {

  /** Every neighbouring pair is in order. */
  predicate Sorted<T>(s: seq<T>, le: (T, T) -> bool) {
    forall i :: 0 < i < |s| ==> le(s[i - 1], s[i])
  }

  ghost predicate Total<T(!new)>(le: (T, T) -> bool) {
    forall a, b :: le(a, b) || le(b, a)
  }

  ghost predicate Transitive<T(!new)>(le: (T, T) -> bool) {
    forall a, b, c :: le(a, b) && le(b, c) ==> le(a, c)
  }

  function Insert<T>(x: T, s: seq<T>, le: (T, T) -> bool): (r: seq<T>)
    ensures multiset(r) == multiset(s) + multiset{x}
    ensures |r| == |s| + 1
    ensures r[0] == x || (|s| > 0 && r[0] == s[0])
  {
    if |s| == 0 || le(x, s[0]) then
      [x] + s
    else
      var r := [s[0]] + Insert(x, s[1..], le);
      assert s == [s[0]] + s[1..];
      r
  }

  function Sort<T>(s: seq<T>, le: (T, T) -> bool): (r: seq<T>)
    ensures multiset(r) == multiset(s)
    ensures |r| == |s|
  {
    if |s| == 0 then
      []
    else
      assert s == [s[0]] + s[1..];
      Insert(s[0], Sort(s[1..], le), le)
  }

  lemma {:induction false} InsertKeepsSorted<T(!new)>(x: T, s: seq<T>, le: (T, T) -> bool)
    requires Total(le) && Sorted(s, le)
    ensures Sorted(Insert(x, s, le), le)
  {
    if |s| > 0 && !le(x, s[0]) {
      InsertKeepsSorted(x, s[1..], le);
      var rest := Insert(x, s[1..], le);
      assert le(s[0], rest[0]) by {
        assert le(x, s[0]) || le(s[0], x);
      }
      assert Insert(x, s, le) == [s[0]] + rest;
    }
  }

  lemma {:induction false} SortIsSorted<T(!new)>(s: seq<T>, le: (T, T) -> bool)
    requires Total(le)
    ensures Sorted(Sort(s, le), le)
  {
    if |s| > 0 {
      SortIsSorted(s[1..], le);
      InsertKeepsSorted(s[0], Sort(s[1..], le), le);
    }
  }

  /** With a transitive comparator, neighbour order gives order between any two positions. */
  lemma {:induction false} SortedPairwise<T(!new)>(s: seq<T>, le: (T, T) -> bool, i: int, j: int)
    requires Transitive(le) && Sorted(s, le)
    requires 0 <= i < j < |s|
    ensures le(s[i], s[j])
    decreases j - i
  {
    if i + 1 < j {
      SortedPairwise(s, le, i, j - 1);
    }
  }

  /** Members survive sorting, and nothing else appears. */
  lemma SortSameMembers<T>(s: seq<T>, le: (T, T) -> bool)
    ensures forall x :: x in Sort(s, le) <==> x in s
  {
    var r := Sort(s, le);
    forall x
      ensures x in r <==> x in s
    {
      assert x in r <==> x in multiset(r);
      assert x in s <==> x in multiset(s);
    }
  }
}

=== FILE: status.dfy ===
/** The six review states of a suggestion and their display names
    (model/SuggestionStatus.java). */
module Status {
  import Text
  import opened Wrappers

  datatype SuggestionStatus = Open | UnderReview | Implemented | Rejected | InProgress | OnHold

  /** The enum constants in declaration order. */
  const AllStatuses: seq<SuggestionStatus> := [Open, UnderReview, Implemented, Rejected, InProgress, OnHold]

  function DisplayName(s: SuggestionStatus): (name: string)
    ensures |name| > 0
    ensures Text.AvoidsPair(name, ' ', 't') && Text.AvoidsPair(name, ' ', '→')
  {
    match s
    case Open => ShortNamesAvoidPairs(); "Open"
    case UnderReview => ShortNamesAvoidPairs(); "Under Review"
    case Implemented => ShortNamesAvoidPairs(); "Implemented"
    case Rejected => LongNamesAvoidPairs(); "Rejected"
    case InProgress => LongNamesAvoidPairs(); "In Progress"
    case OnHold => LongNamesAvoidPairs(); "On Hold"
  }

  /** No space in a display name is followed by "t" or by the arrow. */
  lemma ShortNamesAvoidPairs()
    ensures forall n :: n in ["Open", "Under Review", "Implemented"] ==>
              Text.AvoidsPair(n, ' ', 't') && Text.AvoidsPair(n, ' ', '→')
  {
  }

  lemma LongNamesAvoidPairs()
    ensures forall n :: n in ["Rejected", "In Progress", "On Hold"] ==>
              Text.AvoidsPair(n, ' ', 't') && Text.AvoidsPair(n, ' ', '→')
  {
  }

  /** `toString()` is the display name, which names exactly one status. */
  function ToString(s: SuggestionStatus): (r: string)
    ensures ParseDisplayName(r) == Some(s)
  {
    ParseDisplayNameRoundTrip(s);
    DisplayName(s)
  }

  /** The enum lists every status exactly once. */
  lemma AllStatusesComplete()
    ensures |AllStatuses| == 6
    ensures forall s :: s in AllStatuses
    ensures forall i, j :: 0 <= i < j < |AllStatuses| ==> AllStatuses[i] != AllStatuses[j]
  {
    forall s
      ensures s in AllStatuses
    {
      match s
      case Open => assert AllStatuses[0] == s;
      case UnderReview => assert AllStatuses[1] == s;
      case Implemented => assert AllStatuses[2] == s;
      case Rejected => assert AllStatuses[3] == s;
      case InProgress => assert AllStatuses[4] == s;
      case OnHold => assert AllStatuses[5] == s;
    }
    forall i, j | 0 <= i < j < |AllStatuses|
      ensures AllStatuses[i] != AllStatuses[j]
    {
      assert i in {0, 1, 2, 3, 4} && j in {1, 2, 3, 4, 5};
    }
  }

  /** Different statuses are shown under different names. */
  lemma DisplayNameInjective(a: SuggestionStatus, b: SuggestionStatus)
    ensures DisplayName(a) == DisplayName(b) ==> a == b
  {
  }

  /** The status shown under `name`, if any: the inverse of `DisplayName`. */
  function ParseDisplayName(name: string): (r: Option<SuggestionStatus>)
    ensures r.Some? ==> DisplayName(r.value) == name
    ensures r.None? <==> forall s :: DisplayName(s) != name
  {
    if name == "Open" then Some(Open)
    else if name == "Under Review" then Some(UnderReview)
    else if name == "Implemented" then Some(Implemented)
    else if name == "Rejected" then Some(Rejected)
    else if name == "In Progress" then Some(InProgress)
    else if name == "On Hold" then Some(OnHold)
    else None
  }

  lemma ParseDisplayNameRoundTrip(s: SuggestionStatus)
    ensures ParseDisplayName(DisplayName(s)) == Some(s)
  {
    DisplayNameInjective(s, ParseDisplayName(DisplayName(s)).value);
  }

  /** `name()`: the enum constant's own name. */
  function Name(s: SuggestionStatus): string {
    match s
    case Open => "OPEN"
    case UnderReview => "UNDER_REVIEW"
    case Implemented => "IMPLEMENTED"
    case Rejected => "REJECTED"
    case InProgress => "IN_PROGRESS"
    case OnHold => "ON_HOLD"
  }

  /** `name().toLowerCase()`, the key a status is reported under in statistics. */
  function LowerName(s: SuggestionStatus): (r: string)
    ensures |r| == |Name(s)|
  {
    Text.ToLower(Name(s))
  }

  /** Statistics keys of different statuses differ, and none is "total" or "anonymous". */
  lemma LowerNameDistinct(a: SuggestionStatus, b: SuggestionStatus)
    ensures LowerName(a) == LowerName(b) ==> a == b
    ensures LowerName(a) != "total" && LowerName(a) != "anonymous"
  {
    assert LowerName(a)[1] == Text.ToLowerChar(Name(a)[1]);
    assert LowerName(b)[1] == Text.ToLowerChar(Name(b)[1]);
    assert Text.ToLowerChar('M') != Text.ToLowerChar('N');
  }
}

=== FILE: status_history_service.dfy ===
/** The read-only status-history service: statistics maps, transition analytics, the
    suggestions that moved more than once, and the formatted timeline of one
    suggestion, with the descriptions shown to users. */
module StatusHistoryService {
  import opened Wrappers
  import opened Model
  import opened Status
  import opened Store
  import Text
  import Seqs
  import Grouping
  import HR = HistoryRepository

  // ------------------------------------------------------------ transitions

  /** One row of the transition analytics. */
  datatype StatusTransition = StatusTransition(
    fromStatus: Option<SuggestionStatus>,
    toStatus: SuggestionStatus,
    count: nat)

  const Arrow := " → "

  /** The left side of a transition description: "Initial" when there was no status. */
  function FromLabel(from: Option<SuggestionStatus>): (text: string)
    ensures Text.AvoidsPair(text, ' ', '→')
    ensures ParseDisplayName(text) == from
  {
    match from
    case None => "Initial"
    case Some(s) =>
      ParseDisplayNameRoundTrip(s);
      DisplayName(s)
  }

  /** `getTransitionDescription()`: "Initial → To" or "From → To". */
  function TransitionDescription(t: StatusTransition): (d: string)
    ensures |d| > |Arrow|
  {
    FromLabel(t.fromStatus) + Arrow + DisplayName(t.toStatus)
  }

  /** Reads a transition description back: the statuses on either side of the arrow. */
  function ParseTransitionDescription(d: string): (Option<SuggestionStatus>, Option<SuggestionStatus>) {
    var k := Text.FirstPair(d, ' ', '→');
    if k + |Arrow| <= |d| then (ParseDisplayName(d[..k]), ParseDisplayName(d[k + |Arrow|..]))
    else (None, None)
  }

  lemma TransitionDescriptionRoundTrip(t: StatusTransition)
    ensures ParseTransitionDescription(TransitionDescription(t)) == (t.fromStatus, Some(t.toStatus))
  {
    var a := FromLabel(t.fromStatus);
    var b := DisplayName(t.toStatus);
    var d := TransitionDescription(t);
    assert d == a + (Arrow + b);
    Text.FirstPairAfter(a, Arrow + b, ' ', '→');
    assert d[..|a|] == a;
    assert d[|a| + |Arrow|..] == b;
    ParseDisplayNameRoundTrip(t.toStatus);
  }

  /** Different transitions are never described alike. */
  lemma TransitionDescriptionInjective(t1: StatusTransition, t2: StatusTransition)
    ensures TransitionDescription(t1) == TransitionDescription(t2) ==>
              t1.fromStatus == t2.fromStatus && t1.toStatus == t2.toStatus
  {
    TransitionDescriptionRoundTrip(t1);
    TransitionDescriptionRoundTrip(t2);
  }

  predicate TransitionsRanked(r: seq<StatusTransition>) {
    && (forall i, j :: 0 <= i < j < |r| ==> r[i].count >= r[j].count)
    && (forall i, j :: 0 <= i < j < |r| ==> (r[i].fromStatus, r[i].toStatus) != (r[j].fromStatus, r[j].toStatus))
  }

  function ToTransition(row: ((Option<SuggestionStatus>, SuggestionStatus), nat)): StatusTransition {
    StatusTransition(row.0.0, row.0.1, row.1)
  }

  /** `getStatusTransitionAnalytics`: every real change (one with a previous status)
      grouped by its pair of statuses, most frequent first. */
  function GetStatusTransitionAnalytics(h: seq<HistoryEntry>): (r: seq<StatusTransition>)
    ensures forall t :: t in r ==>
              t.fromStatus.Some? && t.count == HR.CountTransitions(h, t.fromStatus, t.toStatus) && t.count > 0
    ensures forall from, to :: HR.CountTransitions(h, Some(from), to) > 0 ==>
              StatusTransition(Some(from), to, HR.CountTransitions(h, Some(from), to)) in r
    ensures TransitionsRanked(r)
  {
    var rows := HR.GetStatusTransitionAnalytics(h);
    var r := Seqs.Map(rows, ToTransition);
    TransitionRows(rows, r);
    TransitionsMatchRows(rows, r, (pair: (Option<SuggestionStatus>, SuggestionStatus)) => HR.CountTransitions(h, pair.0, pair.1));
    r
  }

  /** Converting the grouped rows one by one keeps what each row says about the count
      it carries, and keeps a row for every counted pair. */
  lemma TransitionsMatchRows(rows: seq<((Option<SuggestionStatus>, SuggestionStatus), nat)>, r: seq<StatusTransition>,
                             count: ((Option<SuggestionStatus>, SuggestionStatus)) -> nat)
    requires r == Seqs.Map(rows, ToTransition)
    requires forall row :: row in rows ==> row.0.0.Some? && row.1 == count(row.0) && row.1 > 0
    requires forall from, to :: count((Some(from), to)) > 0 ==> ((Some(from), to), count((Some(from), to))) in rows
    ensures forall t :: t in r ==> t.fromStatus.Some? && t.count == count((t.fromStatus, t.toStatus)) && t.count > 0
    ensures forall from, to :: count((Some(from), to)) > 0 ==> StatusTransition(Some(from), to, count((Some(from), to))) in r
  {
    assert |r| == |rows|;
    forall t | t in r
      ensures t.fromStatus.Some? && t.count == count((t.fromStatus, t.toStatus)) && t.count > 0
    {
      var i :| 0 <= i < |r| && r[i] == t;
      assert r[i] == ToTransition(rows[i]);
      assert rows[i] in rows;
    }
    forall from, to | count((Some(from), to)) > 0
      ensures StatusTransition(Some(from), to, count((Some(from), to))) in r
    {
      var row := ((Some(from), to), count((Some(from), to)));
      assert row in rows;
      var i :| 0 <= i < |rows| && rows[i] == row;
      assert r[i] == ToTransition(row);
    }
  }

  lemma TransitionRows(rows: seq<((Option<SuggestionStatus>, SuggestionStatus), nat)>, r: seq<StatusTransition>)
    requires r == Seqs.Map(rows, ToTransition)
    requires Grouping.NoDuplicates(Grouping.Keys(rows))
    requires forall i, j :: 0 <= i < j < |rows| ==> rows[i].1 >= rows[j].1
    ensures TransitionsRanked(r)
  {
    assert |r| == |rows|;
    forall i, j | 0 <= i < j < |r|
      ensures r[i].count >= r[j].count && (r[i].fromStatus, r[i].toStatus) != (r[j].fromStatus, r[j].toStatus)
    {
      assert r[i] == ToTransition(rows[i]) && r[j] == ToTransition(rows[j]);
      assert Grouping.Keys(rows)[i] != Grouping.Keys(rows)[j];
    }
  }

  // ------------------------------------------------------------ statistics maps

  /** `getStatusChangeStatistics`: the number of rows that moved to each status, for
      the statuses some row moved to. */
  function GetStatusChangeStatistics(h: seq<HistoryEntry>): (m: map<SuggestionStatus, nat>)
    ensures forall s :: s in m <==> HR.CountByNewStatus(h, s) > 0
    ensures forall s :: s in m ==> m[s] == HR.CountByNewStatus(h, s)
  {
    var rows := HR.GetStatusChangeStatistics(h);
    var m := Grouping.ToMap(rows);
    Grouping.ToMapRows(rows);
    forall s | s in m ensures m[s] == HR.CountByNewStatus(h, s) && HR.CountByNewStatus(h, s) > 0 {
      assert (s, m[s]) in rows;
    }
    m
  }

  /** The admin rows keyed by the (present) name: exactly the names other than
      "System" with some changes, each with its count. */
  function AdminCounts(h: seq<HistoryEntry>): (byKey: map<Option<string>, nat>)
    ensures forall o :: o in byKey ==> o.Some? && o.value != "System" && byKey[o] == HR.CountByChangedBy(h, o) > 0
    ensures forall name :: name != "System" && HR.CountByChangedBy(h, Some(name)) > 0 ==> Some(name) in byKey
  {
    var rows := HR.GetAdminActivityStatistics(h);
    var byKey := Grouping.ToMap(rows);
    Grouping.ToMapRows(rows);
    byKey
  }

  /** `getAdminActivityStatistics`: the number of changes each named user other than
      "System" made. */
  function GetAdminActivityStatistics(h: seq<HistoryEntry>): (m: map<string, nat>)
    ensures forall name :: name in m <==> name != "System" && HR.CountByChangedBy(h, Some(name)) > 0
    ensures forall name :: name in m ==> m[name] == HR.CountByChangedBy(h, Some(name))
  {
    var byKey := AdminCounts(h);
    var names := set o | o in byKey :: o.value;
    assert forall name :: name in names <==> Some(name) in byKey by {
      forall name | Some(name) in byKey ensures name in names {
        assert Some(name).value == name;
      }
    }
    map name | name in names :: byKey[Some(name)]
  }

  // ------------------------------------------------------------ repeated changes

  /** A suggestion with the number of its history rows. */
  datatype SuggestionStatusSummary = SuggestionStatusSummary(
    suggestionId: SuggestionId,
    suggestion: Suggestion,
    statusChangeCount: nat)

  /** The history refers only to stored suggestions (its foreign key). */
  predicate HistoryLinked(st: Store) {
    forall i :: 0 <= i < |st.history| ==> st.history[i].suggestionId in st.suggestions
  }

  /** `x` reports a stored suggestion with its number of history rows, more than one. */
  predicate RepeatedSummary(st: Store, x: SuggestionStatusSummary) {
    && x.suggestionId in st.suggestions && x.suggestion == st.suggestions[x.suggestionId]
    && x.statusChangeCount == HR.CountBySuggestion(st.history, x.suggestionId) && x.statusChangeCount > 1
  }

  /** Every suggestion named in the history is stored. */
  lemma RowsAreStored(st: Store, rows: seq<(SuggestionId, nat)>)
    requires HistoryLinked(st)
    requires forall row :: row in rows ==> row.1 == HR.CountBySuggestion(st.history, row.0) && row.1 > 1
    ensures forall row :: row in rows ==> row.0 in st.suggestions
  {
    forall row | row in rows ensures row.0 in st.suggestions {
      var hs := HistoryOf(st.history, row.0);
      assert hs[0] in hs;
    }
  }

  function Summaries(st: Store, rows: seq<(SuggestionId, nat)>): (r: seq<SuggestionStatusSummary>)
    requires forall row :: row in rows ==> row.0 in st.suggestions
    ensures |r| == |rows|
    ensures forall i :: 0 <= i < |rows| ==>
              r[i] == SuggestionStatusSummary(rows[i].0, st.suggestions[rows[i].0], rows[i].1)
  {
    seq(|rows|, i requires 0 <= i < |rows| => SuggestionStatusSummary(rows[i].0, st.suggestions[rows[i].0], rows[i].1))
  }

  predicate RankedSummaries(r: seq<SuggestionStatusSummary>) {
    forall i, j :: 0 <= i < j < |r| ==>
      r[i].statusChangeCount >= r[j].statusChangeCount && r[i].suggestionId != r[j].suggestionId
  }

  lemma SummariesOfRows(st: Store, rows: seq<(SuggestionId, nat)>)
    requires forall row :: row in rows ==> row.0 in st.suggestions
    requires forall row :: row in rows ==> row.1 == HR.CountBySuggestion(st.history, row.0) && row.1 > 1
    requires forall sid: SuggestionId :: HR.CountBySuggestion(st.history, sid) > 1 ==>
               (sid, HR.CountBySuggestion(st.history, sid)) in rows
    requires Grouping.NoDuplicates(Grouping.Keys(rows))
    requires forall i, j :: 0 <= i < j < |rows| ==> rows[i].1 >= rows[j].1
    ensures forall x :: x in Summaries(st, rows) ==> RepeatedSummary(st, x)
    ensures forall sid: SuggestionId :: sid in st.suggestions && HR.CountBySuggestion(st.history, sid) > 1 ==>
              exists x :: x in Summaries(st, rows) && x.suggestionId == sid
    ensures RankedSummaries(Summaries(st, rows))
  {
    var r := Summaries(st, rows);
    forall x | x in r ensures RepeatedSummary(st, x) {
      var i :| 0 <= i < |r| && r[i] == x;
      assert rows[i] in rows;
    }
    forall sid: SuggestionId | sid in st.suggestions && HR.CountBySuggestion(st.history, sid) > 1
      ensures exists x :: x in r && x.suggestionId == sid
    {
      var row := (sid, HR.CountBySuggestion(st.history, sid));
      var i :| 0 <= i < |rows| && rows[i] == row;
      assert r[i].suggestionId == sid;
    }
    forall i, j | 0 <= i < j < |r| ensures r[i].suggestionId != r[j].suggestionId {
      assert Grouping.Keys(rows)[i] != Grouping.Keys(rows)[j];
    }
  }

  /** `getSuggestionsWithMultipleStatusChanges`: the suggestions with more than one
      history row, deleted or not, most rows first. */
  function GetSuggestionsWithMultipleStatusChanges(st: Store): (r: seq<SuggestionStatusSummary>)
    requires HistoryLinked(st)
    ensures forall x :: x in r ==> RepeatedSummary(st, x)
    ensures forall sid: SuggestionId :: sid in st.suggestions && HR.CountBySuggestion(st.history, sid) > 1 ==>
              exists x :: x in r && x.suggestionId == sid
    ensures RankedSummaries(r)
  {
    var rows := HR.FindSuggestionsWithMultipleStatusChanges(st.history);
    RowsAreStored(st, rows);
    SummariesOfRows(st, rows);
    Summaries(st, rows)
  }

  /** A chain that ends anywhere but OPEN has at least two rows. */
  lemma ChainLeftOpen(hs: seq<HistoryEntry>, status: SuggestionStatus)
    requires Chain(hs, status) && status != Open
    ensures |hs| > 1
  {
    assert hs[|hs| - 1].newStatus != hs[0].newStatus;
  }

  /** Under the chain invariant a suggestion that has left OPEN has more than one
      history row, so it appears among those with multiple changes. */
  lemma MovedSuggestionsAreRepeated(st: Store, sid: SuggestionId)
    requires HistoryLinked(st) && HistoryChains(st)
    requires sid in st.suggestions && st.suggestions[sid].status != Open
    ensures exists x :: x in GetSuggestionsWithMultipleStatusChanges(st) && x.suggestionId == sid
  {
    assert Chain(HistoryOf(st.history, sid), st.suggestions[sid].status);
    ChainLeftOpen(HistoryOf(st.history, sid), st.suggestions[sid].status);
    assert HR.CountBySuggestion(st.history, sid) > 1;
    var r := GetSuggestionsWithMultipleStatusChanges(st);
  }

  // ------------------------------------------------------------ timeline

  datatype StatusTimelineEntry = StatusTimelineEntry(
    timestamp: nat,
    fromStatus: Option<SuggestionStatus>,
    toStatus: SuggestionStatus,
    changedBy: Option<string>,
    reason: Option<string>)

  function TimelineEntryOf(e: HistoryEntry): StatusTimelineEntry {
    StatusTimelineEntry(e.createdAt, e.previousStatus, e.newStatus, e.changedBy, e.changeReason)
  }

  const CreatedPrefix := "Created with status: "
  const ChangedPrefix := "Changed from "
  const ToWord := " to "

  /** `getDescription()`: "Created with status: X" for the initial row, otherwise
      "Changed from A to B". */
  function Description(t: StatusTimelineEntry): (d: string)
    ensures t.fromStatus.None? <==> CreatedPrefix <= d
  {
    if t.fromStatus.None? then CreatedPrefix + DisplayName(t.toStatus)
    else
      var d := ChangedPrefix + DisplayName(t.fromStatus.value) + ToWord + DisplayName(t.toStatus);
      assert d[1] != CreatedPrefix[1];
      d
  }

  /** Reads a description back: the previous status (none for a creation) and the new one. */
  function ParseDescription(d: string): (Option<SuggestionStatus>, Option<SuggestionStatus>) {
    if CreatedPrefix <= d then (None, ParseDisplayName(d[|CreatedPrefix|..]))
    else if ChangedPrefix <= d then
      var rest := d[|ChangedPrefix|..];
      var k := Text.FirstPair(rest, ' ', 't');
      if k + |ToWord| <= |rest| then (ParseDisplayName(rest[..k]), ParseDisplayName(rest[k + |ToWord|..]))
      else (None, None)
    else (None, None)
  }

  lemma DescriptionRoundTrip(t: StatusTimelineEntry)
    ensures ParseDescription(Description(t)) == (t.fromStatus, Some(t.toStatus))
  {
    var d := Description(t);
    var b := DisplayName(t.toStatus);
    ParseDisplayNameRoundTrip(t.toStatus);
    if t.fromStatus.None? {
      assert d[|CreatedPrefix|..] == b;
    } else {
      var a := DisplayName(t.fromStatus.value);
      ParseDisplayNameRoundTrip(t.fromStatus.value);
      assert ChangedPrefix <= d;
      var rest := d[|ChangedPrefix|..];
      assert rest == a + (ToWord + b);
      Text.FirstPairAfter(a, ToWord + b, ' ', 't');
      assert rest[..|a|] == a;
      assert rest[|a| + |ToWord|..] == b;
    }
  }

  /** Timeline entries that differ in their statuses are described differently. */
  lemma DescriptionInjective(t1: StatusTimelineEntry, t2: StatusTimelineEntry)
    ensures Description(t1) == Description(t2) ==> t1.fromStatus == t2.fromStatus && t1.toStatus == t2.toStatus
  {
    DescriptionRoundTrip(t1);
    DescriptionRoundTrip(t2);
  }

  /** `getStatusTimeline`: the suggestion's history, newest first, as timeline entries. */
  function GetStatusTimeline(h: seq<HistoryEntry>, sid: SuggestionId): (r: seq<StatusTimelineEntry>)
    requires HistoryIncreasing(h)
    ensures |r| == |HistoryOf(h, sid)|
    ensures forall i :: 0 <= i < |r| ==> exists e :: e in h && e.suggestionId == sid && r[i] == TimelineEntryOf(e)
    ensures forall i, j :: 0 <= i < j < |r| ==> r[i].timestamp > r[j].timestamp
  {
    var l := HR.FindBySuggestionIdOrderByCreatedAtDesc(h, sid);
    var r := Seqs.Map(l, TimelineEntryOf);
    assert forall i :: 0 <= i < |r| ==> l[i] in h && l[i].suggestionId == sid && r[i] == TimelineEntryOf(l[i]);
    r
  }

  /** The timeline tells one story ending at `status`: its oldest entry is the creation
      in OPEN, each entry starts where the older one next to it ended, and the newest
      ends at `status`. */
  predicate TimelineStory(r: seq<StatusTimelineEntry>, status: SuggestionStatus) {
    && |r| > 0
    && r[0].toStatus == status
    && r[|r| - 1].fromStatus.None? && r[|r| - 1].toStatus == Open
    && (forall i :: 0 <= i < |r| - 1 ==> r[i].fromStatus == Some(r[i + 1].toStatus))
  }

  lemma ChainTimeline(hs: seq<HistoryEntry>, status: SuggestionStatus)
    requires Chain(hs, status)
    ensures TimelineStory(Seqs.Map(Seqs.Reverse(hs), TimelineEntryOf), status)
  {
    var r := Seqs.Map(Seqs.Reverse(hs), TimelineEntryOf);
    assert |r| == |hs|;
    assert r[0] == TimelineEntryOf(hs[|hs| - 1]) && r[|r| - 1] == TimelineEntryOf(hs[0]);
    forall i | 0 <= i < |r| - 1 ensures r[i].fromStatus == Some(r[i + 1].toStatus) {
      assert r[i] == TimelineEntryOf(hs[|hs| - 1 - i]);
      assert r[i + 1] == TimelineEntryOf(hs[|hs| - 1 - i - 1]);
    }
  }

  /** Under the chain invariant the timeline of a stored suggestion tells its story,
      and the oldest entry reads "Created with status: Open". */
  lemma TimelineFollowsChain(st: Store, sid: SuggestionId)
    requires HistoryIncreasing(st.history) && HistoryChains(st)
    requires sid in st.suggestions
    ensures TimelineStory(GetStatusTimeline(st.history, sid), st.suggestions[sid].status)
    ensures var r := GetStatusTimeline(st.history, sid); Description(r[|r| - 1]) == CreatedPrefix + "Open"
  {
    var hs := HistoryOf(st.history, sid);
    assert Chain(hs, st.suggestions[sid].status);
    var l := HR.FindBySuggestionIdOrderByCreatedAtDesc(st.history, sid);
    assert l == Seqs.Reverse(hs);
    ChainTimeline(hs, st.suggestions[sid].status);
  }
}

=== FILE: store.dfy ===
/** The database behind the services: the employees, suggestions, votes and
    status-history tables, and the one source of generated keys and timestamps.
    `Valid` collects the integrity every service operation keeps. */
module Store {
  import opened Model
  import opened Wrappers
  import opened Status
  import Text
  import Seqs

  type VoteId = nat

  datatype Store = Store(
    employees: map<EmployeeId, Employee>,
    suggestions: map<SuggestionId, Suggestion>,
    votes: map<VoteId, Vote>,
    history: seq<HistoryEntry>,
    clock: nat)

  const Empty: Store := Store(map[], map[], map[], [], 0)

  /** What a successful operation leaves behind: the new database and its answer. */
  datatype Outcome<+T> = Outcome(st: Store, value: T)

  /** `findByIdAndDeletedFalse(id).isPresent()` */
  predicate IsActive(st: Store, id: SuggestionId) {
    id in st.suggestions && !st.suggestions[id].deleted
  }

  /** Keys of the votes cast for suggestion `sid`. */
  function VotesOf(votes: map<VoteId, Vote>, sid: SuggestionId): set<VoteId> {
    set k | k in votes && votes[k].suggestionId == sid
  }

  /** Keys of the votes device `device` cast for suggestion `sid`. */
  function DeviceVotes(votes: map<VoteId, Vote>, sid: SuggestionId, device: string): set<VoteId> {
    set k | k in votes && votes[k].suggestionId == sid && votes[k].deviceIdentifier == device
  }

  function Of(sid: SuggestionId): HistoryEntry -> bool {
    (e: HistoryEntry) => e.suggestionId == sid
  }

  function Kept(gone: set<SuggestionId>): HistoryEntry -> bool {
    (e: HistoryEntry) => e.suggestionId !in gone
  }

  /** The entries of suggestion `sid`, oldest first. */
  function HistoryOf(h: seq<HistoryEntry>, sid: SuggestionId): seq<HistoryEntry> {
    Seqs.Filter(h, Of(sid))
  }

  /** The history without the entries of the suggestions in `gone` (the cascade of
      removing those suggestions). */
  function Purge(h: seq<HistoryEntry>, gone: set<SuggestionId>): seq<HistoryEntry> {
    Seqs.Filter(h, Kept(gone))
  }

  lemma HistoryOfAppend(h: seq<HistoryEntry>, e: HistoryEntry, sid: SuggestionId)
    ensures HistoryOf(h + [e], sid) == HistoryOf(h, sid) + (if e.suggestionId == sid then [e] else [])
  {
    Seqs.FilterAppend(h, e, Of(sid));
  }

  /** A suggestion no entry mentions has an empty history. */
  lemma {:induction false} HistoryOfAbsent(h: seq<HistoryEntry>, sid: SuggestionId)
    requires forall i :: 0 <= i < |h| ==> h[i].suggestionId != sid
    ensures HistoryOf(h, sid) == []
  {
    if |h| > 0 {
      var init := h[..|h| - 1];
      assert h == init + [h[|h| - 1]];
      HistoryOfAbsent(init, sid);
      HistoryOfAppend(init, h[|h| - 1], sid);
    }
  }

  /** Removing the entries of `gone` empties their histories and leaves every other
      suggestion's history as it was. */
  lemma {:induction false} HistoryOfPurge(h: seq<HistoryEntry>, gone: set<SuggestionId>, sid: SuggestionId)
    ensures HistoryOf(Purge(h, gone), sid) == if sid in gone then [] else HistoryOf(h, sid)
  {
    if |h| > 0 {
      var init := h[..|h| - 1];
      var x := h[|h| - 1];
      assert h == init + [x];
      HistoryOfPurge(init, gone, sid);
      var pi := Purge(init, gone);
      assert Purge(h, gone) == pi + (if x.suggestionId !in gone then [x] else []) by {
        Seqs.FilterAppend(init, x, Kept(gone));
      }
      assert HistoryOf(h, sid) == HistoryOf(init, sid) + (if x.suggestionId == sid then [x] else []) by {
        Seqs.FilterAppend(init, x, Of(sid));
      }
      if x.suggestionId !in gone {
        Seqs.FilterAppend(pi, x, Of(sid));
      } else {
        assert Purge(h, gone) == pi;
      }
    }
  }

  // ------------------------------------------------------------ integrity

  /** A suggestion's entries, oldest first, form one unbroken chain: the first is the
      initial OPEN entry written by "System", every later entry starts where the one
      before it ended, and the last ends at the suggestion's current status. */
  predicate Chain(hs: seq<HistoryEntry>, status: SuggestionStatus) {
    && |hs| > 0
    && hs[0].previousStatus.None? && hs[0].newStatus == Open && hs[0].changedBy == Some("System")
    && (forall k :: 0 < k < |hs| ==> hs[k].previousStatus == Some(hs[k - 1].newStatus))
    && hs[|hs| - 1].newStatus == status
  }

  lemma ChainExtend(hs: seq<HistoryEntry>, status: SuggestionStatus, e: HistoryEntry)
    requires Chain(hs, status) && e.previousStatus == Some(status)
    ensures Chain(hs + [e], e.newStatus)
  {
  }

  /** Every generated key and timestamp lies below the clock. */
  predicate BelowClock(st: Store) {
    && (forall k :: k in st.employees ==> k < st.clock)
    && (forall k :: k in st.suggestions ==> k < st.clock && st.suggestions[k].createdAt < st.clock)
    && (forall k :: k in st.votes ==> k < st.clock && st.votes[k].createdAt < st.clock)
    && (forall i :: 0 <= i < |st.history| ==>
          st.history[i].id < st.clock && st.history[i].createdAt < st.clock && st.history[i].suggestionId < st.clock)
  }

  /** A larger key means a later creation time, so newest-first is largest-key-first. */
  predicate CreatedInKeyOrder(st: Store) {
    && (forall a, b :: a in st.suggestions && b in st.suggestions && a < b ==>
          st.suggestions[a].createdAt < st.suggestions[b].createdAt)
    && (forall a, b :: a in st.votes && b in st.votes && a < b ==> st.votes[a].createdAt < st.votes[b].createdAt)
  }

  /** History rows are appended: ids and timestamps grow along the table. */
  predicate HistoryIncreasing(h: seq<HistoryEntry>) {
    forall i, j :: 0 <= i < j < |h| ==> h[i].id < h[j].id && h[i].createdAt < h[j].createdAt
  }

  /** Foreign keys: submitters, voters and history rows point at existing rows; a
      suggestion with a submitter is never anonymous. */
  predicate Linked(st: Store) {
    && (forall k :: k in st.suggestions && st.suggestions[k].submitter.Some? ==>
          st.suggestions[k].submitter.value in st.employees && !st.suggestions[k].anonymous)
    && (forall k :: k in st.votes ==> st.votes[k].suggestionId in st.suggestions)
    && (forall k :: k in st.votes && st.votes[k].employee.Some? ==> st.votes[k].employee.value in st.employees)
    && (forall i :: 0 <= i < |st.history| ==> st.history[i].suggestionId in st.suggestions)
  }

  /** The unique constraint on `(suggestion_id, device_identifier)`. */
  predicate VotesUnique(votes: map<VoteId, Vote>) {
    forall a, b :: a in votes && b in votes && a != b ==>
      votes[a].suggestionId != votes[b].suggestionId || votes[a].deviceIdentifier != votes[b].deviceIdentifier
  }

  /** The denormalised counter of every live suggestion equals its number of votes. */
  predicate CountersMatch(st: Store) {
    forall k :: k in st.suggestions && !st.suggestions[k].deleted ==>
      st.suggestions[k].voteCount == |VotesOf(st.votes, k)|
  }

  predicate EmailsUnique(employees: map<EmployeeId, Employee>) {
    forall a, b :: a in employees && b in employees && a != b ==> employees[a].email != employees[b].email
  }

  /** Column and validation constraints on every stored row. */
  predicate RowsValid(st: Store) {
    && (forall k :: k in st.employees ==> ValidEmployee(st.employees[k]))
    && (forall k :: k in st.suggestions ==> ValidSuggestionText(st.suggestions[k]) && st.suggestions[k].voteCount >= 0)
    && (forall k :: k in st.votes ==> ValidDevice(st.votes[k].deviceIdentifier))
    && (forall i :: 0 <= i < |st.history| ==> FitsColumns(st.history[i]))
  }

  /** A device identifier the vote service accepts. */
  predicate ValidDevice(d: string) {
    !Text.IsBlank(d) && Text.Utf16Length(d) <= DeviceIdentifierMax
  }

  predicate HistoryChains(st: Store) {
    forall k :: k in st.suggestions ==> Chain(HistoryOf(st.history, k), st.suggestions[k].status)
  }

  predicate Valid(st: Store) {
    && BelowClock(st)
    && CreatedInKeyOrder(st)
    && HistoryIncreasing(st.history)
    && Linked(st)
    && VotesUnique(st.votes)
    && CountersMatch(st)
    && EmailsUnique(st.employees)
    && RowsValid(st)
    && HistoryChains(st)
  }

  lemma EmptyValid()
    ensures Valid(Empty)
  {
  }

  /** Under the unique constraint a device holds at most one vote per suggestion. */
  lemma DeviceVoteIsUnique(votes: map<VoteId, Vote>, sid: SuggestionId, device: string)
    requires VotesUnique(votes)
    ensures forall a :: a in DeviceVotes(votes, sid, device) ==> DeviceVotes(votes, sid, device) == {a}
  {
    forall a | a in DeviceVotes(votes, sid, device)
      ensures DeviceVotes(votes, sid, device) == {a}
    {
    }
  }

  lemma VotesOfInsert(votes: map<VoteId, Vote>, k: VoteId, v: Vote, sid: SuggestionId)
    requires k !in votes
    ensures VotesOf(votes[k := v], sid) == VotesOf(votes, sid) + (if v.suggestionId == sid then {k} else {})
  {
  }

  lemma VotesOfRemove(votes: map<VoteId, Vote>, gone: set<VoteId>, sid: SuggestionId)
    ensures VotesOf(votes - gone, sid) == VotesOf(votes, sid) - gone
  {
  }

  lemma DeviceVotesInsert(votes: map<VoteId, Vote>, k: VoteId, v: Vote, sid: SuggestionId, device: string)
    requires k !in votes
    ensures DeviceVotes(votes[k := v], sid, device)
            == DeviceVotes(votes, sid, device) + (if v.suggestionId == sid && v.deviceIdentifier == device then {k} else {})
  {
  }

  lemma DeviceVotesRemove(votes: map<VoteId, Vote>, gone: set<VoteId>, sid: SuggestionId, device: string)
    ensures DeviceVotes(votes - gone, sid, device) == DeviceVotes(votes, sid, device) - gone
  {
  }

  // ------------------------------------------------------------ inserts

  /** `statusHistoryRepository.save(new SuggestionStatusHistory(...))`: the row gets the
      next key and the current time. */
  function AddHistory(st: Store, sid: SuggestionId, previous: Option<SuggestionStatus>,
                      next: SuggestionStatus, changedBy: Option<string>, reason: Option<string>): (r: Store)
    ensures r.history == st.history + [NewHistoryEntryWithReason(st.clock, sid, previous, next, changedBy, reason, st.clock)]
    ensures r.clock == st.clock + 1
    ensures r.employees == st.employees && r.suggestions == st.suggestions && r.votes == st.votes
  {
    st.(history := st.history + [NewHistoryEntryWithReason(st.clock, sid, previous, next, changedBy, reason, st.clock)],
        clock := st.clock + 1)
  }

  // ------------------------------------------------------------ deletes

  /** The votes that survive removing the suggestions in `gone`. */
  function VotesKept(votes: map<VoteId, Vote>, gone: set<SuggestionId>): (r: map<VoteId, Vote>)
    ensures forall k :: k in r <==> k in votes && votes[k].suggestionId !in gone
    ensures forall k :: k in r ==> r[k] == votes[k]
  {
    map k | k in votes && votes[k].suggestionId !in gone :: votes[k]
  }

  /** `em.remove` of the suggestions in `gone`: the mapping cascades the removal to
      their votes and their status history. */
  function RemoveSuggestions(st: Store, gone: set<SuggestionId>): (r: Store)
    ensures r.suggestions == st.suggestions - gone
    ensures r.votes == VotesKept(st.votes, gone)
    ensures r.history == Purge(st.history, gone)
    ensures r.employees == st.employees && r.clock == st.clock
  {
    st.(suggestions := st.suggestions - gone, votes := VotesKept(st.votes, gone), history := Purge(st.history, gone))
  }
}

=== FILE: suggestion_repository.dfy ===
/** The queries and bulk updates of the suggestion repository, over the suggestions
    table of a `Store`. A list query answers with the keys of the rows it returns;
    query methods that take an `Employee` entity take its id. */
module SuggestionRepository {
  import opened Wrappers
  import opened Model
  import opened Status
  import opened Store
  import Text
  import Seqs
  import Sorting
  import Grouping

  /** `r` lists stored suggestions by strictly decreasing creation time. */
  predicate NewestFirst(st: Store, r: seq<SuggestionId>) {
    forall i, j :: 0 <= i < j < |r| ==>
      r[i] in st.suggestions && r[j] in st.suggestions && st.suggestions[r[i]].createdAt > st.suggestions[r[j]].createdAt
  }

  /** Suggestions passing `p`, newest first. */
  function NewestSuggestions(st: Store, p: Suggestion -> bool): (r: seq<SuggestionId>)
    requires BelowClock(st) && CreatedInKeyOrder(st)
    ensures forall k :: k in r <==> k in st.suggestions && p(st.suggestions[k])
    ensures NewestFirst(st, r)
  {
    Seqs.ScanDesc(st.suggestions, st.clock, p)
  }

  /** Number of suggestions passing `p`. */
  function CountWhere(st: Store, p: Suggestion -> bool): nat {
    |Selected(st, p)|
  }

  function Selected(st: Store, p: Suggestion -> bool): set<SuggestionId> {
    set k | k in st.suggestions && p(st.suggestions[k])
  }

  /** Counting the rows a query selects gives the length of its newest-first list. */
  lemma CountIsListLength(st: Store, p: Suggestion -> bool)
    requires BelowClock(st) && CreatedInKeyOrder(st)
    ensures CountWhere(st, p) == |NewestSuggestions(st, p)|
  {
    var r := NewestSuggestions(st, p);
    forall i, j | 0 <= i < j < |r| ensures r[i] != r[j] {
      assert st.suggestions[r[i]].createdAt > st.suggestions[r[j]].createdAt;
    }
    Seqs.DistinctListCoversSet(r, Selected(st, p));
  }

  // ------------------------------------------------------------- row tests

  function Live(): Suggestion -> bool {
    (s: Suggestion) => !s.deleted
  }

  function LiveWithStatus(status: SuggestionStatus): Suggestion -> bool {
    (s: Suggestion) => !s.deleted && s.status == status
  }

  function LiveBy(employee: EmployeeId): Suggestion -> bool {
    (s: Suggestion) => !s.deleted && s.submitter == Some(employee)
  }

  function LiveAnonymous(): Suggestion -> bool {
    (s: Suggestion) => !s.deleted && s.anonymous
  }

  // ------------------------------------------------------------- list queries

  /** `findByDeletedFalseOrderByCreatedAtDesc` */
  function FindByDeletedFalseOrderByCreatedAtDesc(st: Store): (r: seq<SuggestionId>)
    requires BelowClock(st) && CreatedInKeyOrder(st)
    ensures forall k :: k in r <==> IsActive(st, k)
    ensures NewestFirst(st, r)
  {
    NewestSuggestions(st, Live())
  }

  /** `findByIdAndDeletedFalse`: a soft-deleted suggestion is not found. */
  function FindByIdAndDeletedFalse(st: Store, id: SuggestionId): (r: Option<Suggestion>)
    ensures r.Some? <==> IsActive(st, id)
    ensures r.Some? ==> id in st.suggestions && r.value == st.suggestions[id]
  {
    if IsActive(st, id) then Some(st.suggestions[id]) else None
  }

  /** `findByStatusAndDeletedFalseOrderByCreatedAtDesc` */
  function FindByStatusAndDeletedFalseOrderByCreatedAtDesc(st: Store, status: SuggestionStatus): (r: seq<SuggestionId>)
    requires BelowClock(st) && CreatedInKeyOrder(st)
    ensures forall k :: k in r <==> IsActive(st, k) && st.suggestions[k].status == status
    ensures NewestFirst(st, r)
  {
    NewestSuggestions(st, LiveWithStatus(status))
  }

  /** `findBySubmittedByAndDeletedFalseOrderByCreatedAtDesc` */
  function FindBySubmittedByAndDeletedFalseOrderByCreatedAtDesc(st: Store, employee: EmployeeId): (r: seq<SuggestionId>)
    requires BelowClock(st) && CreatedInKeyOrder(st)
    ensures forall k :: k in r <==> IsActive(st, k) && st.suggestions[k].submitter == Some(employee)
    ensures NewestFirst(st, r)
  {
    NewestSuggestions(st, LiveBy(employee))
  }

  /** `findByIsAnonymousTrueAndDeletedFalseOrderByCreatedAtDesc` */
  function FindByIsAnonymousTrueAndDeletedFalseOrderByCreatedAtDesc(st: Store): (r: seq<SuggestionId>)
    requires BelowClock(st) && CreatedInKeyOrder(st)
    ensures forall k :: k in r <==> IsActive(st, k) && st.suggestions[k].anonymous
    ensures NewestFirst(st, r)
  {
    NewestSuggestions(st, LiveAnonymous())
  }

  /** `findByTitleContainingIgnoreCaseAndDeletedFalseOrderByCreatedAtDesc` */
  function FindByTitleContainingIgnoreCaseAndDeletedFalseOrderByCreatedAtDesc(st: Store, term: string): (r: seq<SuggestionId>)
    requires BelowClock(st) && CreatedInKeyOrder(st)
    ensures forall k :: k in r <==> IsActive(st, k) && Text.ContainsIgnoreCase(st.suggestions[k].title, term)
    ensures NewestFirst(st, r)
  {
    NewestSuggestions(st, (s: Suggestion) => !s.deleted && Text.ContainsIgnoreCase(s.title, term))
  }

  /** `findByDescriptionContainingIgnoreCaseAndDeletedFalseOrderByCreatedAtDesc` */
  function FindByDescriptionContainingIgnoreCaseAndDeletedFalseOrderByCreatedAtDesc(st: Store, term: string): (r: seq<SuggestionId>)
    requires BelowClock(st) && CreatedInKeyOrder(st)
    ensures forall k :: k in r <==> IsActive(st, k) && Text.ContainsIgnoreCase(st.suggestions[k].description, term)
    ensures NewestFirst(st, r)
  {
    NewestSuggestions(st, (s: Suggestion) => !s.deleted && Text.ContainsIgnoreCase(s.description, term))
  }

  /** `LOWER(col) LIKE LOWER(CONCAT('%', :searchTerm, '%'))`: the term goes into the
      pattern unescaped. */
  predicate MatchesTerm(text: string, term: string) {
    Text.Like(Text.ToLower(text), "%" + Text.ToLower(term) + "%")
  }

  /** `searchByTitleOrDescription` */
  function SearchByTitleOrDescription(st: Store, term: string): (r: seq<SuggestionId>)
    requires BelowClock(st) && CreatedInKeyOrder(st)
    ensures forall k :: k in r <==>
              IsActive(st, k) && (MatchesTerm(st.suggestions[k].title, term) || MatchesTerm(st.suggestions[k].description, term))
    ensures NewestFirst(st, r)
  {
    NewestSuggestions(st, (s: Suggestion) => !s.deleted && (MatchesTerm(s.title, term) || MatchesTerm(s.description, term)))
  }

  /** For a term without `%` or `_` the search is the case-insensitive substring
      search of the derived queries, on title or description. */
  lemma SearchIsSubstringSearch(st: Store, term: string, k: SuggestionId)
    requires BelowClock(st) && CreatedInKeyOrder(st)
    requires Text.NoWildcards(term)
    ensures k in SearchByTitleOrDescription(st, term) <==>
              k in FindByTitleContainingIgnoreCaseAndDeletedFalseOrderByCreatedAtDesc(st, term) ||
              k in FindByDescriptionContainingIgnoreCaseAndDeletedFalseOrderByCreatedAtDesc(st, term)
  {
    var t := Text.ToLower(term);
    assert Text.NoWildcards(t) by {
      forall i | 0 <= i < |t| ensures t[i] != '%' && t[i] != '_' {
        assert t[i] == Text.ToLowerChar(term[i]);
      }
    }
    if k in st.suggestions {
      Text.LikeContains(Text.ToLower(st.suggestions[k].title), t);
      Text.LikeContains(Text.ToLower(st.suggestions[k].description), t);
    }
  }

  /** The live suggestions created at or after `since`, newest first. */
  function FindRecentSuggestions(st: Store, since: nat): (r: seq<SuggestionId>)
    requires BelowClock(st) && CreatedInKeyOrder(st)
    ensures forall k :: k in r <==> IsActive(st, k) && st.suggestions[k].createdAt >= since
    ensures NewestFirst(st, r)
  {
    NewestSuggestions(st, (s: Suggestion) => !s.deleted && s.createdAt >= since)
  }

  /** `findByDeletedTrue`: the soft-deleted rows (no order is requested). */
  function FindByDeletedTrue(st: Store): (r: seq<SuggestionId>)
    requires BelowClock(st) && CreatedInKeyOrder(st)
    ensures forall k :: k in r <==> k in st.suggestions && st.suggestions[k].deleted
  {
    NewestSuggestions(st, (s: Suggestion) => s.deleted)
  }

  // ------------------------------------------------------------- ranking

  /** The ranking order: more votes first, and among equal counts the newer first. */
  type RankRow = (SuggestionId, int, nat)

  predicate MostVotedFirst(a: RankRow, b: RankRow) {
    a.1 > b.1 || (a.1 == b.1 && a.2 >= b.2)
  }

  /** The ranking order as it reads on two stored suggestions. */
  predicate RanksBefore(a: Suggestion, b: Suggestion) {
    a.voteCount > b.voteCount || (a.voteCount == b.voteCount && a.createdAt >= b.createdAt)
  }

  /** `r` lists stored suggestions in ranking order. */
  predicate MostVotedFirstList(st: Store, r: seq<SuggestionId>) {
    forall i, j :: 0 <= i < j < |r| ==>
      r[i] in st.suggestions && r[j] in st.suggestions && RanksBefore(st.suggestions[r[i]], st.suggestions[r[j]])
  }

  lemma MostVotedFirstIsOrder()
    ensures Sorting.Total(MostVotedFirst) && Sorting.Transitive(MostVotedFirst)
  {
  }

  /** The ranking rows of the suggestions `keys`, in list order. */
  function RankRows(st: Store, keys: seq<SuggestionId>): (rows: seq<RankRow>)
    requires forall i :: 0 <= i < |keys| ==> keys[i] in st.suggestions
    ensures |rows| == |keys|
    ensures forall i :: 0 <= i < |keys| ==>
              rows[i] == (keys[i], st.suggestions[keys[i]].voteCount, st.suggestions[keys[i]].createdAt)
  {
    seq(|keys|, i requires 0 <= i < |keys| => (keys[i], st.suggestions[keys[i]].voteCount, st.suggestions[keys[i]].createdAt))
  }

  /** A reordering of the ranking rows still carries each suggestion's own counter
      and creation time, and the same keys. */
  lemma PermutedRankRows(st: Store, keys: seq<SuggestionId>, sorted: seq<RankRow>)
    requires forall i :: 0 <= i < |keys| ==> keys[i] in st.suggestions
    requires multiset(sorted) == multiset(RankRows(st, keys))
    ensures forall i :: 0 <= i < |sorted| ==>
              sorted[i].0 in st.suggestions && sorted[i].1 == st.suggestions[sorted[i].0].voteCount
              && sorted[i].2 == st.suggestions[sorted[i].0].createdAt
    ensures forall k :: k in keys <==> exists i :: 0 <= i < |sorted| && sorted[i].0 == k
  {
    var rows := RankRows(st, keys);
    forall i | 0 <= i < |sorted|
      ensures sorted[i].0 in keys && sorted[i].0 in st.suggestions
              && sorted[i].1 == st.suggestions[sorted[i].0].voteCount
              && sorted[i].2 == st.suggestions[sorted[i].0].createdAt
    {
      assert sorted[i] in multiset(rows);
      var j :| 0 <= j < |rows| && rows[j] == sorted[i];
    }
    forall k | k in keys
      ensures exists i :: 0 <= i < |sorted| && sorted[i].0 == k
    {
      var j :| 0 <= j < |keys| && keys[j] == k;
      assert rows[j] in multiset(sorted);
      var i :| 0 <= i < |sorted| && sorted[i] == rows[j];
      assert sorted[i].0 == k;
    }
  }

  /** The keys `keys`, most voted first and newest first among equal votes. */
  function Ranked(st: Store, keys: seq<SuggestionId>): (r: seq<SuggestionId>)
    requires forall i :: 0 <= i < |keys| ==> keys[i] in st.suggestions
    ensures |r| == |keys|
    ensures forall k :: k in r <==> k in keys
    ensures MostVotedFirstList(st, r)
  {
    var rows := RankRows(st, keys);
    var sorted := Sorting.Sort<RankRow>(rows, MostVotedFirst);
    MostVotedFirstIsOrder();
    Sorting.SortIsSorted<RankRow>(rows, MostVotedFirst);
    PermutedRankRows(st, keys, sorted);
    var r: seq<SuggestionId> := seq(|sorted|, i requires 0 <= i < |sorted| => sorted[i].0);
    forall i, j | 0 <= i < j < |r|
      ensures r[i] in st.suggestions && r[j] in st.suggestions && RanksBefore(st.suggestions[r[i]], st.suggestions[r[j]])
    {
      Sorting.SortedPairwise(sorted, MostVotedFirst, i, j);
    }
    assert forall k :: k in r <==> exists i :: 0 <= i < |sorted| && sorted[i].0 == k by {
      forall k ensures k in r <==> exists i :: 0 <= i < |sorted| && sorted[i].0 == k {
        if k in r {
          var i :| 0 <= i < |r| && r[i] == k;
          assert sorted[i].0 == k;
        }
        if exists i :: 0 <= i < |sorted| && sorted[i].0 == k {
          var i :| 0 <= i < |sorted| && sorted[i].0 == k;
          assert r[i] == k;
        }
      }
    }
    r
  }

  /** `findTopByVoteCount`: every live suggestion, most voted first (one page of it
      in the source). */
  function FindTopByVoteCount(st: Store): (r: seq<SuggestionId>)
    requires BelowClock(st) && CreatedInKeyOrder(st)
    ensures forall k :: k in r <==> IsActive(st, k)
    ensures MostVotedFirstList(st, r)
  {
    Ranked(st, FindByDeletedFalseOrderByCreatedAtDesc(st))
  }

  /** `findByVoteCountGreaterThanEqual` */
  function FindByVoteCountGreaterThanEqual(st: Store, minVotes: int): (r: seq<SuggestionId>)
    requires BelowClock(st) && CreatedInKeyOrder(st)
    ensures forall k :: k in r <==> IsActive(st, k) && st.suggestions[k].voteCount >= minVotes
    ensures MostVotedFirstList(st, r)
  {
    Ranked(st, NewestSuggestions(st, (s: Suggestion) => !s.deleted && s.voteCount >= minVotes))
  }

  // ------------------------------------------------------------- counts

  /** `countByStatusAndDeletedFalse` */
  function CountByStatusAndDeletedFalse(st: Store, status: SuggestionStatus): nat {
    CountWhere(st, LiveWithStatus(status))
  }

  /** `countByDeletedFalse` */
  function CountByDeletedFalse(st: Store): nat {
    CountWhere(st, Live())
  }

  /** `countByIsAnonymousTrueAndDeletedFalse` */
  function CountByIsAnonymousTrueAndDeletedFalse(st: Store): nat {
    CountWhere(st, LiveAnonymous())
  }

  /** `countBySubmittedByAndDeletedFalse` */
  function CountBySubmittedByAndDeletedFalse(st: Store, employee: EmployeeId): nat {
    CountWhere(st, LiveBy(employee))
  }

  /** Each count query counts exactly the rows its list query returns. */
  lemma CountsMatchLists(st: Store, status: SuggestionStatus, employee: EmployeeId)
    requires BelowClock(st) && CreatedInKeyOrder(st)
    ensures CountByStatusAndDeletedFalse(st, status) == |FindByStatusAndDeletedFalseOrderByCreatedAtDesc(st, status)|
    ensures CountByDeletedFalse(st) == |FindByDeletedFalseOrderByCreatedAtDesc(st)|
    ensures CountByIsAnonymousTrueAndDeletedFalse(st) == |FindByIsAnonymousTrueAndDeletedFalseOrderByCreatedAtDesc(st)|
    ensures CountBySubmittedByAndDeletedFalse(st, employee) == |FindBySubmittedByAndDeletedFalseOrderByCreatedAtDesc(st, employee)|
  {
    CountIsListLength(st, LiveWithStatus(status));
    CountIsListLength(st, Live());
    CountIsListLength(st, LiveAnonymous());
    CountIsListLength(st, LiveBy(employee));
  }

  function StatusOf(s: Suggestion): SuggestionStatus {
    s.status
  }

  /** A newest-first list names no suggestion twice. */
  lemma NewestFirstDistinct(st: Store, r: seq<SuggestionId>)
    requires forall k :: k in r ==> k in st.suggestions
    requires NewestFirst(st, r)
    ensures forall i, j :: 0 <= i < j < |r| ==> r[i] != r[j]
  {
    forall i, j | 0 <= i < j < |r| ensures r[i] != r[j] {
      assert st.suggestions[r[i]].createdAt > st.suggestions[r[j]].createdAt;
    }
  }

  /** Over a list of exactly the live suggestions, the rows with a given status are the
      ones the status count query selects. */
  lemma LiveStatusMatching(st: Store, keys: seq<SuggestionId>, status: SuggestionStatus)
    requires forall k :: k in keys <==> IsActive(st, k)
    ensures Grouping.Matching(st.suggestions, keys, StatusOf, status) == Selected(st, LiveWithStatus(status))
  {
  }

  /** The status column of the live suggestions counts each status as the count query
      does, and is as long as the live list. */
  lemma StatusColumnCounts(st: Store)
    requires BelowClock(st) && CreatedInKeyOrder(st)
    ensures forall status :: Grouping.Count(Grouping.Column(st.suggestions, FindByDeletedFalseOrderByCreatedAtDesc(st), StatusOf), status)
              == CountByStatusAndDeletedFalse(st, status)
    ensures |Grouping.Column(st.suggestions, FindByDeletedFalseOrderByCreatedAtDesc(st), StatusOf)| == CountByDeletedFalse(st)
  {
    var keys := FindByDeletedFalseOrderByCreatedAtDesc(st);
    NewestFirstDistinct(st, keys);
    forall status
      ensures Grouping.Count(Grouping.Column(st.suggestions, keys, StatusOf), status) == CountByStatusAndDeletedFalse(st, status)
    {
      Grouping.CountColumn(st.suggestions, keys, StatusOf, status);
      LiveStatusMatching(st, keys, status);
    }
    CountIsListLength(st, Live());
  }

  /** Counts per status: one row per status that some live suggestion has, with the
      number of live suggestions in it. */
  function GetStatusStatistics(st: Store): (rows: seq<(SuggestionStatus, nat)>)
    requires BelowClock(st) && CreatedInKeyOrder(st)
    ensures forall row :: row in rows ==> row.1 == CountByStatusAndDeletedFalse(st, row.0) && row.1 > 0
    ensures forall status :: CountByStatusAndDeletedFalse(st, status) > 0 ==>
              (status, CountByStatusAndDeletedFalse(st, status)) in rows
    ensures Grouping.NoDuplicates(Grouping.Keys(rows))
    ensures Grouping.SumCounts(rows) == CountByDeletedFalse(st)
  {
    var keys := FindByDeletedFalseOrderByCreatedAtDesc(st);
    var column := Grouping.Column(st.suggestions, keys, StatusOf);
    StatusColumnCounts(st);
    var rows := Grouping.GroupCount(column);
    Grouping.GroupCountRows(column);
    forall status | CountByStatusAndDeletedFalse(st, status) > 0
      ensures status in column
    {
      assert Grouping.Count(column, status) > 0;
    }
    assert Grouping.Keys(rows) == Grouping.Distinct(column);
    Grouping.GroupCountsSumToRows(column);
    rows
  }

  // ------------------------------------------------------------- bulk updates

  /** `softDeleteById`: marks a live suggestion deleted at `deleteTime`; answers the
      number of rows updated. */
  function SoftDeleteById(st: Store, id: SuggestionId, deleteTime: nat): (r: Outcome<nat>)
    ensures r.value == 1 <==> IsActive(st, id)
    ensures r.value == 0 ==> r.st == st
    ensures !IsActive(r.st, id)
    ensures r.value == 1 ==> id in r.st.suggestions && r.st.suggestions[id].deletedAt == Some(deleteTime)
                             && r.st.suggestions[id].status == st.suggestions[id].status
                             && r.st.suggestions[id].(deleted := false, deletedAt := st.suggestions[id].deletedAt)
                                == st.suggestions[id]
    ensures r.st.suggestions.Keys == st.suggestions.Keys
    ensures forall k :: k in st.suggestions && k != id ==> r.st.suggestions[k] == st.suggestions[k]
    ensures r.st.(suggestions := st.suggestions) == st
  {
    if IsActive(st, id) then Outcome(st.(suggestions := st.suggestions[id := SoftDelete(st.suggestions[id], deleteTime)]), 1)
    else Outcome(st, 0)
  }

  /** `updateStatusById` */
  function UpdateStatusById(st: Store, id: SuggestionId, status: SuggestionStatus): (r: Outcome<nat>)
    ensures r.value == 1 <==> IsActive(st, id)
    ensures r.value == 0 ==> r.st == st
    ensures r.value == 1 ==> IsActive(r.st, id) && r.st.suggestions[id].status == status
                             && r.st.suggestions[id].(status := st.suggestions[id].status) == st.suggestions[id]
    ensures r.st.suggestions.Keys == st.suggestions.Keys
    ensures forall k :: k in st.suggestions && k != id ==> r.st.suggestions[k] == st.suggestions[k]
    ensures r.st.(suggestions := st.suggestions) == st
  {
    if IsActive(st, id) then Outcome(st.(suggestions := st.suggestions[id := st.suggestions[id].(status := status)]), 1)
    else Outcome(st, 0)
  }

  /** `incrementVoteCount` */
  function IncrementVoteCountById(st: Store, id: SuggestionId): (r: Outcome<nat>)
    ensures r.value == 1 <==> IsActive(st, id)
    ensures r.value == 0 ==> r.st == st
    ensures r.value == 1 ==> IsActive(r.st, id) && r.st.suggestions[id].voteCount == st.suggestions[id].voteCount + 1
                             && r.st.suggestions[id].(voteCount := st.suggestions[id].voteCount) == st.suggestions[id]
    ensures r.st.suggestions.Keys == st.suggestions.Keys
    ensures forall k :: k in st.suggestions && k != id ==> r.st.suggestions[k] == st.suggestions[k]
    ensures r.st.(suggestions := st.suggestions) == st
  {
    if IsActive(st, id) then Outcome(st.(suggestions := st.suggestions[id := IncrementVoteCount(st.suggestions[id])]), 1)
    else Outcome(st, 0)
  }

  /** `decrementVoteCount`: `CASE WHEN voteCount > 0 THEN voteCount - 1 ELSE 0 END`, so
      a negative counter is reset to zero, unlike the entity's own decrement. */
  function DecrementVoteCountById(st: Store, id: SuggestionId): (r: Outcome<nat>)
    ensures r.value == 1 <==> IsActive(st, id)
    ensures r.value == 0 ==> r.st == st
    ensures r.value == 1 ==> IsActive(r.st, id) && r.st.suggestions[id].voteCount >= 0
                             && r.st.suggestions[id].(voteCount := st.suggestions[id].voteCount) == st.suggestions[id]
    ensures r.value == 1 && st.suggestions[id].voteCount > 0 ==>
              r.st.suggestions[id].voteCount == st.suggestions[id].voteCount - 1
    ensures r.value == 1 && st.suggestions[id].voteCount <= 0 ==> r.st.suggestions[id].voteCount == 0
    ensures r.st.suggestions.Keys == st.suggestions.Keys
    ensures forall k :: k in st.suggestions && k != id ==> r.st.suggestions[k] == st.suggestions[k]
    ensures r.st.(suggestions := st.suggestions) == st
  {
    if IsActive(st, id) then
      var s := st.suggestions[id];
      Outcome(st.(suggestions := st.suggestions[id := s.(voteCount := if s.voteCount > 0 then s.voteCount - 1 else 0)]), 1)
    else Outcome(st, 0)
  }

  /** Incrementing then decrementing a live counter that is not negative restores
      the table. */
  lemma DecrementByIdUndoesIncrement(st: Store, id: SuggestionId)
    requires IsActive(st, id) && st.suggestions[id].voteCount >= 0
    ensures DecrementVoteCountById(IncrementVoteCountById(st, id).st, id).st == st
  {
    var mid := IncrementVoteCountById(st, id).st;
    var fin := DecrementVoteCountById(mid, id).st;
    assert fin.suggestions[id] == st.suggestions[id];
    assert fin.suggestions == st.suggestions;
  }

  predicate Doomed(st: Store, sid: SuggestionId, flag: bool) {
    sid in st.suggestions && st.suggestions[sid].deleted == flag
  }

  /** `deleteByDeleted(flag)`: removes every suggestion whose deleted flag is `flag`,
      and with them their votes and status history. */
  function DeleteByDeleted(st: Store, flag: bool): (r: Store)
    ensures forall k :: k in r.suggestions <==> k in st.suggestions && st.suggestions[k].deleted != flag
    ensures forall k :: k in r.suggestions ==> r.suggestions[k] == st.suggestions[k]
    ensures forall k :: k in r.votes <==> k in st.votes && !Doomed(st, st.votes[k].suggestionId, flag)
    ensures forall k :: k in r.votes ==> r.votes[k] == st.votes[k]
    ensures forall sid :: HistoryOf(r.history, sid) == if Doomed(st, sid, flag) then [] else HistoryOf(st.history, sid)
    ensures r.employees == st.employees && r.clock == st.clock
  {
    var gone := set k | k in st.suggestions && st.suggestions[k].deleted == flag;
    forall sid
      ensures HistoryOf(Purge(st.history, gone), sid) == if sid in gone then [] else HistoryOf(st.history, sid)
    {
      HistoryOfPurge(st.history, gone, sid);
    }
    RemoveSuggestions(st, gone)
  }
}

=== FILE: suggestion_service.dfy ===
/** The suggestion service: creating, editing, re-statusing and soft-deleting
    suggestions, with the status-history rows these write, and the searches and
    statistics built on the repository. Each operation is one transaction: on an
    error nothing it did is kept. */
module SuggestionService {
  import opened Wrappers
  import opened Model
  import opened Status
  import opened Store
  import Text
  import Grouping
  import SuggestionRepository

  /** `validateSuggestionData`: title first, then description, then the title's length
      in UTF-16 code units. */
  function ValidateSuggestionData(title: Option<string>, description: Option<string>): (r: Result<(string, string), Error>)
    ensures r.Ok? <==> title.Some? && description.Some? && !Text.IsBlank(title.value)
                       && !Text.IsBlank(description.value) && Text.Utf16Length(title.value) <= TitleMax
    ensures r.Ok? ==> r.value == (title.value, description.value)
    ensures (title.None? || Text.IsBlank(title.value)) ==> r == Err(TitleRequired)
    ensures title.Some? && !Text.IsBlank(title.value) && (description.None? || Text.IsBlank(description.value)) ==>
              r == Err(DescriptionRequired)
    ensures r.Err? ==> r.error in {TitleRequired, DescriptionRequired, TitleTooLong}
  {
    if title.None? || Text.IsBlank(title.value) then Err(TitleRequired)
    else if description.None? || Text.IsBlank(description.value) then Err(DescriptionRequired)
    else if Text.Utf16Length(title.value) > TitleMax then Err(TitleTooLong)
    else Ok((title.value, description.value))
  }

  /** 101 emoji are 101 characters but 202 code units: the title is too long. */
  lemma SupplementaryTitleTooLong()
    ensures ValidateSuggestionData(Some(seq(101, _ => '\U{1F600}')), Some("d")) == Err(TitleTooLong)
  {
    var t: string := seq(101, _ => '\U{1F600}');
    Text.Utf16LengthOfSupplementary('\U{1F600}', 101);
    assert !Text.IsTrimmable(t[0]);
    assert !Text.IsTrimmable("d"[0]);
  }

  /** Text that passes validation satisfies the entity's own constraints. */
  lemma ValidatedTextIsValid(title: Option<string>, description: Option<string>, s: Suggestion)
    requires ValidateSuggestionData(title, description).Ok?
    requires s.title == title.value && s.description == description.value
    ensures ValidSuggestionText(s)
  {
  }

  /** The submitter recorded for a new suggestion: the employee, unless the
      suggestion is anonymous or names nobody. */
  function SubmitterFor(employeeId: Option<EmployeeId>, anonymous: bool): (r: Option<EmployeeId>)
    ensures r.Some? <==> !anonymous && employeeId.Some?
    ensures r.Some? ==> r == employeeId
  {
    if !anonymous && employeeId.Some? then employeeId else None
  }

  /** `after` holds, under the fresh key `id`, a live OPEN suggestion with no votes
      and the given text and submitter, and otherwise the rows of `st`. */
  predicate NewRow(st: Store, after: Store, id: SuggestionId, title: string, description: string,
                   employeeId: Option<EmployeeId>, anonymous: bool) {
    && id in after.suggestions
    && after.suggestions == st.suggestions[id := after.suggestions[id]]
    && !after.suggestions[id].deleted
    && after.suggestions[id].title == title && after.suggestions[id].description == description
    && after.suggestions[id].status == Open && after.suggestions[id].voteCount == 0
    && after.suggestions[id].anonymous == anonymous
    && after.suggestions[id].submitter == SubmitterFor(employeeId, anonymous)
    && after.employees == st.employees && after.votes == st.votes
  }

  /** The history of `id` in `after` is the single initial row, written by "System"
      at the next tick; every other suggestion's history is that of `st`. */
  ghost predicate InitialHistory(st: Store, after: Store, id: SuggestionId) {
    && HistoryOf(after.history, id) == [HistoryEntry(id + 1, id, None, Open, Some("System"), None, id + 1)]
    && (forall sid :: sid != id ==> HistoryOf(after.history, sid) == HistoryOf(st.history, sid))
    && after.clock == id + 2
  }

  /** `createSuggestion`: stores a new OPEN suggestion with no votes under the next
      key, and its initial history row written by "System". */
  function CreateSuggestion(st: Store, title: Option<string>, description: Option<string>,
                            employeeId: Option<EmployeeId>, anonymous: bool): (r: Result<Outcome<SuggestionId>, Error>)
    requires BelowClock(st)
    ensures r.Ok? <==> ValidateSuggestionData(title, description).Ok?
                       && (anonymous || employeeId.None? || employeeId.value in st.employees)
    ensures ValidateSuggestionData(title, description).Err? ==> r == Err(ValidateSuggestionData(title, description).error)
    ensures (ValidateSuggestionData(title, description).Ok? && !anonymous && employeeId.Some?
             && employeeId.value !in st.employees) ==> r == Err(EmployeeNotFound(employeeId.value))
    ensures r.Ok? ==> r.value.value == st.clock && r.value.value !in st.suggestions
    ensures r.Ok? ==> NewRow(st, r.value.st, r.value.value, title.value, description.value, employeeId, anonymous)
    ensures r.Ok? ==> InitialHistory(st, r.value.st, r.value.value)
  {
    var text :- ValidateSuggestionData(title, description);
    if !anonymous && employeeId.Some? && employeeId.value !in st.employees then Err(EmployeeNotFound(employeeId.value))
    else
      var id := st.clock;
      var saved := st.(suggestions := st.suggestions[id := NewSuggestion(text.0, text.1, SubmitterFor(employeeId, anonymous), anonymous, id)],
                       clock := st.clock + 1);
      var after := AddHistory(saved, id, None, Open, Some("System"), None);
      HistoryOfAbsent(st.history, id);
      forall sid
        ensures HistoryOf(after.history, sid) == HistoryOf(st.history, sid) + (if sid == id then [after.history[|st.history|]] else [])
      {
        HistoryOfAppend(st.history, after.history[|st.history|], sid);
      }
      Ok(Outcome(after, id))
  }

  /** `updateSuggestion`: validates first, then replaces the text of a live suggestion. */
  function UpdateSuggestion(st: Store, id: SuggestionId, title: Option<string>, description: Option<string>): (r: Result<Store, Error>)
    ensures r.Ok? <==> ValidateSuggestionData(title, description).Ok? && IsActive(st, id)
    ensures ValidateSuggestionData(title, description).Err? ==> r == Err(ValidateSuggestionData(title, description).error)
    ensures ValidateSuggestionData(title, description).Ok? && !IsActive(st, id) ==> r == Err(SuggestionNotFound(id))
    ensures r.Ok? ==> r.value.suggestions == st.suggestions[id := st.suggestions[id].(title := title.value, description := description.value)]
                      && r.value.(suggestions := st.suggestions) == st
  {
    var text :- ValidateSuggestionData(title, description);
    if !IsActive(st, id) then Err(SuggestionNotFound(id))
    else Ok(st.(suggestions := st.suggestions[id := st.suggestions[id].(title := text.0, description := text.1)]))
  }

  /** `changeStatus`: moves a live suggestion to a different status and appends the
      history row `previous → new` with the admin's name and reason. A name or
      reason too long for its column makes the insert, and so the whole call, fail. */
  function ChangeStatus(st: Store, id: SuggestionId, newStatus: SuggestionStatus,
                        adminName: Option<string>, reason: Option<string>): (r: Result<Store, Error>)
    ensures r.Ok? <==> IsActive(st, id) && st.suggestions[id].status != newStatus
                       && OptionalWithin(adminName, ChangedByMax) && OptionalWithin(reason, ChangeReasonMax)
    ensures !IsActive(st, id) ==> r == Err(SuggestionNotFound(id))
    ensures IsActive(st, id) && st.suggestions[id].status == newStatus ==> r == Err(AlreadyInStatus(newStatus))
    ensures r.Ok? ==>
              && r.value.suggestions == st.suggestions[id := st.suggestions[id].(status := newStatus)]
              && r.value.history == st.history + [HistoryEntry(st.clock, id, Some(st.suggestions[id].status), newStatus, adminName, reason, st.clock)]
              && r.value.clock == st.clock + 1
              && r.value.employees == st.employees && r.value.votes == st.votes
  {
    if !IsActive(st, id) then Err(SuggestionNotFound(id))
    else
      var previous := st.suggestions[id].status;
      if previous == newStatus then Err(AlreadyInStatus(newStatus))
      else if !OptionalWithin(adminName, ChangedByMax) || !OptionalWithin(reason, ChangeReasonMax) then Err(ConstraintViolation)
      else
        var saved := st.(suggestions := st.suggestions[id := st.suggestions[id].(status := newStatus)]);
        Ok(AddHistory(saved, id, Some(previous), newStatus, adminName, reason))
  }

  const DeletionReason: string := "Suggestion deleted by admin"

  /** `deleteSuggestion`: soft-deletes a live suggestion now and records the deletion
      as a history row that keeps the status (`status → status`). */
  function DeleteSuggestion(st: Store, id: SuggestionId, adminName: Option<string>): (r: Result<Store, Error>)
    ensures r.Ok? <==> IsActive(st, id) && OptionalWithin(adminName, ChangedByMax)
    ensures !IsActive(st, id) ==> r == Err(SuggestionNotFound(id))
    ensures r.Ok? ==>
              && r.value.suggestions == st.suggestions[id := SoftDelete(st.suggestions[id], st.clock)]
              && !IsActive(r.value, id)
              && r.value.history == st.history + [HistoryEntry(st.clock, id, Some(st.suggestions[id].status),
                                                               st.suggestions[id].status, adminName, Some(DeletionReason), st.clock)]
              && r.value.clock == st.clock + 1
              && r.value.employees == st.employees && r.value.votes == st.votes
  {
    if !IsActive(st, id) then Err(SuggestionNotFound(id))
    else if !OptionalWithin(adminName, ChangedByMax) then Err(ConstraintViolation)
    else
      var s := st.suggestions[id];
      var saved := st.(suggestions := st.suggestions[id := SoftDelete(s, st.clock)]);
      Ok(AddHistory(saved, id, Some(s.status), s.status, adminName, Some(DeletionReason)))
  }

  /** `getSuggestionsByEmployee`: the employee must exist. */
  function GetSuggestionsByEmployee(st: Store, employee: EmployeeId): (r: Result<seq<SuggestionId>, Error>)
    requires BelowClock(st) && CreatedInKeyOrder(st)
    ensures r.Err? <==> employee !in st.employees
    ensures r.Err? ==> r.error == EmployeeNotFound(employee)
    ensures r.Ok? ==> forall k :: k in r.value <==> IsActive(st, k) && st.suggestions[k].submitter == Some(employee)
  {
    if employee !in st.employees then Err(EmployeeNotFound(employee))
    else Ok(SuggestionRepository.FindBySubmittedByAndDeletedFalseOrderByCreatedAtDesc(st, employee))
  }

  /** `countSuggestionsByEmployee`: the employee must exist. */
  function CountSuggestionsByEmployee(st: Store, employee: EmployeeId): (r: Result<nat, Error>)
    requires BelowClock(st) && CreatedInKeyOrder(st)
    ensures r.Err? <==> employee !in st.employees
    ensures r.Err? ==> r.error == EmployeeNotFound(employee)
    ensures r.Ok? ==> r.value == |GetSuggestionsByEmployee(st, employee).value|
  {
    if employee !in st.employees then Err(EmployeeNotFound(employee))
    else
      SuggestionRepository.CountsMatchLists(st, Open, employee);
      Ok(SuggestionRepository.CountBySubmittedByAndDeletedFalse(st, employee))
  }

  /** `searchSuggestions`: a missing or blank term lists every live suggestion;
      otherwise the trimmed term is searched in title and description. */
  function SearchSuggestions(st: Store, term: Option<string>): (r: seq<SuggestionId>)
    requires BelowClock(st) && CreatedInKeyOrder(st)
    ensures term.None? || Text.IsBlank(term.value) ==> forall k :: k in r <==> IsActive(st, k)
    ensures term.Some? && !Text.IsBlank(term.value) ==>
              forall k :: k in r <==>
                IsActive(st, k) &&
                (SuggestionRepository.MatchesTerm(st.suggestions[k].title, Text.Trim(term.value)) ||
                 SuggestionRepository.MatchesTerm(st.suggestions[k].description, Text.Trim(term.value)))
    ensures SuggestionRepository.NewestFirst(st, r)
  {
    if term.None? || Text.IsBlank(term.value) then SuggestionRepository.FindByDeletedFalseOrderByCreatedAtDesc(st)
    else SuggestionRepository.SearchByTitleOrDescription(st, Text.Trim(term.value))
  }

  /** Without wildcard characters in the term, a search finds exactly the live
      suggestions whose title or description contains the trimmed term, ignoring case. */
  lemma SearchFindsSubstrings(st: Store, term: string, k: SuggestionId)
    requires BelowClock(st) && CreatedInKeyOrder(st)
    requires !Text.IsBlank(term) && Text.NoWildcards(term)
    ensures k in SearchSuggestions(st, Some(term)) <==>
              IsActive(st, k) && (Text.ContainsIgnoreCase(st.suggestions[k].title, Text.Trim(term)) ||
                                  Text.ContainsIgnoreCase(st.suggestions[k].description, Text.Trim(term)))
  {
    var t := Text.Trim(term);
    var a := Text.TrimOffset(term);
    assert Text.NoWildcards(t) by {
      forall i | 0 <= i < |t| ensures t[i] != '%' && t[i] != '_' {
        assert t[i] == term[a + i];
      }
    }
    SuggestionRepository.SearchIsSubstringSearch(st, t, k);
  }

  /** The keys the rows are written under. */
  function RowNames(rows: seq<(SuggestionStatus, nat)>): set<string> {
    if |rows| == 0 then {} else {LowerName(rows[0].0)} + RowNames(rows[1..])
  }

  lemma {:induction false} RowNamesMembers(rows: seq<(SuggestionStatus, nat)>, key: string)
    ensures key in RowNames(rows) <==> exists i :: 0 <= i < |rows| && LowerName(rows[i].0) == key
    decreases |rows|
  {
    if |rows| > 0 {
      var tail := rows[1..];
      RowNamesMembers(tail, key);
      if key in RowNames(tail) {
        var i :| 0 <= i < |tail| && LowerName(tail[i].0) == key;
        assert rows[i + 1] == tail[i];
      }
      if exists i :: 0 <= i < |rows| && LowerName(rows[i].0) == key {
        var i :| 0 <= i < |rows| && LowerName(rows[i].0) == key;
        if i > 0 {
          assert tail[i - 1] == rows[i];
        }
      }
    }
  }

  /** With distinct statuses, the first row's key is not written again later. */
  lemma HeadNameFresh(rows: seq<(SuggestionStatus, nat)>)
    requires |rows| > 0 && Grouping.NoDuplicates(Grouping.Keys(rows))
    ensures Grouping.NoDuplicates(Grouping.Keys(rows[1..]))
    ensures LowerName(rows[0].0) !in RowNames(rows[1..])
  {
    var tail := rows[1..];
    assert Grouping.Keys(tail) == Grouping.Keys(rows)[1..];
    RowNamesMembers(tail, LowerName(rows[0].0));
    forall i | 0 <= i < |tail| ensures LowerName(tail[i].0) != LowerName(rows[0].0) {
      assert Grouping.Keys(rows)[i + 1] != Grouping.Keys(rows)[0];
      LowerNameDistinct(tail[i].0, rows[0].0);
    }
  }

  /** Writes the `(status, count)` rows into `m` under the statuses' lower-case names,
      one `put` per row in order. */
  function PutRows(m: map<string, nat>, rows: seq<(SuggestionStatus, nat)>): (r: map<string, nat>)
    requires Grouping.NoDuplicates(Grouping.Keys(rows))
    ensures r.Keys == m.Keys + RowNames(rows)
    ensures forall i :: 0 <= i < |rows| ==> LowerName(rows[i].0) in r && r[LowerName(rows[i].0)] == rows[i].1
    ensures forall key :: key in m && key !in RowNames(rows) ==> r[key] == m[key]
    decreases |rows|
  {
    if |rows| == 0 then m
    else
      var tail := rows[1..];
      HeadNameFresh(rows);
      var r := PutRows(m[LowerName(rows[0].0) := rows[0].1], tail);
      assert forall i :: 0 < i < |rows| ==> rows[i] == tail[i - 1];
      r
  }

  /** The entry of one status in the statistics map built from grouped rows that
      hold, for each status with a positive `count`, exactly that count. */
  lemma StatisticsEntry(base: map<string, nat>, rows: seq<(SuggestionStatus, nat)>,
                        count: SuggestionStatus -> nat, s: SuggestionStatus)
    requires Grouping.NoDuplicates(Grouping.Keys(rows))
    requires forall row :: row in rows ==> row.1 == count(row.0) && row.1 > 0
    requires forall t :: count(t) > 0 ==> (t, count(t)) in rows
    requires LowerName(s) !in base
    ensures var m := PutRows(base, rows);
            && (LowerName(s) in m <==> count(s) > 0)
            && (LowerName(s) in m ==> m[LowerName(s)] == count(s))
  {
    var m := PutRows(base, rows);
    if count(s) > 0 {
      var i :| 0 <= i < |rows| && rows[i] == (s, count(s));
      assert LowerName(rows[i].0) in m;
    }
    if LowerName(s) in m {
      RowNamesMembers(rows, LowerName(s));
      var i :| 0 <= i < |rows| && LowerName(rows[i].0) == LowerName(s);
      LowerNameDistinct(rows[i].0, s);
      assert rows[i] in rows;
    }
  }

  function StatisticsBase(st: Store): map<string, nat> {
    map["total" := SuggestionRepository.CountByDeletedFalse(st),
        "anonymous" := SuggestionRepository.CountByIsAnonymousTrueAndDeletedFalse(st)]
  }

  /** Writing status rows over "total" and "anonymous" leaves those two alone, and
      every other key is a status's. */
  lemma PutRowsOverBase(base: map<string, nat>, rows: seq<(SuggestionStatus, nat)>)
    requires Grouping.NoDuplicates(Grouping.Keys(rows))
    requires base.Keys == {"total", "anonymous"}
    ensures var m := PutRows(base, rows);
            && "total" in m && m["total"] == base["total"]
            && "anonymous" in m && m["anonymous"] == base["anonymous"]
            && forall key :: key in m ==> key == "total" || key == "anonymous" || exists s :: key == LowerName(s)
  {
    forall key | key in RowNames(rows) ensures key != "total" && key != "anonymous" && exists s :: key == LowerName(s) {
      RowNamesMembers(rows, key);
      var i :| 0 <= i < |rows| && LowerName(rows[i].0) == key;
      LowerNameDistinct(rows[i].0, rows[i].0);
    }
  }

  /** The statistics map over any base holding "total" and "anonymous" and any
      grouped rows that hold each positive `count`. */
  lemma StatisticsMap(base: map<string, nat>, rows: seq<(SuggestionStatus, nat)>, count: SuggestionStatus -> nat)
    requires Grouping.NoDuplicates(Grouping.Keys(rows))
    requires forall row :: row in rows ==> row.1 == count(row.0) && row.1 > 0
    requires forall t :: count(t) > 0 ==> (t, count(t)) in rows
    requires base.Keys == {"total", "anonymous"}
    ensures var m := PutRows(base, rows);
            && "total" in m && m["total"] == base["total"]
            && "anonymous" in m && m["anonymous"] == base["anonymous"]
            && (forall s :: LowerName(s) in m <==> count(s) > 0)
            && (forall s :: LowerName(s) in m ==> m[LowerName(s)] == count(s))
            && (forall key :: key in m ==> key == "total" || key == "anonymous" || exists s :: key == LowerName(s))
  {
    PutRowsOverBase(base, rows);
    forall s
      ensures LowerName(s) in PutRows(base, rows) <==> count(s) > 0
      ensures LowerName(s) in PutRows(base, rows) ==> PutRows(base, rows)[LowerName(s)] == count(s)
    {
      LowerNameDistinct(s, s);
      StatisticsEntry(base, rows, count, s);
    }
  }

  /** `getSuggestionStatistics`: "total" and "anonymous" live counts, plus one entry
      per status that some live suggestion has, under the status's lower-case name. */
  function GetSuggestionStatistics(st: Store): (m: map<string, nat>)
    requires BelowClock(st) && CreatedInKeyOrder(st)
    ensures "total" in m && m["total"] == SuggestionRepository.CountByDeletedFalse(st)
    ensures "anonymous" in m && m["anonymous"] == SuggestionRepository.CountByIsAnonymousTrueAndDeletedFalse(st)
    ensures forall s :: LowerName(s) in m <==> SuggestionRepository.CountByStatusAndDeletedFalse(st, s) > 0
    ensures forall s :: LowerName(s) in m ==> m[LowerName(s)] == SuggestionRepository.CountByStatusAndDeletedFalse(st, s)
    ensures forall key :: key in m ==> key == "total" || key == "anonymous" || exists s :: key == LowerName(s)
  {
    var base := StatisticsBase(st);
    var rows := SuggestionRepository.GetStatusStatistics(st);
    StatisticsMap(base, rows, s => SuggestionRepository.CountByStatusAndDeletedFalse(st, s));
    PutRows(base, rows)
  }
}

=== FILE: text.dfy ===
/** String helpers with the meaning the Java code and its JPQL queries give them. */
module Text {

  /** `String.trim()` strips every leading and trailing character at or below U+0020. */
  predicate IsTrimmable(c: char) {
    c <= ' '
  }

  function TrimStart(s: string): (r: string)
    ensures |r| <= |s| && r == s[|s| - |r|..]
    ensures forall i :: 0 <= i < |s| - |r| ==> IsTrimmable(s[i])
    ensures |r| > 0 ==> !IsTrimmable(r[0])
  {
    if |s| > 0 && IsTrimmable(s[0]) then TrimStart(s[1..]) else s
  }

  function TrimEnd(s: string): (r: string)
    ensures |r| <= |s| && r == s[..|r|]
    ensures forall i :: |r| <= i < |s| ==> IsTrimmable(s[i])
    ensures |r| > 0 ==> !IsTrimmable(r[|r| - 1])
  {
    if |s| > 0 && IsTrimmable(s[|s| - 1]) then TrimEnd(s[..|s| - 1]) else s
  }

  /** `String.trim()`: the result is empty exactly when every character is trimmable,
      and otherwise starts and ends with a character that is not. */
  function Trim(s: string): (r: string)
    ensures |r| <= |s|
    ensures |r| == 0 <==> forall i :: 0 <= i < |s| ==> IsTrimmable(s[i])
    ensures |r| > 0 ==> !IsTrimmable(r[0]) && !IsTrimmable(r[|r| - 1])
  {
    var t := TrimStart(s);
    var r := TrimEnd(t);
    if |r| == 0 then
      // a non-empty `t` starts with a kept character, which `TrimEnd` would have kept
      assert |t| == 0;
      r
    else
      assert r[0] == t[0];
      r
  }

  /** The trimmed string is a contiguous piece of the original, starting at `a`. */
  lemma TrimOffset(s: string) returns (a: nat)
    ensures a + |Trim(s)| <= |s| && Trim(s) == s[a..a + |Trim(s)|]
  {
    var t := TrimStart(s);
    a := |s| - |t|;
    assert Trim(s) == TrimEnd(t) == t[..|Trim(s)|];
  }

  /** `s.trim().isEmpty()`: every character is trimmable. */
  predicate IsBlank(s: string) {
    forall i :: 0 <= i < |s| ==> IsTrimmable(s[i])
  }

  /** A blank string is one that trims to nothing. */
  lemma BlankIffTrimsEmpty(s: string)
    ensures IsBlank(s) <==> |Trim(s)| == 0
  {
  }

  /** A character outside the Basic Multilingual Plane, which UTF-16 stores as a
      surrogate pair. */
  predicate IsSupplementary(c: char) {
    c as int > 0xFFFF
  }

  /** `String.length()`: the number of UTF-16 code units, in which a supplementary
      character counts twice. */
  function Utf16Length(s: string): (n: nat)
    ensures |s| <= n <= 2 * |s|
  {
    if |s| == 0 then 0
    else Utf16Length(s[..|s| - 1]) + (if IsSupplementary(s[|s| - 1]) then 2 else 1)
  }

  /** The code-unit count equals the character count exactly when no character is
      supplementary. */
  lemma {:induction false} Utf16LengthIsLength(s: string)
    ensures Utf16Length(s) == |s| <==> forall i :: 0 <= i < |s| ==> !IsSupplementary(s[i])
  {
    if |s| > 0 {
      var init := s[..|s| - 1];
      Utf16LengthIsLength(init);
      assert forall i :: 0 <= i < |init| ==> init[i] == s[i];
    }
  }

  /** `n` copies of one supplementary character take `2 * n` code units. */
  lemma {:induction false} Utf16LengthOfSupplementary(c: char, n: nat)
    requires IsSupplementary(c)
    ensures Utf16Length(seq(n, _ => c)) == 2 * n
  {
    if n > 0 {
      Utf16LengthOfSupplementary(c, n - 1);
      assert seq(n, _ => c)[..n - 1] == seq(n - 1, _ => c);
    }
  }

  function ToLowerChar(c: char): char {
    if 'A' <= c <= 'Z' then (c as int + 32) as char else c
  }

  /** SQL `LOWER` / Java `toLowerCase`, on the ASCII letters. */
  function ToLower(s: string): (r: string)
    ensures |r| == |s|
    ensures forall i :: 0 <= i < |r| ==> !('A' <= r[i] <= 'Z')
    ensures forall i :: 0 <= i < |s| && !('A' <= s[i] <= 'Z') ==> r[i] == s[i]
  {
    seq(|s|, i requires 0 <= i < |s| => ToLowerChar(s[i]))
  }

  /** Lower-casing twice is lower-casing once. */
  lemma ToLowerIdempotent(s: string)
    ensures ToLower(ToLower(s)) == ToLower(s)
  {
    assert forall i :: 0 <= i < |s| ==> ToLowerChar(ToLowerChar(s[i])) == ToLowerChar(s[i]);
  }

  /** `LOWER(a) = LOWER(b)` */
  predicate EqualsIgnoreCase(a: string, b: string) {
    ToLower(a) == ToLower(b)
  }

  /** `needle` occurs as a contiguous piece of `hay` (a derived `...Containing` query,
      whose argument is escaped before it reaches `LIKE`). */
  function Contains(hay: string, needle: string): (r: bool)
    ensures r <==> exists i :: 0 <= i <= |hay| && needle <= hay[i..]
    decreases |hay|
  {
    if needle <= hay then
      assert needle <= hay[0..];
      true
    else if |hay| == 0 then
      false
    else
      var rest := Contains(hay[1..], needle);
      assert forall i :: 1 <= i <= |hay| ==> hay[i..] == hay[1..][i - 1..];
      if rest then
        var j :| 0 <= j <= |hay[1..]| && needle <= hay[1..][j..];
        assert needle <= hay[j + 1..];
        true
      else
        false
  }

  /** `...ContainingIgnoreCase`: case-insensitive substring search. */
  predicate ContainsIgnoreCase(text: string, term: string) {
    Contains(ToLower(text), ToLower(term))
  }

  /** Lexicographic order on character codes: how a string column sorts under a binary
      collation. */
  predicate LexLe(a: string, b: string)
    decreases |a|
  {
    |a| == 0 || (|b| > 0 && (a[0] < b[0] || (a[0] == b[0] && LexLe(a[1..], b[1..]))))
  }

  lemma {:induction false} LexLeTotal(a: string, b: string)
    ensures LexLe(a, b) || LexLe(b, a)
    decreases |a|
  {
    if |a| > 0 && |b| > 0 && a[0] == b[0] {
      LexLeTotal(a[1..], b[1..]);
    }
  }

  lemma {:induction false} LexLeTransitive(a: string, b: string, c: string)
    requires LexLe(a, b) && LexLe(b, c)
    ensures LexLe(a, c)
    decreases |a|
  {
    if |a| > 0 && a[0] == b[0] && b[0] == c[0] {
      LexLeTransitive(a[1..], b[1..], c[1..]);
    }
  }

  lemma {:induction false} LexLeAntisymmetric(a: string, b: string)
    requires LexLe(a, b) && LexLe(b, a)
    ensures a == b
    decreases |a|
  {
    if |a| > 0 {
      LexLeAntisymmetric(a[1..], b[1..]);
      assert a == [a[0]] + a[1..] && b == [b[0]] + b[1..];
    }
  }

  /** `s` never shows `c0` immediately followed by `c1`, and does not end with `c0`. */
  predicate AvoidsPair(s: string, c0: char, c1: char) {
    && (|s| == 0 || s[|s| - 1] != c0)
    && forall i :: 0 <= i < |s| - 1 ==> !(s[i] == c0 && s[i + 1] == c1)
  }

  /** Position of the first `c0` immediately followed by `c1`, or `|x|` when there is none. */
  function FirstPair(x: string, c0: char, c1: char): (k: nat)
    ensures k <= |x|
  {
    if |x| < 2 then |x|
    else if x[0] == c0 && x[1] == c1 then 0
    else 1 + FirstPair(x[1..], c0, c1)
  }

  lemma {:induction false} FirstPairAfter(a: string, rest: string, c0: char, c1: char)
    requires AvoidsPair(a, c0, c1)
    requires |rest| >= 2 && rest[0] == c0 && rest[1] == c1
    ensures FirstPair(a + rest, c0, c1) == |a|
  {
    if |a| == 0 {
      assert a + rest == rest;
    } else {
      assert (a + rest)[1..] == a[1..] + rest;
      FirstPairAfter(a[1..], rest, c0, c1);
    }
  }

  /** A separator whose first two characters never meet in the left parts splits a
      concatenation in one place only. */
  lemma SplitAtSeparator(a1: string, b1: string, a2: string, b2: string, sep: string)
    requires |sep| >= 2
    requires AvoidsPair(a1, sep[0], sep[1]) && AvoidsPair(a2, sep[0], sep[1])
    requires a1 + sep + b1 == a2 + sep + b2
    ensures a1 == a2 && b1 == b2
  {
    var x := a1 + sep + b1;
    assert x == a1 + (sep + b1) && x == a2 + (sep + b2);
    FirstPairAfter(a1, sep + b1, sep[0], sep[1]);
    FirstPairAfter(a2, sep + b2, sep[0], sep[1]);
    assert a1 == x[..|a1|] == a2;
    assert b1 == x[|a1| + |sep|..] == b2;
  }

  // ---------------------------------------------------------------- LIKE

  /** SQL `LIKE` without an escape character: `%` matches any run of characters,
      `_` exactly one, and every other pattern character itself. */
  predicate Like(s: string, pattern: string)
    decreases |s| + |pattern|
  {
    if |pattern| == 0 then |s| == 0
    else if pattern[0] == '%' then Like(s, pattern[1..]) || (|s| > 0 && Like(s[1..], pattern))
    else if pattern[0] == '_' then |s| > 0 && Like(s[1..], pattern[1..])
    else |s| > 0 && s[0] == pattern[0] && Like(s[1..], pattern[1..])
  }

  predicate NoWildcards(t: string) {
    forall i :: 0 <= i < |t| ==> t[i] != '%' && t[i] != '_'
  }

  lemma {:induction false} LikeAnything(s: string)
    ensures Like(s, "%")
  {
    if |s| > 0 {
      LikeAnything(s[1..]);
    }
  }

  /** `t%` matches exactly the strings that start with a wildcard-free `t`. */
  lemma {:induction false} LikePrefix(s: string, t: string)
    requires NoWildcards(t)
    ensures Like(s, t + "%") <==> t <= s
  {
    if |t| == 0 {
      assert t + "%" == "%";
      LikeAnything(s);
    } else {
      assert (t + "%")[1..] == t[1..] + "%";
      if |s| > 0 {
        LikePrefix(s[1..], t[1..]);
        assert t <= s <==> s[0] == t[0] && t[1..] <= s[1..];
      }
    }
  }

  /** A leading `%` lets the rest of the pattern match any suffix. */
  lemma {:induction false} LikeAnySuffix(s: string, q: string)
    ensures Like(s, "%" + q) <==> exists i :: 0 <= i <= |s| && Like(s[i..], q)
  {
    var p := "%" + q;
    assert p[0] == '%' && p[1..] == q;
    assert s[0..] == s;
    if |s| == 0 {
      assert Like(s, p) <==> Like(s, q);
    } else {
      var t := s[1..];
      assert Like(s, p) <==> Like(s, q) || Like(t, p);
      LikeAnySuffix(t, q);
      if Like(t, p) {
        var j :| 0 <= j <= |t| && Like(t[j..], q);
        assert s[j + 1..] == t[j..];
      }
      if exists i :: 0 <= i <= |s| && Like(s[i..], q) {
        var i :| 0 <= i <= |s| && Like(s[i..], q);
        if i > 0 {
          assert t[i - 1..] == s[i..];
        }
      }
    }
  }

  /** For a wildcard-free term, `LIKE '%term%'` is substring search. */
  lemma LikeContains(s: string, t: string)
    requires NoWildcards(t)
    ensures Like(s, "%" + t + "%") <==> Contains(s, t)
  {
    assert "%" + t + "%" == "%" + (t + "%");
    LikeAnySuffix(s, t + "%");
    forall i | 0 <= i <= |s|
      ensures Like(s[i..], t + "%") <==> t <= s[i..]
    {
      LikePrefix(s[i..], t);
    }
  }

  /** `%` and `_` in the term are wildcards, not literal characters: the term "_"
      matches every non-empty text. */
  lemma UnderscoreMatchesAnyText(s: string)
    requires |s| > 0
    ensures Like(s, "%_%")
    ensures !Contains(s, "_") <==> forall i :: 0 <= i < |s| ==> s[i] != '_'
  {
    assert ("%_%")[1..] == "_%";
    assert ("_%")[1..] == "%";
    LikeAnything(s[1..]);
    assert Like(s, "_%");
    if Contains(s, "_") {
      var i :| 0 <= i <= |s| && "_" <= s[i..];
      assert s[i] == '_';
    }
    forall i | 0 <= i < |s| && s[i] == '_'
      ensures "_" <= s[i..]
    {
    }
  }
}

=== FILE: vote_repository.dfy ===
/** The queries of the vote repository, over the votes table of a `Store`. Query
    methods that take a `Suggestion` entity behave as their id-taking twins. */
module VoteRepository {
  import opened Wrappers
  import opened Model
  import opened Store
  import Seqs
  import Sorting
  import Grouping

  /** Votes passing `p`, newest first. */
  function NewestVotes(st: Store, p: Vote -> bool): (r: seq<VoteId>)
    requires BelowClock(st) && CreatedInKeyOrder(st)
    ensures forall k :: k in r <==> k in st.votes && p(st.votes[k])
    ensures forall i, j :: 0 <= i < j < |r| ==> st.votes[r[i]].createdAt > st.votes[r[j]].createdAt
  {
    Seqs.ScanDesc(st.votes, st.clock, p)
  }

  /** Whether the device has a vote row for the suggestion. */
  function ExistsBySuggestionIdAndDeviceIdentifier(st: Store, sid: SuggestionId, device: string): (r: bool)
    ensures r <==> exists k :: k in st.votes && st.votes[k].suggestionId == sid && st.votes[k].deviceIdentifier == device
  {
    var d := DeviceVotes(st.votes, sid, device);
    assert d != {} ==> exists k :: k in st.votes && st.votes[k].suggestionId == sid && st.votes[k].deviceIdentifier == device by {
      if d != {} {
        var k :| k in d;
        assert k in st.votes && st.votes[k].suggestionId == sid && st.votes[k].deviceIdentifier == device;
      }
    }
    assert (exists k :: k in st.votes && st.votes[k].suggestionId == sid && st.votes[k].deviceIdentifier == device) ==> d != {} by {
      if exists k :: k in st.votes && st.votes[k].suggestionId == sid && st.votes[k].deviceIdentifier == device {
        var k :| k in st.votes && st.votes[k].suggestionId == sid && st.votes[k].deviceIdentifier == device;
        assert k in d;
      }
    }
    d != {}
  }

  /** `Optional<Vote>` of the device's vote for the suggestion. */
  function FindBySuggestionIdAndDeviceIdentifier(st: Store, sid: SuggestionId, device: string): (r: Option<VoteId>)
    requires BelowClock(st) && CreatedInKeyOrder(st) && VotesUnique(st.votes)
    ensures r.None? <==> !ExistsBySuggestionIdAndDeviceIdentifier(st, sid, device)
    ensures r.Some? ==> r.value in st.votes && st.votes[r.value].suggestionId == sid
                        && st.votes[r.value].deviceIdentifier == device
    ensures r.Some? ==> DeviceVotes(st.votes, sid, device) == {r.value}
  {
    var found := NewestVotes(st, (v: Vote) => v.suggestionId == sid && v.deviceIdentifier == device);
    if |found| == 0 then None
    else
      assert found[0] in DeviceVotes(st.votes, sid, device);
      DeviceVoteIsUnique(st.votes, sid, device);
      Some(found[0])
  }

  /** `findBySuggestionIdOrderByCreatedAtDesc` */
  function FindBySuggestionIdOrderByCreatedAtDesc(st: Store, sid: SuggestionId): (r: seq<VoteId>)
    requires BelowClock(st) && CreatedInKeyOrder(st)
    ensures forall k :: k in r <==> k in st.votes && st.votes[k].suggestionId == sid
    ensures forall i, j :: 0 <= i < j < |r| ==> st.votes[r[i]].createdAt > st.votes[r[j]].createdAt
  {
    NewestVotes(st, (v: Vote) => v.suggestionId == sid)
  }

  /** Number of vote rows for the suggestion; zero exactly when it has none. */
  function CountBySuggestionId(st: Store, sid: SuggestionId): (n: nat)
    ensures n == 0 <==> forall k :: k in st.votes ==> st.votes[k].suggestionId != sid
  {
    var s := VotesOf(st.votes, sid);
    assert s == {} ==> forall k :: k in st.votes ==> st.votes[k].suggestionId != sid by {
      if s == {} {
        forall k | k in st.votes ensures st.votes[k].suggestionId != sid {
          assert k !in s;
        }
      }
    }
    assert s != {} ==> exists k :: k in st.votes && st.votes[k].suggestionId == sid by {
      if s != {} {
        var k :| k in s;
        assert k in st.votes && st.votes[k].suggestionId == sid;
      }
    }
    |s|
  }

  /** The count query and the list query agree. */
  lemma CountIsListLength(st: Store, sid: SuggestionId)
    requires BelowClock(st) && CreatedInKeyOrder(st)
    ensures CountBySuggestionId(st, sid) == |FindBySuggestionIdOrderByCreatedAtDesc(st, sid)|
  {
    var r := FindBySuggestionIdOrderByCreatedAtDesc(st, sid);
    forall i, j | 0 <= i < j < |r| ensures r[i] != r[j] {
      assert st.votes[r[i]].createdAt > st.votes[r[j]].createdAt;
    }
    Seqs.DistinctListCoversSet(r, VotesOf(st.votes, sid));
  }

  /** `findByDeviceIdentifierOrderByCreatedAtDesc` */
  function FindByDeviceIdentifierOrderByCreatedAtDesc(st: Store, device: string): (r: seq<VoteId>)
    requires BelowClock(st) && CreatedInKeyOrder(st)
    ensures forall k :: k in r <==> k in st.votes && st.votes[k].deviceIdentifier == device
    ensures forall i, j :: 0 <= i < j < |r| ==> st.votes[r[i]].createdAt > st.votes[r[j]].createdAt
  {
    NewestVotes(st, (v: Vote) => v.deviceIdentifier == device)
  }

  /** `findByEmployeeOrderByCreatedAtDesc`: the votes recorded against the employee. */
  function FindByEmployeeOrderByCreatedAtDesc(st: Store, employee: EmployeeId): (r: seq<VoteId>)
    requires BelowClock(st) && CreatedInKeyOrder(st)
    ensures forall k :: k in r <==> k in st.votes && st.votes[k].employee == Some(employee)
    ensures forall i, j :: 0 <= i < j < |r| ==> st.votes[r[i]].createdAt > st.votes[r[j]].createdAt
  {
    NewestVotes(st, (v: Vote) => v.employee == Some(employee))
  }

  /** The votes cast between `start` and `end`, both included, newest first. */
  function FindByCreatedAtBetween(st: Store, start: nat, end: nat): (r: seq<VoteId>)
    requires BelowClock(st) && CreatedInKeyOrder(st)
    ensures forall k :: k in r <==> k in st.votes && start <= st.votes[k].createdAt <= end
    ensures forall i, j :: 0 <= i < j < |r| ==> st.votes[r[i]].createdAt > st.votes[r[j]].createdAt
  {
    NewestVotes(st, (v: Vote) => start <= v.createdAt <= end)
  }

  /** The votes cast at or after `since`, newest first. */
  function FindRecentVotes(st: Store, since: nat): (r: seq<VoteId>)
    requires BelowClock(st) && CreatedInKeyOrder(st)
    ensures forall k :: k in r <==> k in st.votes && st.votes[k].createdAt >= since
    ensures forall i, j :: 0 <= i < j < |r| ==> st.votes[r[i]].createdAt > st.votes[r[j]].createdAt
  {
    NewestVotes(st, (v: Vote) => v.createdAt >= since)
  }

  /** The votes of live suggestions, newest first. */
  function FindVotesForActiveSuggestions(st: Store): (r: seq<VoteId>)
    requires BelowClock(st) && CreatedInKeyOrder(st)
    ensures forall k :: k in r <==> k in st.votes && IsActive(st, st.votes[k].suggestionId)
    ensures forall i, j :: 0 <= i < j < |r| ==> st.votes[r[i]].createdAt > st.votes[r[j]].createdAt
  {
    NewestVotes(st, (v: Vote) => IsActive(st, v.suggestionId))
  }

  function Devices(votes: map<VoteId, Vote>, keys: set<VoteId>): set<string>
    requires keys <= votes.Keys
  {
    set k | k in keys :: votes[k].deviceIdentifier
  }

  /** Number of different devices that have voted on anything; never more than the
      number of vote rows. */
  function CountUniqueVoters(st: Store): (n: nat)
    ensures n <= |st.votes|
  {
    ImageNoLarger(st.votes, st.votes.Keys);
    |Devices(st.votes, st.votes.Keys)|
  }

  /** Number of different devices that voted on the suggestion; never more than its
      number of vote rows. */
  function CountUniqueVotersBySuggestionId(st: Store, sid: SuggestionId): (n: nat)
    ensures n <= CountBySuggestionId(st, sid)
  {
    ImageNoLarger(st.votes, VotesOf(st.votes, sid));
    |Devices(st.votes, VotesOf(st.votes, sid))|
  }

  lemma {:induction false} ImageNoLarger(votes: map<VoteId, Vote>, keys: set<VoteId>)
    requires keys <= votes.Keys
    ensures |Devices(votes, keys)| <= |keys|
    decreases |keys|
  {
    if keys != {} {
      var k :| k in keys;
      ImageNoLarger(votes, keys - {k});
      assert Devices(votes, keys) == Devices(votes, keys - {k}) + {votes[k].deviceIdentifier};
    }
  }

  /** Distinct keys whose votes come from distinct devices give as many devices as keys. */
  lemma {:induction false} ImageOfInjective(votes: map<VoteId, Vote>, keys: set<VoteId>)
    requires keys <= votes.Keys
    requires forall a, b :: a in keys && b in keys && a != b ==> votes[a].deviceIdentifier != votes[b].deviceIdentifier
    ensures |Devices(votes, keys)| == |keys|
    decreases |keys|
  {
    if keys != {} {
      var k :| k in keys;
      ImageOfInjective(votes, keys - {k});
      assert Devices(votes, keys) == Devices(votes, keys - {k}) + {votes[k].deviceIdentifier};
      assert votes[k].deviceIdentifier !in Devices(votes, keys - {k});
    }
  }

  /** With one vote per device and suggestion, a suggestion's distinct voters are its votes. */
  lemma UniqueVotersOfSuggestionAreItsVotes(st: Store, sid: SuggestionId)
    requires VotesUnique(st.votes)
    ensures CountUniqueVotersBySuggestionId(st, sid) == CountBySuggestionId(st, sid)
  {
    ImageOfInjective(st.votes, VotesOf(st.votes, sid));
  }

  function SuggestionIdOf(v: Vote): SuggestionId {
    v.suggestionId
  }

  predicate ByCountDesc(a: (SuggestionId, nat), b: (SuggestionId, nat)) {
    a.1 >= b.1
  }

  /** The live-suggestion column of the votes, newest vote first. */
  function LiveVoteSuggestions(st: Store): (sids: seq<SuggestionId>)
    requires BelowClock(st) && CreatedInKeyOrder(st)
    ensures forall sid :: sid in sids <==> IsActive(st, sid) && VotesOf(st.votes, sid) != {}
    ensures forall sid :: IsActive(st, sid) ==> Grouping.Count(sids, sid) == |VotesOf(st.votes, sid)|
  {
    var keys := FindVotesForActiveSuggestions(st);
    assert forall i, j :: 0 <= i < j < |keys| ==> keys[i] != keys[j] by {
      forall i, j | 0 <= i < j < |keys| ensures keys[i] != keys[j] {
        assert st.votes[keys[i]].createdAt > st.votes[keys[j]].createdAt;
      }
    }
    LiveColumn(st, keys);
    Grouping.Column(st.votes, keys, SuggestionIdOf)
  }

  /** Reading the suggestion column off every vote of a live suggestion, each once. */
  lemma LiveColumn(st: Store, keys: seq<VoteId>)
    requires forall k :: k in keys <==> k in st.votes && IsActive(st, st.votes[k].suggestionId)
    requires forall i, j :: 0 <= i < j < |keys| ==> keys[i] != keys[j]
    ensures var sids := Grouping.Column(st.votes, keys, SuggestionIdOf);
            && (forall sid :: sid in sids <==> IsActive(st, sid) && VotesOf(st.votes, sid) != {})
            && (forall sid :: IsActive(st, sid) ==> Grouping.Count(sids, sid) == |VotesOf(st.votes, sid)|)
  {
    var sids := Grouping.Column(st.votes, keys, SuggestionIdOf);
    forall sid | IsActive(st, sid)
      ensures Grouping.Count(sids, sid) == |VotesOf(st.votes, sid)|
    {
      Grouping.CountColumn(st.votes, keys, SuggestionIdOf, sid);
      assert Grouping.Matching(st.votes, keys, SuggestionIdOf, sid) == VotesOf(st.votes, sid);
    }
    forall sid
      ensures sid in sids <==> IsActive(st, sid) && VotesOf(st.votes, sid) != {}
    {
      if sid in sids {
        var j :| 0 <= j < |sids| && sids[j] == sid;
        Grouping.ColumnAt(st.votes, keys, SuggestionIdOf, j);
        assert keys[j] in VotesOf(st.votes, sid);
      }
      if IsActive(st, sid) && VotesOf(st.votes, sid) != {} {
        var k :| k in VotesOf(st.votes, sid);
        assert k in keys;
        var j :| 0 <= j < |keys| && keys[j] == k;
        Grouping.ColumnAt(st.votes, keys, SuggestionIdOf, j);
        assert sids[j] == sid;
      }
    }
  }

  /** The vote ranking: one row per live suggestion that has votes, with its number of
      votes, most voted first. */
  function GetTopVotedSuggestions(st: Store): (rows: seq<(SuggestionId, nat)>)
    requires BelowClock(st) && CreatedInKeyOrder(st)
    ensures forall row :: row in rows ==>
              IsActive(st, row.0) && row.1 == |VotesOf(st.votes, row.0)| && row.1 > 0
    ensures forall sid :: IsActive(st, sid) && VotesOf(st.votes, sid) != {} ==>
              exists row :: row in rows && row.0 == sid
    ensures Sorting.Sorted(rows, ByCountDesc)
    ensures Grouping.NoDuplicates(Grouping.Keys(rows))
  {
    var sids := LiveVoteSuggestions(st);
    var groups := Grouping.GroupCount(sids);
    var rows := Sorting.Sort(groups, ByCountDesc);
    Sorting.SortIsSorted(groups, ByCountDesc);
    Grouping.ReorderedGroups(sids, rows);
    rows
  }
}

=== FILE: vote_service.dfy ===
/** The vote service: one vote per device and suggestion, kept in step with the
    suggestion's vote counter. Every operation that fails leaves the database as it
    was (the transaction rolls back). */
module VoteService {
  import opened Wrappers
  import opened Model
  import opened Store
  import Text
  import VoteRepository

  /** `validateDeviceIdentifier`: null or blank is missing; over 255 UTF-16 code units
      (Java's `length()`) is too long. */
  function ValidateDeviceIdentifier(device: Option<string>): (r: Result<string, Error>)
    ensures r.Ok? <==> device.Some? && ValidDevice(device.value)
    ensures r.Ok? ==> r.value == device.value
    ensures r.Err? && (device.None? || Text.IsBlank(device.value)) ==> r.error == DeviceIdentifierRequired
    ensures r.Err? && device.Some? && !Text.IsBlank(device.value) ==> r.error == DeviceIdentifierTooLong
  {
    if device.None? || Text.IsBlank(device.value) then Err(DeviceIdentifierRequired)
    else if Text.Utf16Length(device.value) > DeviceIdentifierMax then Err(DeviceIdentifierTooLong)
    else Ok(device.value)
  }

  /** 128 emoji are 128 characters but 256 code units, so the identifier is too long. */
  lemma SupplementaryDeviceTooLong()
    ensures ValidateDeviceIdentifier(Some(seq(128, _ => '\U{1F600}'))) == Err(DeviceIdentifierTooLong)
  {
    var d: string := seq(128, _ => '\U{1F600}');
    Text.Utf16LengthOfSupplementary('\U{1F600}', 128);
    assert !Text.IsTrimmable(d[0]);
  }

  predicate HasVote(st: Store, sid: SuggestionId, device: string) {
    VoteRepository.ExistsBySuggestionIdAndDeviceIdentifier(st, sid, device)
  }

  /** The employee recorded on a new vote: the given one if it exists, otherwise none. */
  function Voter(st: Store, employeeId: Option<EmployeeId>): (e: Option<EmployeeId>)
    ensures e.Some? <==> employeeId.Some? && employeeId.value in st.employees
    ensures e.Some? ==> e == employeeId
  {
    if employeeId.Some? && employeeId.value in st.employees then employeeId else None
  }

  /** `voteForSuggestion`: false when the device already voted; otherwise a vote row is
      added and the suggestion's counter goes up by one. */
  function VoteForSuggestion(st: Store, sid: SuggestionId, device: Option<string>,
                             employeeId: Option<EmployeeId>): (r: Result<Outcome<bool>, Error>)
    requires BelowClock(st)
    ensures r.Ok? <==> device.Some? && ValidDevice(device.value) && IsActive(st, sid)
    ensures r.Err? && device.Some? && ValidDevice(device.value) ==> r.error == SuggestionNotFound(sid)
    ensures r.Ok? ==> (r.value.value <==> !HasVote(st, sid, device.value))
    ensures r.Ok? && !r.value.value ==> r.value.st == st
    ensures r.Ok? && r.value.value ==>
              var after := r.value.st;
              && st.clock !in st.votes
              && after.votes == st.votes[st.clock := NewEmployeeVote(sid, device.value, Voter(st, employeeId), st.clock)]
              && HasVote(after, sid, device.value)
              && |VotesOf(after.votes, sid)| == |VotesOf(st.votes, sid)| + 1
              && (forall other :: other != sid ==> VotesOf(after.votes, other) == VotesOf(st.votes, other))
              && after.suggestions == st.suggestions[sid := IncrementVoteCount(st.suggestions[sid])]
              && after.employees == st.employees && after.history == st.history
              && after.clock == st.clock + 1
  {
    var d :- ValidateDeviceIdentifier(device);
    if !IsActive(st, sid) then Err(SuggestionNotFound(sid))
    else if HasVote(st, sid, d) then Ok(Outcome(st, false))
    else
      var v := NewEmployeeVote(sid, d, Voter(st, employeeId), st.clock);
      var after := st.(votes := st.votes[st.clock := v],
                       suggestions := st.suggestions[sid := IncrementVoteCount(st.suggestions[sid])],
                       clock := st.clock + 1);
      assert st.clock !in st.votes;
      VotesOfInsert(st.votes, st.clock, v, sid);
      DeviceVotesInsert(st.votes, st.clock, v, sid, d);
      assert forall other :: other != sid ==> VotesOf(after.votes, other) == VotesOf(st.votes, other) by {
        forall other | other != sid {
          VotesOfInsert(st.votes, st.clock, v, other);
        }
      }
      Ok(Outcome(after, true))
  }

  /** `removeVoteForSuggestion`: false when the device has no vote; otherwise its vote
      row goes and the counter comes down by one. */
  function RemoveVoteForSuggestion(st: Store, sid: SuggestionId, device: Option<string>): (r: Result<Outcome<bool>, Error>)
    requires BelowClock(st) && CreatedInKeyOrder(st) && VotesUnique(st.votes)
    ensures r.Ok? <==> device.Some? && ValidDevice(device.value) && IsActive(st, sid)
    ensures r.Err? && device.Some? && ValidDevice(device.value) ==> r.error == SuggestionNotFound(sid)
    ensures r.Ok? ==> (r.value.value <==> HasVote(st, sid, device.value))
    ensures r.Ok? && !r.value.value ==> r.value.st == st
    ensures r.Ok? && r.value.value ==>
              var after := r.value.st;
              && (exists k :: k in st.votes && st.votes[k].suggestionId == sid
                              && st.votes[k].deviceIdentifier == device.value && after.votes == st.votes - {k})
              && !HasVote(after, sid, device.value)
              && |VotesOf(after.votes, sid)| + 1 == |VotesOf(st.votes, sid)|
              && (forall other :: other != sid ==> VotesOf(after.votes, other) == VotesOf(st.votes, other))
              && after.suggestions == st.suggestions[sid := DecrementVoteCount(st.suggestions[sid])]
              && after.employees == st.employees && after.history == st.history
              && after.clock == st.clock
  {
    var d :- ValidateDeviceIdentifier(device);
    if !IsActive(st, sid) then Err(SuggestionNotFound(sid))
    else
      match VoteRepository.FindBySuggestionIdAndDeviceIdentifier(st, sid, d)
      case None => Ok(Outcome(st, false))
      case Some(k) =>
        var after := st.(votes := st.votes - {k},
                         suggestions := st.suggestions[sid := DecrementVoteCount(st.suggestions[sid])]);
        VotesOfRemove(st.votes, {k}, sid);
        DeviceVotesRemove(st.votes, {k}, sid, d);
        assert k in VotesOf(st.votes, sid);
        assert forall other :: other != sid ==> VotesOf(after.votes, other) == VotesOf(st.votes, other) by {
          forall other | other != sid {
            VotesOfRemove(st.votes, {k}, other);
          }
        }
        Ok(Outcome(after, true))
  }

  /** `hasVoted`: validates the device, then asks whether its vote exists (for a live
      or a deleted suggestion alike). */
  function HasVoted(st: Store, sid: SuggestionId, device: Option<string>): (r: Result<bool, Error>)
    ensures r.Ok? <==> device.Some? && ValidDevice(device.value)
    ensures r.Ok? ==> (r.value <==> exists k :: k in st.votes && st.votes[k].suggestionId == sid
                                               && st.votes[k].deviceIdentifier == device.value)
  {
    var d :- ValidateDeviceIdentifier(device);
    Ok(HasVote(st, sid, d))
  }

  /** `getVoteCount` counts vote rows; on a live suggestion that is its counter. */
  function GetVoteCount(st: Store, sid: SuggestionId): (n: nat)
    ensures Valid(st) && IsActive(st, sid) ==> n == st.suggestions[sid].voteCount
    ensures n == 0 <==> forall k :: k in st.votes ==> st.votes[k].suggestionId != sid
  {
    VoteRepository.CountBySuggestionId(st, sid)
  }

  /** `getVotingHistoryByDevice` */
  function GetVotingHistoryByDevice(st: Store, device: Option<string>): (r: Result<seq<VoteId>, Error>)
    requires BelowClock(st) && CreatedInKeyOrder(st)
    ensures r.Ok? <==> device.Some? && ValidDevice(device.value)
    ensures r.Ok? ==> forall k :: k in r.value <==> k in st.votes && st.votes[k].deviceIdentifier == device.value
    ensures r.Ok? ==> forall i, j :: 0 <= i < j < |r.value| ==>
                        st.votes[r.value[i]].createdAt > st.votes[r.value[j]].createdAt
  {
    var d :- ValidateDeviceIdentifier(device);
    Ok(VoteRepository.FindByDeviceIdentifierOrderByCreatedAtDesc(st, d))
  }

  /** `getVotingHistoryByEmployee`: an unknown employee is an error. */
  function GetVotingHistoryByEmployee(st: Store, employeeId: EmployeeId): (r: Result<seq<VoteId>, Error>)
    requires BelowClock(st) && CreatedInKeyOrder(st)
    ensures r.Ok? <==> employeeId in st.employees
    ensures r.Err? ==> r.error == EmployeeNotFound(employeeId)
    ensures r.Ok? ==> forall k :: k in r.value <==> k in st.votes && st.votes[k].employee == Some(employeeId)
  {
    if employeeId !in st.employees then Err(EmployeeNotFound(employeeId))
    else Ok(VoteRepository.FindByEmployeeOrderByCreatedAtDesc(st, employeeId))
  }

  /** `VoteResult`: which way the toggle went, whether it took effect, and the count after. */
  datatype VoteResult = VoteResult(voted: bool, success: bool, newVoteCount: nat) {
    function Message(): (m: string)
      ensures success <==> m == "Vote added successfully" || m == "Vote removed successfully"
      ensures voted <==> m == "Vote added successfully" || m == "Failed to add vote"
    {
      if !success then (if voted then "Failed to add vote" else "Failed to remove vote")
      else if voted then "Vote added successfully" else "Vote removed successfully"
    }
  }

  /** `toggleVote`: removes the device's vote when there is one, adds it otherwise, and
      reports the count afterwards. Run on its own it always succeeds. */
  function ToggleVote(st: Store, sid: SuggestionId, device: Option<string>,
                      employeeId: Option<EmployeeId>): (r: Result<Outcome<VoteResult>, Error>)
    requires BelowClock(st) && CreatedInKeyOrder(st) && VotesUnique(st.votes)
    ensures r.Ok? <==> device.Some? && ValidDevice(device.value) && IsActive(st, sid)
    ensures r.Ok? ==> r.value.value.success
    ensures r.Ok? ==> (r.value.value.voted <==> !HasVote(st, sid, device.value))
    ensures r.Ok? ==> (HasVote(r.value.st, sid, device.value) <==> !HasVote(st, sid, device.value))
    ensures r.Ok? ==> r.value.value.newVoteCount == |VotesOf(r.value.st.votes, sid)|
    ensures r.Ok? ==> r.value.st.employees == st.employees && r.value.st.history == st.history
  {
    var d :- ValidateDeviceIdentifier(device);
    if HasVote(st, sid, d) then
      var removed :- RemoveVoteForSuggestion(st, sid, device);
      Ok(Outcome(removed.st, VoteResult(false, removed.value, GetVoteCount(removed.st, sid))))
    else
      var added :- VoteForSuggestion(st, sid, device, employeeId);
      Ok(Outcome(added.st, VoteResult(true, added.value, GetVoteCount(added.st, sid))))
  }

  /** `removeAllVotesForSuggestion`: every vote of the live suggestion goes and its
      counter is reset. */
  function RemoveAllVotesForSuggestion(st: Store, sid: SuggestionId): (r: Result<Store, Error>)
    ensures r.Ok? <==> IsActive(st, sid)
    ensures r.Err? ==> r.error == SuggestionNotFound(sid)
    ensures r.Ok? ==> VotesOf(r.value.votes, sid) == {}
    ensures r.Ok? ==> forall other :: other != sid ==> VotesOf(r.value.votes, other) == VotesOf(st.votes, other)
    ensures r.Ok? ==> r.value.votes.Keys <= st.votes.Keys
    ensures r.Ok? ==> forall k :: k in r.value.votes ==> r.value.votes[k] == st.votes[k]
    ensures r.Ok? ==> r.value.suggestions == st.suggestions[sid := st.suggestions[sid].(voteCount := 0)]
    ensures r.Ok? ==> r.value.employees == st.employees && r.value.history == st.history
    ensures r.Ok? ==> r.value.clock == st.clock
  {
    if !IsActive(st, sid) then Err(SuggestionNotFound(sid))
    else
      var votes := map k | k in st.votes && st.votes[k].suggestionId != sid :: st.votes[k];
      Ok(st.(votes := votes, suggestions := st.suggestions[sid := st.suggestions[sid].(voteCount := 0)]))
  }

  /** A vote whose suggestion has been soft-deleted. */
  predicate Orphaned(st: Store, k: VoteId)
    requires Linked(st) && k in st.votes
  {
    st.suggestions[st.votes[k].suggestionId].deleted
  }

  function Orphans(st: Store): set<VoteId>
    requires Linked(st)
  {
    set k | k in st.votes && Orphaned(st, k)
  }

  /** The orphaned votes with keys below `n`. */
  function OrphansBelow(st: Store, n: nat): set<VoteId>
    requires Linked(st)
  {
    set k | k in st.votes && k < n && Orphaned(st, k)
  }

  lemma OrphansBelowStep(st: Store, n: nat)
    requires Linked(st)
    ensures OrphansBelow(st, n + 1)
            == OrphansBelow(st, n) + (if n in st.votes && Orphaned(st, n) then {n} else {})
  {
  }

  /** Every vote key lies below the clock, so the scan up to the clock sees every orphan. */
  lemma OrphansBelowClock(st: Store)
    requires Linked(st) && BelowClock(st)
    ensures OrphansBelow(st, st.clock) == Orphans(st)
  {
  }

  /** `cleanupOrphanedVotes`: walks every vote and deletes those of deleted suggestions,
      counting them. */
  method CleanupOrphanedVotes(st: Store) returns (after: Store, cleaned: nat)
    requires Linked(st) && BelowClock(st)
    ensures after.votes == st.votes - Orphans(st)
    ensures cleaned == |Orphans(st)|
    ensures forall k :: k in after.votes ==> !st.suggestions[after.votes[k].suggestionId].deleted
    ensures after == st.(votes := after.votes)
  {
    var removed: set<VoteId> := {};
    var votes := st.votes;
    cleaned := 0;
    for n := 0 to st.clock
      invariant removed == OrphansBelow(st, n)
      invariant votes == st.votes - removed
      invariant cleaned == |removed|
    {
      OrphansBelowStep(st, n);
      if n in st.votes && Orphaned(st, n) {
        assert n !in removed;
        votes := votes - {n};
        removed := removed + {n};
        cleaned := cleaned + 1;
      }
    }
    OrphansBelowClock(st);
    after := st.(votes := votes);
  }
}

=== FILE: wrappers.dfy ===
/** Failure-compatible wrappers: `Option` stands for a Java reference that may be
    null (or an `Optional`), `Result` for a call that either returns or throws. */
module Wrappers {

  datatype Option<+T> = None | Some(value: T)

  datatype Result<+T, +E> = Ok(value: T) | Err(error: E) {

    predicate IsFailure() {
      Err?
    }

    function PropagateFailure<U>(): Result<U, E>
      requires Err?
    {
      Err(error)
    }

    function Extract(): T
      requires Ok?
    {
      value
    }
  }
}
